=== FILE: README.md ===
# nexis-clicker in Dafny

A model of the pure logic inside the two Nexis Uni scrapers of the
nexis-clicker repository, `nexis_clicker/__main__.py` and
`nexis_scraper/__main__.py`. Both drive a browser through a news database,
month by month. For each month they download the search results as ZIP
archives of at most 100 RTF documents, then turn every document into a JSON
record. The browser automation is left out. What remains, and is modelled
here, is:

- **Window planner** (`windows.dfy`, `calendar.dfy`). The list of
  `(month, year)` query windows is `[start, end)` in nexis_clicker and
  `[start, end]` in nexis_scraper. Each window has a date filter running
  from `01/{month}/{year}` to `{days}/{month}/{year}`, where `days` is the
  Gregorian length of the month.
- **Chunk planner and naming** (`chunks.dfy`, `layout.dfy`).
  - The result count is read from the results header.
  - The index ranges are requested forward, or backward past the
    1000-result cap.
  - A range's label is `x-y`, or `x` alone when the range holds one
    position.
  - Archives are stored at `zip/{year}-{MM}/{B?}{label}.zip`.
- **Resume classifier** (`resume.dfy`). Before searching, `search_by_month`
  runs a suffix test over the names already stored. It decides whether a
  window is finished, capped, or still to be downloaded.
- **Download walk and the main loop** (`download.dfy`, `clickthrough.dfy`).
  - Every planned archive that is already stored is skipped.
  - The loop over windows stops at the first window that the resume test
    does not skip and whose result count cannot be read.
  - Storage is a set of paths relative to the data directory.
- **Archive unpacking** (`archive.dfy`). `unpack` drops the `_doclist`
  entries, then decodes each remaining entry as latin-1, converts it from
  RTF, strips it and replaces no-break spaces.
- **Record parser** (`records.dfy`). It models:
  - the three header lines;
  - the `Dateline:\s?(.+),[^,]+\n` regex, including its greedy matching
    and backtracking;
  - the two location splits: `rsplit(", ", 1)` in nexis_clicker and the
    two-way unpacking of `split(", ")` in nexis_scraper;
  - the body between `Body` and `Graphic` or `Load-Date`.
- **Record sink** (`sink.dfy`). This is `process_dowload` (nexis_clicker,
  which skips and reports undated records) and `process` (nexis_scraper,
  which has no such guard). Both write to `json/{YYYY-MM-DD}/{name}.json`,
  and the JSON tree is modelled as a map from paths to records.

Foreign calls are parameters:

- `rtf_to_text` is `rtfToText: string -> string`.
- `dateparser.parse` is `parseDate: string -> Option<Date>`.
- The text of the results header that each window shows is
  `header: Window -> string`.
- The sink is given the parser as `parse: string -> Result<Record, ParseError>`,
  so it can run with either scraper's `parse` or with the corrected one.
- The ZIP container is given as its already opened list of entries.

The exceptions that the modelled logic raises are explicit error values:

- `ParseError` for `parse`;
- `CountError` for the result count;
- `SinkError` for the sink loops.

Exceptions from the browser session, the file system, the ZIP library and
the foreign calls are outside the model (see "Left out").

`wrappers.dfy` holds `Option` and `Result`. `text.dfy` holds Python's string
operations: `split`, `rsplit`, `strip`, `str.isspace`, `in` and `endswith`.
`decimal.dfy` holds `str(n)`, `f"{n:02d}"` and `int(s)`, with their round
trips.

The code behaves as follows, and so does the model:

- A document without a `Dateline:` line makes both parsers raise, at the
  `", " in location` test. It is not read as a missing location.
- nexis_clicker splits the location at the LAST `", "`, not the first.
- The location and the country are not stripped.
- The regex group ends at the last comma of the Dateline line. So
  `Dateline: Paris, France` followed by a line break gives the location
  `Paris` and no country.
- Backward archives are labelled with the requested positions `x-y` plus
  the `B` prefix, with no offset.
- A parse failure or an unreadable date ends the whole sink loop, not just
  the one document.
- An unreadable result count ends the whole run, not just the window.

## Model

| member | source | states |
|---|---|---|
| Windows.ClickerWindows | nexis_clicker/__main__.py:48-50 | there are 12·(end−start) windows (none when end ≤ start); window k is month k%12+1 of year start+k/12, so the list is year-major |
| Windows.ClickerWindowsCover | nexis_clicker/__main__.py:48-50 | a window is listed iff its year is in [start, end) and its month in 1..12 |
| Windows.ScraperWindows | nexis_scraper/__main__.py:48-49 | there are 12·(end−start+1) windows when end ≥ start; window k is month k%12+1 of year start+k/12 |
| Windows.ScraperWindowsCover | nexis_scraper/__main__.py:48-49 | a window is listed iff its year is in [start, end] (inclusive) and its month in 1..12 |
| Windows.WindowsChronological | nexis_clicker/__main__.py:48-50 | windows are visited in strictly increasing calendar order, so none repeats |
| Calendar.DaysInMonth | nexis_scraper/__main__.py:172 | month lengths are 28..31: 31 for the seven long months, 30 for the four short ones, 29 exactly for February of a Gregorian leap year |
| Calendar.YearLength | nexis_scraper/__main__.py:172 | the twelve month lengths sum to 366 in leap years and 365 otherwise |
| Calendar.FourHundredYearCycle | nexis_scraper/__main__.py:172 | month lengths repeat every 400 years |
| Calendar.MonthBounds | nexis_scraper/__main__.py:170-173 | the two filter strings, read back as day/month/year, name day 1 and the last day of the month |
| Resume.SearchByMonth | nexis_clicker/__main__.py:151-175 | the window is skipped (None) iff the classifier says skip; otherwise the filter bounds name the first and last day of the month |
| Resume.Classify | nexis_clicker/__main__.py:151-159 | Finished iff some stored name does not end in `00.zip`; Capped only when going forward and some name ends in `000.zip`; Proceed iff every name ends in `00.zip` and (going backward, or no name ends in `000.zip`); an empty directory proceeds |
| Resume.SkipMonotone | nexis_scraper/__main__.py:148-156 | storing more archives never turns a skipped window back into one to download |
| Resume.BackwardSkipsLess | nexis_scraper/__main__.py:152-156 | backward mode is never capped, and it skips only windows that forward mode also skips |
| Resume.ClassifierSuffixes | nexis_clicker/__main__.py:152-155 | a chunk name ends in `00.zip` iff its last position is a multiple of 100, and in `000.zip` iff a multiple of 1000 |
| Resume.FinishedAfterPlan | nexis_clicker/__main__.py:152-154 | once every archive of a plan is stored, and the plan's last position is not a multiple of 100, the window is Finished in either direction |
| Resume.RoundCountIsReentered | nexis_clicker/__main__.py:152-159 | a forward window with a count that is a multiple of 100 below 1000 is still Proceed once its directory holds exactly its archives, whatever the rest of storage holds |
| Resume.CappedAfterFullForward | nexis_clicker/__main__.py:155-159 | once the window's directory holds exactly the archives of a forward walk of ≥ 1000 results, forward mode is Capped and backward mode is Proceed, whatever the rest of storage holds |
| Resume.ExistingNamesOfPlan | nexis_clicker/__main__.py:151 | when the window's directory holds exactly a plan's archives, the glob lists exactly the plan's names; other directories do not matter |
| Chunks.ResultCount | nexis_clicker/__main__.py:208-211 | reading fails with NoCount iff no `(digits and dots)` group occurs; on success such a group occurs |
| Chunks.ResultCountReads | nexis_clicker/__main__.py:209-211 | the count is read from the leftmost match (the one `re.search` returns); it fails with EmptyCount iff that group holds only dots; otherwise it is the group's reference reading, in which each digit shifts the value one decimal place and adds itself and a dot adds nothing |
| Chunks.DottedValueIsDigitsValue | nexis_clicker/__main__.py:210 | `int` of the group with its dots removed equals the reference reading of the group |
| Chunks.DotIgnored | nexis_scraper/__main__.py:201-203 | inserting a dot anywhere in a group leaves its reading unchanged |
| Chunks.DottedValueOfDigits | nexis_scraper/__main__.py:201-203 | a group without dots reads as `int` reads its digits |
| Chunks.ResultCountOfGroup | nexis_scraper/__main__.py:200-203 | a header whose first parenthesis encloses a run of digits and dots reads as that run's reference reading, or fails with EmptyCount when the run holds only dots |
| Chunks.ResultCountOfNumeral | nexis_scraper/__main__.py:200-203 | a header whose first parenthesis holds `str(n)` reports n |
| Chunks.ResultCountWithSeparator | nexis_scraper/__main__.py:200-203 | dots are thousands separators: `(1.234)` reads as 1234 |
| Chunks.Plan | nexis_clicker/__main__.py:212-220 | the ranges start at 1, are contiguous, each at most 100 wide with x ≤ y, end at min(N, 1000) forward or min(N−1000, 1000) backward, and are none when that limit is not positive |
| Chunks.PlanCovers | nexis_clicker/__main__.py:212-220 | a position is covered iff it lies in [1, limit] |
| Chunks.PlanAscending | nexis_scraper/__main__.py:208-212 | earlier ranges lie wholly before later ones, so no two overlap |
| Chunks.NoBackwardPlanUnderCap | nexis_clicker/__main__.py:214-215 | with at most 1000 results there is nothing to fetch backward |
| Layout.LabelRoundTrip | nexis_clicker/__main__.py:221 | a label reads back as its range |
| Layout.ChunkNameRoundTrip | nexis_clicker/__main__.py:221-223 | an archive name reads back as its direction and range |
| Layout.ChunkNameInjective | nexis_scraper/__main__.py:213-215 | distinct chunks get distinct names; forward and backward names never coincide |
| Layout.ChunkPathInjective | nexis_clicker/__main__.py:223 | two archive paths are equal only for the same year, month, direction and range |
| Layout.ExistingNamesOfChunk | nexis_clicker/__main__.py:151 | a chunk's name is listed by the window's glob iff its archive path is stored |
| Download.Fetch | nexis_clicker/__main__.py:216-226 | an existing path is skipped with no further action; afterwards every path of the walk is stored, exactly the paths that were missing have been fetched, and none twice |
| Download.FetchIsMissing | nexis_clicker/__main__.py:225-226 | the fetched paths are the missing ones, in plan order |
| Download.FetchAgain | nexis_clicker/__main__.py:225-226 | walking the same paths again fetches nothing and changes nothing |
| Download.ResumeAfterInterruption | nexis_scraper/__main__.py:217-218 | a run interrupted after a prefix and then restarted fetches exactly what one uninterrupted run fetches, and leaves the same storage |
| Download.PlanPathsDistinct | nexis_clicker/__main__.py:216-223 | the archive paths of one plan are pairwise distinct |
| Download.DownloadWindow | nexis_clicker/__main__.py:208-226 | the download fails iff the count cannot be read, and then with that error; on success it fetches exactly the plan's missing archives and stores all of them |
| Clickthrough.Visit | nexis_clicker/__main__.py:54-62 | one iteration raises iff the resume test does not skip the window and its result count cannot be read, and then with the count's error; a skipped window fetches nothing and leaves storage as it was; otherwise the window fetches exactly the archives of its plan that were missing, in plan order, and every archive of its plan is stored afterwards; storage grows by exactly the fetched paths |
| Clickthrough.Run | nexis_clicker/__main__.py:52-63 | every fetched path was missing before the run and is an archive path of the plan of one of the windows; none is fetched twice; storage grows by exactly the fetched paths; a run that does not stop leaves every window settled (skipped by the resume test, or its count readable and every archive of its plan stored); a run that stops does so at one of the windows, and every window before it is settled; it stops only at a window that the resume test does not skip and whose result count cannot be read; every fetched path belongs to the plan of a window before the stop (of any window when there is none), and every such window that the resume test did not skip on the storage the run started from has every archive of its plan stored |
| Clickthrough.ClickerRun | nexis_clicker/__main__.py:37-63 | the same, stated by calendar month over the years [start, end): fetched paths belong to plans of months in range; a stop is within those years; without a stop every month in range is settled, and with one every earlier month in range is; the stopping month is one the resume test does not skip and whose result count cannot be read; after a stop, fetched paths belong to plans of months before it; every month before the stop (every month in range without one) that the resume test did not skip at the start has every archive of its plan stored |
| Clickthrough.ScraperRun | nexis_scraper/__main__.py:37-60 | the same, over the years [start, end] |
| Clickthrough.VisitSettled | nexis_clicker/__main__.py:52-62 | visiting a settled window fetches nothing and changes nothing |
| Clickthrough.RerunFetchesNothing | nexis_clicker/__main__.py:52-62 | running again after a complete run, with the same counts, fetches nothing and leaves storage unchanged |
| Archive.Latin1RoundTrip | nexis_clicker/__main__.py:274 | latin-1 decoding loses nothing: encoding gives the bytes back, and vice versa |
| Archive.Normalize | nexis_clicker/__main__.py:275-276 | the normalized text is a stretch of the input with only whitespace before and after it, each character kept except that a no-break space becomes a plain space; it holds no no-break space and has no surrounding whitespace |
| Archive.NormalizeIdempotent | nexis_scraper/__main__.py:261-262 | normalizing twice is normalizing once |
| Archive.Kept | nexis_clicker/__main__.py:271-273 | an entry is kept iff it is in the archive and its name lacks `_doclist` |
| Archive.KeptConcat | nexis_scraper/__main__.py:257-259 | the filter keeps archive order: filtering a + b gives filter(a) + filter(b) |
| Archive.Unpack | nexis_clicker/__main__.py:268-278 | one pair per kept entry, in archive order, holding its name and its normalized text; no text holds a no-break space |
| Records.FormatDate | nexis_clicker/__main__.py:298 | a formatted date is non-empty and has no '/' (so it is a single path component) |
| Records.SplitHeader | nexis_clicker/__main__.py:282-284 | fails iff the text has fewer than three line breaks; otherwise three break-free lines joined back with the rest give the text |
| Records.SplitHeaderOfJoin | nexis_scraper/__main__.py:268-270 | header round trip: three break-free lines and a rest are split back out unchanged |
| Records.Dateline | nexis_clicker/__main__.py:286-287 | None iff the pattern matches nowhere; otherwise the group of the first match (no match starts earlier), which is non-empty and on one line |
| Records.DatelineOfFirstMatch | nexis_clicker/__main__.py:286-287 | conversely, the group of the earliest match is what `Dateline` returns |
| Records.GroupEndsAtLastComma | nexis_clicker/__main__.py:286 | on a Dateline line whose last comma has text after it, the group ends exactly at that comma |
| Records.NoColonNoDateline | nexis_scraper/__main__.py:272-273 | text without a colon has no Dateline |
| Records.SplitLocationClicker | nexis_clicker/__main__.py:288-291 | with `", "` present, location + `", "` + country gives back the group and the country holds no `", "`; otherwise the country is None and the location is unchanged |
| Records.SplitLocationScraper | nexis_scraper/__main__.py:274-277 | without `", "` the country is None; on success the two parts join back to the group; it fails only when `", "` occurs again after the first |
| Records.LocationSplitsAgree | nexis_scraper/__main__.py:274-277 | the scraper's split fails iff `", "` occurs twice or more; otherwise it equals the clicker's |
| Records.TwoSeparatorsExample | nexis_scraper/__main__.py:275 | `P, Q, R` fails the scraper's two-way unpacking and splits into `P, Q` and `R` in nexis_clicker |
| Records.BodyText | nexis_clicker/__main__.py:292-296 | fails with NoBody iff `Body` is absent, and with NoEndMarker iff neither `Graphic` nor `Load-Date` follows it; on success the rest is meta + `Body` + text + marker + tail, where meta holds no `Body` (the first one is cut), text holds no marker (the first one is cut), and the marker is `Load-Date` only when no `Graphic` follows `Body` |
| Records.BodyTextOfSplit | nexis_clicker/__main__.py:292-296 | conversely, every such decomposition of the rest yields its text |
| Records.Assemble | nexis_clicker/__main__.py:297-304 | fails iff the body cannot be cut, with that error; on success title, source and text are the stripped header lines and body text; location and country are passed through unstripped; the date is present iff dateparser reads the raw date, and is then its `%Y-%m-%d` form |
| Records.ParseClicker | nexis_clicker/__main__.py:281-304 | fails iff there are fewer than three header lines (TooFewLines), no Dateline match (NoDateline), or the body cannot be cut (its error); on success the record holds the stripped title, source and body text, the date as Assemble states, and the location and country that `rsplit(", ", 1)` makes of the Dateline group, unstripped |
| Records.ParseClickerOfDocument | nexis_clicker/__main__.py:281-304 | round trip: a document built from three break-free header lines and a rest with a Dateline and a body parses to exactly the record those parts determine |
| Records.ParseScraper | nexis_scraper/__main__.py:267-291 | the same for nexis_scraper's `parse`, with `split(", ")` unpacked into two: it fails also iff that unpacking fails (TooManyCommaParts), and on success location and country are the unpacked parts |
| Records.ParsersAgree | nexis_scraper/__main__.py:267-291 | the two parsers give the same result unless the location holds `", "` twice or more, where nexis_scraper fails |
| Records.ClickerRaisesWithoutDateline | nexis_clicker/__main__.py:286-288 | a document without a Dateline makes `parse` raise, while the corrected parser reads it |
| Records.ParseClickerFixed | nexis_clicker/__main__.py:286-291 | the corrected parser fails iff there are fewer than three header lines or the body cannot be cut; without a Dateline the location and country are None, with one they are nexis_clicker's split; the other fields are as in ParseClicker |
| Records.ParseFixedWithoutDateline | nexis_clicker/__main__.py:286-291 | round trip: a document without a Dateline parses to the record of its parts, with no location and no country |
| Records.FixedAgreesWithClicker | nexis_clicker/__main__.py:281-304 | the corrected parser equals nexis_clicker's wherever that one does not raise NoDateline; where it does, the corrected record has no location or country |
| Sink.JsonPathInjective | nexis_clicker/__main__.py:315 | a JSON path determines its date directory and entry name |
| Sink.ClickerStep | nexis_clicker/__main__.py:310-317 | a record is skipped iff it parses without a date; the loop raises iff parsing fails or the date cannot be read back; otherwise the parsed record is written under the date read back and the entry name |
| Sink.ScraperStep | nexis_scraper/__main__.py:296-301 | nothing is skipped; a missing date raises; otherwise the same as nexis_clicker |
| Sink.StepsAgree | nexis_scraper/__main__.py:296-301 | the two loops act alike on every dated record; on an undated one nexis_clicker skips and nexis_scraper raises |
| Sink.FiledUnderOwnDate | nexis_clicker/__main__.py:314-315 | when dateparser reads back what strftime wrote, each record is filed under its own date |
| Sink.Apply | nexis_clicker/__main__.py:309-317 | the loop completes iff no entry raises; an error names the first entry that raises; the reported names are exactly those of the skipped entries that come before any entry that raises |
| Sink.ApplyStore | nexis_clicker/__main__.py:309-317 | the JSON tree afterwards is the tree before overlaid with the files the loop writes, which do not depend on the tree |
| Sink.ProcessDownload | nexis_clicker/__main__.py:307-317 | it completes iff every entry parses and every date it meets can be read back; the reported names are exactly those of the undated entries that come before the entry that raises (all undated entries when the loop completes) |
| Sink.Process | nexis_scraper/__main__.py:294-301 | it reports nothing, and completes iff every entry parses to a record whose date is present and can be read back |
| Sink.ProcessDownloadIdempotent | nexis_clicker/__main__.py:307-317 | processing the same archive a second time leaves the same tree and the same report (for both sinks) |
| Sink.ProcessDownloadFiles | nexis_clicker/__main__.py:311-317 | every file afterwards was there before or holds a parsed entry under its step's path; a completed loop writes every record whose date can be read |
| Sink.SinksAgreeOnDatedRecords | nexis_scraper/__main__.py:294-301 | when every record has a date, both sinks give the same outcome |
| Sink.NoDatelineAbortsArchive | nexis_clicker/__main__.py:309-311 | one document without a Dateline ends `process_dowload` at that entry, and no later entry of the archive is written |

## Left out

- Playwright UI automation is not modelled: `setup`, `login`, `search`, `click`, `visit_permalink`, and the clicking, filling and waiting in `search_by_month` and `download`. It drives an external session. The bounds that `search_by_month` types into the date filter are returned rather than typed.
- Cookie storage and the cookie-age check are not modelled: they are file and clock I/O.
- `asyncio`, `tqdm`, `print`, `shutil.move` and the JSON text formatting are not modelled. The undated-record report is the list of names in the outcome.
- The ZIP container is not modelled: its opening and reading are a foreign library, so the model starts from its list of entries. An archive that cannot be opened is not modelled.
- `striprtf.rtf_to_text` and `dateparser.parse` are not modelled: they are foreign calls and enter as parameters. Whether `dateparser` reads back the dates that `strftime` wrote is stated as a hypothesis (Sink.FiledUnderOwnDate), not assumed.
- `re`'s `\d` and `int()` are modelled on ASCII digits only. Python also accepts other Unicode decimal digits there.
- The page size `n` of `download` is fixed at its default of 1000.
- Clickthrough.Run: it is not composed with the sink. In the source, `download` calls the sink after storing each archive, and an exception there also ends the run. The model keeps the two loops separate, because the archive's contents come from the network.
- Clickthrough.Run: the counts are fixed per window. The `header` parameter gives the same count on every visit; a count that changes between runs is not modelled.
- The two `dateparser.parse` calls are one parameter, `parseDate`. `parse` calls it with `languages=["en"]` (nexis_clicker/__main__.py:285, nexis_scraper/__main__.py:271); the sinks call it without arguments on the formatted date (nexis_clicker/__main__.py:314, nexis_scraper/__main__.py:298). The model gives both calls the same reading.
- A results header element that is missing (`query_selector` returning None) is not modelled; only an unreadable count is.

## Findings

| source | as written | input that shows it | evidently intended | confidence | as-written member | corrected member |
|---|---|---|---|---|---|---|
| nexis_clicker/__main__.py:286-291 | `location` is None when no Dateline matches, and `", " in location` then raises TypeError, so `parse` fails; in `process_dowload` this ends the whole archive | the document `T\nS\nD\nBodyGraphic` | a document without a Dateline gets no location and no country (the `else: country = None` branch and the None default provide for it) | not executed; high | Records.ClickerRaisesWithoutDateline | Records.ParseClickerFixed |
| nexis_scraper/__main__.py:274-275 | `location, country = location.split(", ")` raises ValueError when the Dateline location holds `", "` twice or more | the location `P, Q, R` | split into place and country at the last separator, as nexis_clicker's `rsplit(", ", 1)` does | not executed; medium | Records.TwoSeparatorsExample | Records.SplitLocationClicker |

=== FILE: archive.dfy ===
/** `unpack`: the documents of one downloaded archive, as (entry name,
    plain text) pairs. The ZIP container is given already opened, as its
    entries in archive order, and `rtf_to_text` is a parameter. */
module Archive {
  import opened Text

  type byte = x: int | 0 <= x < 256

  /** One member of the archive: its file name and its raw bytes. */
  datatype Entry = Entry(name: string, data: seq<byte>)

  /** `bytes.decode("latin-1")`: every byte is the code point of the same
      number. */
  function Latin1(data: seq<byte>): (s: string)
    ensures |s| == |data|
    ensures forall k :: 0 <= k < |s| ==> s[k] as int == data[k]
  {
    seq(|data|, k requires 0 <= k < |data| => data[k] as char)
  }

  /** `str.encode("latin-1")` on text whose code points are all below 256. */
  function Latin1Encode(s: string): (data: seq<byte>)
    requires forall k :: 0 <= k < |s| ==> s[k] as int < 256
    ensures |data| == |s|
  {
    seq(|s|, k requires 0 <= k < |s| => s[k] as int)
  }

  /** Latin-1 decoding loses nothing: encoding the text gives back the
      bytes, and every text of code points below 256 is the decoding of
      its encoding. */
  lemma Latin1RoundTrip(data: seq<byte>, s: string)
    requires forall k :: 0 <= k < |s| ==> s[k] as int < 256
    ensures Latin1Encode(Latin1(data)) == data
    ensures Latin1(Latin1Encode(s)) == s
  {
  }

  /** A no-break space becomes a plain space; other characters stay. */
  function Unbreak(c: char): char {
    if c == '\U{a0}' then ' ' else c
  }

  /** `r` is `t` from index `i` on, with whitespace only before `i` and
      after `r`'s extent, each character passed through `Unbreak`. */
  predicate NormalizedAt(t: string, i: int, r: string) {
    && 0 <= i <= |t| - |r|
    && AllSpace(t[..i]) && AllSpace(t[i + |r|..])
    && UnbrokenFrom(t, i, r)
  }

  /** `r` is `t` from index `i` on, each character passed through `Unbreak`. */
  predicate UnbrokenFrom(t: string, i: int, r: string)
    requires 0 <= i <= |t| - |r|
  {
    forall k :: 0 <= k < |r| ==> r[k] == Unbreak(t[i + k])
  }

  lemma UnbreakSlice(t: string, s: string, i: int, r: string)
    requires 0 <= i <= |t| - |s| && s == t[i..i + |s|]
    requires r == ReplaceChar(s, '\U{a0}', ' ')
    ensures |r| == |s| && UnbrokenFrom(t, i, r)
  {
    forall k | 0 <= k < |r|
      ensures r[k] == Unbreak(t[i + k])
    {
      assert s[k] == t[i + k];
    }
  }

  /** `.strip().replace("\xa0", " ")`: the input with whitespace cut off
      on both sides and every no-break space in between made a plain space.
      The result has no no-break space and no surrounding whitespace (a
      no-break space is whitespace, so none is left at either end for the
      replacement to turn into a space). */
  function Normalize(t: string): (r: string)
    ensures exists i :: NormalizedAt(t, i, r)
    ensures '\U{a0}' !in r
    ensures IsStripped(r)
  {
    NormalizeFacts(t);
    ReplaceChar(Strip(t), '\U{a0}', ' ')
  }

  lemma NormalizeFacts(t: string)
    ensures var r := ReplaceChar(Strip(t), '\U{a0}', ' ');
            (exists i :: NormalizedAt(t, i, r)) && '\U{a0}' !in r && IsStripped(r)
  {
    NormalizeWhere(t);
    NormalizeClean(Strip(t));
  }

  lemma NormalizeWhere(t: string)
    ensures exists i :: NormalizedAt(t, i, ReplaceChar(Strip(t), '\U{a0}', ' '))
  {
    var s := Strip(t);
    var i :| 0 <= i <= |t| - |s| && s == t[i..i + |s|] && AllSpace(t[..i]) && AllSpace(t[i + |s|..]);
    NormalizedAtSlice(t, s, i);
  }

  lemma NormalizedAtSlice(t: string, s: string, i: int)
    requires 0 <= i <= |t| - |s| && s == t[i..i + |s|]
    requires AllSpace(t[..i]) && AllSpace(t[i + |s|..])
    ensures NormalizedAt(t, i, ReplaceChar(s, '\U{a0}', ' '))
  {
    var r := ReplaceChar(s, '\U{a0}', ' ');
    UnbreakSlice(t, s, i, r);
  }

  /** Replacing no-break spaces in stripped text leaves none, and leaves the
      ends alone, since neither end is whitespace. */
  lemma NormalizeClean(s: string)
    requires IsStripped(s)
    ensures var r := ReplaceChar(s, '\U{a0}', ' ');
            '\U{a0}' !in r && IsStripped(r)
  {
    var r := ReplaceChar(s, '\U{a0}', ' ');
    assert forall k :: 0 <= k < |r| ==> r[k] != '\U{a0}';
    if r != [] {
      assert r[0] == s[0] && r[|r| - 1] == s[|s| - 1];
    }
  }

  /** Normalizing normalized text changes nothing. */
  lemma NormalizeIdempotent(t: string)
    ensures Normalize(Normalize(t)) == Normalize(t)
  {
    var r := Normalize(t);
    StripOfStripped(r);
    var r2 := ReplaceChar(r, '\U{a0}', ' ');
    assert forall k :: 0 <= k < |r| ==> r[k] != '\U{a0}';
    assert r2 == r;
  }

  /** The entries `unpack` reads: those whose name lacks `_doclist`, in
      archive order. */
  function Kept(entries: seq<Entry>): (ks: seq<Entry>)
    ensures |ks| <= |entries|
    ensures forall e :: e in ks <==> e in entries && !Contains(e.name, "_doclist")
  {
    if entries == [] then []
    else (if Contains(entries[0].name, "_doclist") then [] else [entries[0]]) + Kept(entries[1..])
  }

  /** The filter keeps archive order: the kept entries of two runs of
      entries are the kept entries of each, one after the other. */
  lemma {:induction false} KeptConcat(a: seq<Entry>, b: seq<Entry>)
    ensures Kept(a + b) == Kept(a) + Kept(b)
    decreases |a|
  {
    if a == [] {
      assert a + b == b;
    } else {
      assert (a + b)[0] == a[0] && (a + b)[1..] == a[1..] + b;
      KeptConcat(a[1..], b);
    }
  }

  /** The text `unpack` extracts from one entry. */
  function EntryText(e: Entry, rtfToText: string -> string): string {
    Normalize(rtfToText(Latin1(e.data)))
  }

  /** Reading one more entry extends the kept entries by it, or by nothing
      when its name holds `_doclist`. */
  lemma KeptStep(entries: seq<Entry>, i: int)
    requires 0 <= i < |entries|
    ensures Kept(entries[..i + 1])
            == Kept(entries[..i]) + (if Contains(entries[i].name, "_doclist") then [] else [entries[i]])
  {
    KeptConcat(entries[..i], [entries[i]]);
    assert entries[..i + 1] == entries[..i] + [entries[i]];
    assert [entries[i]][1..] == [];
  }

  /** The `(name, text)` pairs of the given entries, in order, each text
      read by `read`. */
  function Pairs(ks: seq<Entry>, read: Entry -> string): (ps: seq<(string, string)>)
    ensures |ps| == |ks|
    ensures forall k :: 0 <= k < |ks| ==> ps[k] == (ks[k].name, read(ks[k]))
  {
    seq(|ks|, k requires 0 <= k < |ks| => (ks[k].name, read(ks[k])))
  }

  lemma PairsConcat(a: seq<Entry>, b: seq<Entry>, read: Entry -> string)
    ensures Pairs(a + b, read) == Pairs(a, read) + Pairs(b, read)
  {
    assert forall k :: 0 <= k < |b| ==> (a + b)[|a| + k] == b[k];
  }

  /** An entry whose name holds `_doclist` adds no pair. */
  lemma SkippedEntry(entries: seq<Entry>, i: int, read: Entry -> string)
    requires 0 <= i < |entries| && Contains(entries[i].name, "_doclist")
    ensures Pairs(Kept(entries[..i + 1]), read) == Pairs(Kept(entries[..i]), read)
  {
    KeptStep(entries, i);
    assert Kept(entries[..i + 1]) == Kept(entries[..i]) + [];
  }

  /** Any other entry adds its own pair at the end. */
  lemma ReadEntry(entries: seq<Entry>, i: int, read: Entry -> string)
    requires 0 <= i < |entries| && !Contains(entries[i].name, "_doclist")
    ensures Pairs(Kept(entries[..i + 1]), read)
            == Pairs(Kept(entries[..i]), read) + [(entries[i].name, read(entries[i]))]
  {
    var ks := Kept(entries[..i]);
    KeptStep(entries, i);
    assert Kept(entries[..i + 1]) == ks + [entries[i]];
    PairsConcat(ks, [entries[i]], read);
  }

  /** `unpack`: one pair per kept entry, in archive order, holding the
      entry's name and its normalized text; no text holds a no-break space
      or surrounding whitespace. */
  method Unpack(entries: seq<Entry>, rtfToText: string -> string) returns (texts: seq<(string, string)>)
    ensures |texts| == |Kept(entries)|
    ensures forall k :: 0 <= k < |texts| ==>
              texts[k].0 == Kept(entries)[k].name && texts[k].1 == EntryText(Kept(entries)[k], rtfToText)
    ensures forall k :: 0 <= k < |texts| ==> '\U{a0}' !in texts[k].1 && IsStripped(texts[k].1)
    ensures forall k :: 0 <= k < |texts| ==> !Contains(texts[k].0, "_doclist")
  {
    var read := e => EntryText(e, rtfToText);
    texts := [];
    var i := 0;
    while i < |entries|
      invariant 0 <= i <= |entries|
      invariant texts == Pairs(Kept(entries[..i]), read)
    {
      var e := entries[i];
      if Contains(e.name, "_doclist") {
        SkippedEntry(entries, i, read);
      } else {
        ReadEntry(entries, i, read);
        texts := texts + [(e.name, EntryText(e, rtfToText))];
      }
      i := i + 1;
    }
    assert entries[..i] == entries;
    KeptNames(entries);
  }

  /** No kept entry's name holds `_doclist`. */
  lemma KeptNames(entries: seq<Entry>)
    ensures forall k :: 0 <= k < |Kept(entries)| ==> !Contains(Kept(entries)[k].name, "_doclist")
  {
    forall k | 0 <= k < |Kept(entries)|
      ensures !Contains(Kept(entries)[k].name, "_doclist")
    {
      assert Kept(entries)[k] in Kept(entries);
    }
  }
}

=== FILE: calendar.dfy ===
/** The proleptic Gregorian calendar of Python's `calendar` module, and the
    day/month/year bounds that narrow a query to one month. */
module Calendar {
  import opened Wrappers
  import opened Text
  import opened Decimal

  /** `calendar.isleap(year)`. Python's `%` floors and Dafny's is Euclidean;
      they agree for the positive divisors used here. */
  predicate IsLeap(year: int) {
    year % 4 == 0 && (year % 100 != 0 || year % 400 == 0)
  }

  /** `calendar.mdays`: month lengths of a common year, index 0 unused. */
  const MonthDays: seq<int> := [0, 31, 28, 31, 30, 31, 30, 31, 31, 30, 31, 30, 31]

  /** `calendar.monthrange(year, month)[1]`: `mdays[month]` plus one for
      February of a leap year. `monthrange` raises for a month outside 1..12. */
  function DaysInMonth(year: int, month: int): (d: int)
    requires 1 <= month <= 12
    ensures 28 <= d <= 31
    ensures d == 31 <==> month in {1, 3, 5, 7, 8, 10, 12}
    ensures d == 30 <==> month in {4, 6, 9, 11}
    ensures d == 29 <==> month == 2 && IsLeap(year)
    ensures d == 28 <==> month == 2 && !IsLeap(year)
  {
    MonthDays[month] + (if month == 2 && IsLeap(year) then 1 else 0)
  }

  /** Days in months 1..m of `year`. */
  function DaysBefore(year: int, m: nat): int
    requires m <= 12
  {
    if m == 0 then 0 else DaysBefore(year, m - 1) + DaysInMonth(year, m)
  }

  /** The twelve month lengths add up to the length of the year. */
  lemma YearLength(year: int)
    ensures DaysBefore(year, 12) == if IsLeap(year) then 366 else 365
  {
    assert DaysBefore(year, 1) == 31;
    assert DaysBefore(year, 2) == 31 + DaysInMonth(year, 2);
    assert DaysBefore(year, 3) == DaysBefore(year, 2) + 31;
    assert DaysBefore(year, 4) == DaysBefore(year, 2) + 61;
    assert DaysBefore(year, 5) == DaysBefore(year, 2) + 92;
    assert DaysBefore(year, 6) == DaysBefore(year, 2) + 122;
    assert DaysBefore(year, 7) == DaysBefore(year, 2) + 153;
    assert DaysBefore(year, 8) == DaysBefore(year, 2) + 184;
    assert DaysBefore(year, 9) == DaysBefore(year, 2) + 214;
    assert DaysBefore(year, 10) == DaysBefore(year, 2) + 245;
    assert DaysBefore(year, 11) == DaysBefore(year, 2) + 275;
  }

  /** The Gregorian calendar repeats every 400 years. */
  lemma FourHundredYearCycle(year: int, month: int)
    requires 1 <= month <= 12
    ensures DaysInMonth(year + 400, month) == DaysInMonth(year, month)
  {
    LeapCycle(year);
  }

  lemma LeapCycle(year: int)
    ensures IsLeap(year + 400) == IsLeap(year)
  {
    assert (year + 400) % 4 == year % 4;
    assert (year + 400) % 100 == year % 100;
    assert (year + 400) % 400 == year % 400;
  }

  /** Reads a `month/year` string back into its two numbers. */
  function ParseMonthYear(s: string): Option<(int, int)> {
    match SplitOnce(s, "/")
    case None => None
    case Some((m, y)) =>
      if ParseInt(m).Some? && ParseInt(y).Some? then Some((ParseInt(m).value, ParseInt(y).value))
      else None
  }

  /** Reads a `day/month/year` string back into its three numbers. */
  function ParseDayMonthYear(s: string): Option<(int, int, int)> {
    match SplitOnce(s, "/")
    case None => None
    case Some((d, rest)) =>
      if ParseInt(d).Some? && ParseMonthYear(rest).Some? then
        Some((ParseInt(d).value, ParseMonthYear(rest).value.0, ParseMonthYear(rest).value.1))
      else None
  }

  lemma NoSlashInNumeral(i: int)
    ensures '/' !in IntToString(i)
  {
  }

  /** The day `01` that the first bound starts with reads as 1. */
  lemma FirstDayParses()
    ensures '/' !in "01" && ParseInt("01") == Some(1)
  {
    DigitsValueLeadingZero("1");
  }

  lemma ParseMonthYearOf(month: nat, year: int)
    ensures ParseMonthYear(NatToString(month) + "/" + IntToString(year)) == Some((month, year))
  {
    var m := IntToString(month);
    assert m == NatToString(month);
    NoSlashInNumeral(month);
    SplitOnceAtChar(m, '/', IntToString(year));
  }

  lemma ParseDayMonthYearOf(day: string, rest: string, dv: int, mv: int, yv: int)
    requires '/' !in day && ParseInt(day) == Some(dv)
    requires ParseMonthYear(rest) == Some((mv, yv))
    ensures ParseDayMonthYear(day + "/" + rest) == Some((dv, mv, yv))
  {
    SplitOnceAtChar(day, '/', rest);
  }

  /** The two strings `search_by_month` types into the date filter:
      `01/{month}/{year}` and `{days}/{month}/{year}`, month and day not
      zero-padded. Read back, they name the first and the last day of the
      month. */
  function MonthBounds(year: int, month: int): (b: (string, string))
    requires 1 <= month <= 12
    ensures ParseDayMonthYear(b.0) == Some((1, month, year))
    ensures ParseDayMonthYear(b.1) == Some((DaysInMonth(year, month), month, year))
  {
    var monthYear := NatToString(month) + "/" + IntToString(year);
    var last := NatToString(DaysInMonth(year, month));
    ParseMonthYearOf(month, year);
    FirstDayParses();
    ParseDayMonthYearOf("01", monthYear, 1, month, year);
    DigitsValueOfNatToString(DaysInMonth(year, month));
    ParseDayMonthYearOf(last, monthYear, DaysInMonth(year, month), month, year);
    ("01" + "/" + monthYear, last + "/" + monthYear)
  }
}

=== FILE: chunks.dfy ===
/** The index arithmetic of `download`: how many results a window has, read
    from the results header, and which `(x, y)` index ranges are requested,
    forward (ascending sort) or backward (descending sort). */
module Chunks {
  import opened Wrappers
  import opened Text
  import opened Decimal

  /** `download`'s `n`: the most results one sort order can page through. */
  const Cap: int := 1000

  /** Width of one requested range. */
  const PageSize: int := 100

  /** One requested range of result positions, `x` to `y` inclusive. */
  datatype Chunk = Chunk(lo: int, hi: int)

  function Min(a: int, b: int): int {
    if a <= b then a else b
  }

  /** `len(range(0, stop, 100))`. */
  function RangeLen(stop: int): nat {
    if stop <= 0 then 0 else (stop + PageSize - 1) / PageSize
  }

  /** `[(i + 1, min(i + 100, top)) for i in range(0, stop, 100)]`. */
  function ChunksOf(stop: int, top: int): seq<Chunk> {
    seq(RangeLen(stop), k => Chunk(PageSize * k + 1, Min(PageSize * k + PageSize, top)))
  }

  /** The last position the plan reaches: `min(N, 1000)` forward and
      `min(N - 1000, 1000)` backward. */
  function Limit(count: int, backward: bool): int {
    if backward then Min(count - Cap, Cap) else Min(count, Cap)
  }

  /** The ranges `download` walks through for a window of `count` results.
      Forward: `range(0, min(N, n), 100)` with `y = min(i + 100, N)`;
      backward: `range(0, min(N - n, n), 100)` with `y = min(i + 100, N - 1000)`.
      They start at 1, are at most 100 wide, each begins right after the
      previous one ends, and the last one ends at the limit; there are none
      when the limit is not positive. */
  function Plan(count: nat, backward: bool): (p: seq<Chunk>)
    ensures |p| == 0 <==> Limit(count, backward) <= 0
    ensures |p| <= Cap / PageSize
    ensures |p| > 0 ==> p[0].lo == 1 && p[|p| - 1].hi == Limit(count, backward)
    ensures forall k :: 0 <= k < |p| ==>
              1 <= p[k].lo <= p[k].hi <= Limit(count, backward) && p[k].hi - p[k].lo < PageSize
    ensures forall k :: 0 <= k < |p| - 1 ==> p[k + 1].lo == p[k].hi + 1
  {
    if backward then ChunksOf(Min(count - Cap, Cap), count - 1000)
    else ChunksOf(Min(count, Cap), count)
  }

  /** The `k`-th range of a plan starts at `100k + 1` and ends 100 later or
      at the top position (`N` forward, `N - 1000` backward). */
  lemma PlanChunk(count: nat, backward: bool, k: int)
    requires 0 <= k < |Plan(count, backward)|
    ensures Plan(count, backward)[k]
            == Chunk(PageSize * k + 1, Min(PageSize * k + PageSize, if backward then count - Cap else count))
  {
  }

  /** When the limit is a multiple of 100 every range is a full hundred. */
  lemma FullChunks(count: nat, backward: bool, k: int)
    requires Limit(count, backward) % PageSize == 0
    requires 0 <= k < |Plan(count, backward)|
    ensures Plan(count, backward)[k].hi == PageSize * k + PageSize
  {
    var lim := Limit(count, backward);
    var q := lim / PageSize;
    assert lim == PageSize * q;
    assert RangeLen(lim) == q by {
      assert (PageSize * q + PageSize - 1) / PageSize == q;
    }
    PlanChunk(count, backward, k);
  }

  /** Forward, the limit is a multiple of 100 when the count is one or when
      the cap applies. */
  lemma ForwardLimitRound(count: nat)
    requires count % PageSize == 0 || count >= Cap
    ensures Limit(count, false) % PageSize == 0
  {
    if count >= Cap {
      assert Limit(count, false) == 1000;
    } else {
      assert Limit(count, false) == count;
    }
  }

  /** Position `i` falls in one of the ranges of `p`. */
  predicate Covers(p: seq<Chunk>, i: int) {
    exists k :: 0 <= k < |p| && p[k].lo <= i <= p[k].hi
  }

  /** In a plan the ranges are ascending, so no two overlap. */
  lemma {:induction false} PlanAscending(count: nat, backward: bool, j: int, k: int)
    requires 0 <= j < k < |Plan(count, backward)|
    ensures Plan(count, backward)[j].hi < Plan(count, backward)[k].lo
    decreases k - j
  {
    var p := Plan(count, backward);
    if j + 1 < k {
      PlanAscending(count, backward, j + 1, k);
    }
  }

  /** Together the ranges cover exactly the positions `1..limit`: forward
      `[1, min(N, 1000)]`, backward `[1, min(N - 1000, 1000)]`. */
  lemma PlanCovers(count: nat, backward: bool, i: int)
    ensures Covers(Plan(count, backward), i) <==> 1 <= i <= Limit(count, backward)
  {
    var p := Plan(count, backward);
    if 1 <= i <= Limit(count, backward) {
      var k := (i - 1) / PageSize;
      assert k < |p|;
      assert p[k].lo <= i <= p[k].hi;
    }
  }

  /** Backward there is nothing to fetch unless more than 1000 results exist. */
  lemma NoBackwardPlanUnderCap(count: nat)
    requires count <= Cap
    ensures Plan(count, true) == []
  {
  }

  /** One of the characters the group `(\d|\.)` accepts (ASCII digits only). */
  predicate IsCountChar(c: char) {
    IsDigit(c) || c == '.'
  }

  /** End of the run of digits and dots that starts at `i`. */
  function RunEnd(s: string, i: nat): (e: nat)
    requires i <= |s|
    ensures i <= e <= |s|
    ensures forall k :: i <= k < e ==> IsCountChar(s[k])
    ensures e < |s| ==> !IsCountChar(s[e])
    decreases |s| - i
  {
    if i < |s| && IsCountChar(s[i]) then RunEnd(s, i + 1) else i
  }

  /** The pattern `\(((\d|\.)+)\)` matches at `p`. The group is greedy and `)`
      is not in it, so a match is an opening parenthesis, a non-empty maximal
      run of digits and dots, and a closing parenthesis. */
  predicate CountMatchAt(s: string, p: int) {
    0 <= p < |s| && s[p] == '(' && RunEnd(s, p + 1) > p + 1
    && RunEnd(s, p + 1) < |s| && s[RunEnd(s, p + 1)] == ')'
  }

  /** The leftmost match at or after `from`, as `re.search` finds it. */
  function FirstCountMatch(s: string, from: nat): (r: Option<nat>)
    ensures r.Some? ==> from <= r.value && CountMatchAt(s, r.value)
    ensures r.Some? ==> forall q :: from <= q < r.value ==> !CountMatchAt(s, q)
    ensures r.None? ==> forall q :: from <= q ==> !CountMatchAt(s, q)
    decreases |s| - from
  {
    if from >= |s| then None
    else if CountMatchAt(s, from) then Some(from)
    else FirstCountMatch(s, from + 1)
  }

  /** `.replace(".", "")`. */
  function RemoveDots(s: string): (r: string)
    ensures forall c :: c in r <==> c in s && c != '.'
    ensures |r| <= |s|
  {
    if s == [] then []
    else if s[0] == '.' then RemoveDots(s[1..])
    else [s[0]] + RemoveDots(s[1..])
  }

  predicate AllCountChars(s: string) {
    forall k :: 0 <= k < |s| ==> IsCountChar(s[k])
  }

  predicate AllDots(s: string) {
    forall k :: 0 <= k < |s| ==> s[k] == '.'
  }

  /** Reference reading of a run of digits and dots: every digit shifts the
      value one decimal place and adds itself; a dot adds nothing. */
  function DottedValue(s: string): nat
    requires AllCountChars(s)
  {
    if s == [] then 0
    else if s[|s| - 1] == '.' then DottedValue(s[..|s| - 1])
    else DottedValue(s[..|s| - 1]) * 10 + DigitValue(s[|s| - 1])
  }

  /** The group `(\d|\.)+` of the match at `p`. */
  function Group(s: string, p: int): (g: string)
    requires CountMatchAt(s, p)
    ensures g != [] && AllCountChars(g)
  {
    s[p + 1..RunEnd(s, p + 1)]
  }

  /** The match at `p` is the one `re.search` returns. */
  predicate LeftmostCountMatch(s: string, p: int) {
    CountMatchAt(s, p) && forall q :: 0 <= q < p ==> !CountMatchAt(s, q)
  }

  datatype CountError =
    | NoCount      // re.search found nothing: `.group` on None raises
    | EmptyCount   // the group held only dots: int("") raises

  /** `int(re.search(r"\(((\d|\.)+)\)", header).group(1).replace(".", ""))`.
      It fails exactly when there is no parenthesised run of digits and
      dots; what it reads otherwise is stated by `ResultCountReads`. */
  function ResultCount(header: string): (r: Result<nat, CountError>)
    ensures r == Failure(NoCount) <==> forall p :: !CountMatchAt(header, p)
    ensures r.Success? ==> exists p :: CountMatchAt(header, p)
  {
    match FirstCountMatch(header, 0)
    case None => Failure(NoCount)
    case Some(p) =>
      var digits := RemoveDots(Group(header, p));
      DottedValueIsDigitsValue(Group(header, p));
      if digits == [] then Failure(EmptyCount) else Success(DigitsValue(digits))
  }

  /** What the count reads: the number in the first parenthesised run of
      digits and dots, dots (thousands separators) ignored. It fails with
      `EmptyCount` exactly when that first run holds only dots. */
  lemma ResultCountReads(header: string)
    ensures ResultCount(header) == Failure(EmptyCount) <==>
              exists p :: LeftmostCountMatch(header, p) && AllDots(Group(header, p))
    ensures ResultCount(header).Success? ==>
              exists p :: LeftmostCountMatch(header, p) && !AllDots(Group(header, p))
                          && ResultCount(header).value == DottedValue(Group(header, p))
  {
    match FirstCountMatch(header, 0)
    case None =>
    case Some(p) =>
      assert LeftmostCountMatch(header, p);
      var g := Group(header, p);
      DottedValueIsDigitsValue(g);
      RemoveDotsEmpty(g);
      forall q | LeftmostCountMatch(header, q)
        ensures q == p
      {
        LeftmostUnique(header, q, p);
      }
  }

  lemma LeftmostUnique(s: string, p: int, q: int)
    requires LeftmostCountMatch(s, p) && LeftmostCountMatch(s, q)
    ensures p == q
  {
  }

  /** Only a run of dots loses everything to `.replace(".", "")`. */
  lemma RemoveDotsEmpty(s: string)
    ensures RemoveDots(s) == [] <==> AllDots(s)
  {
    if RemoveDots(s) == [] {
      forall k | 0 <= k < |s|
        ensures s[k] == '.'
      {
        assert s[k] in s;
      }
    } else {
      var c := RemoveDots(s)[0];
      assert c in RemoveDots(s);
    }
  }

  /** Removing dots from a run with one more character at the end. */
  lemma {:induction false} RemoveDotsSnoc(s: string, c: char)
    ensures RemoveDots(s + [c]) == RemoveDots(s) + (if c == '.' then [] else [c])
    decreases |s|
  {
    if s != [] {
      assert (s + [c])[1..] == s[1..] + [c];
      RemoveDotsSnoc(s[1..], c);
    }
  }

  /** What the source computes, `int` of the run with its dots removed, is
      the reference reading. */
  lemma {:induction false} DottedValueIsDigitsValue(s: string)
    requires AllCountChars(s)
    ensures AllDigits(RemoveDots(s)) && DottedValue(s) == DigitsValue(RemoveDots(s))
    decreases |s|
  {
    var r := RemoveDots(s);
    assert AllDigits(r) by {
      forall k | 0 <= k < |r|
        ensures IsDigit(r[k])
      {
        assert r[k] in r;
      }
    }
    if s != [] {
      var init, c := s[..|s| - 1], s[|s| - 1];
      assert s == init + [c];
      RemoveDotsSnoc(init, c);
      DottedValueIsDigitsValue(init);
      var ri := RemoveDots(init);
      if c != '.' {
        assert r == ri + [c];
        assert r[..|r| - 1] == ri && r[|r| - 1] == c;
      } else {
        assert r == ri;
      }
    }
  }

  /** A dot anywhere in a run changes nothing: `1.234` and `1234` read the
      same. */
  lemma {:induction false} DotIgnored(a: string, b: string)
    requires AllCountChars(a + b)
    ensures AllCountChars(a + "." + b) && DottedValue(a + "." + b) == DottedValue(a + b)
    decreases |b|
  {
    var s := a + "." + b;
    assert AllCountChars(s) by {
      forall k | 0 <= k < |s|
        ensures IsCountChar(s[k])
      {
        if k > |a| {
          assert s[k] == (a + b)[k - 1];
        } else if k < |a| {
          assert s[k] == (a + b)[k];
        }
      }
    }
    if b == [] {
      assert s[..|s| - 1] == a && a + b == a;
    } else {
      var init := b[..|b| - 1];
      assert s[..|s| - 1] == a + "." + init;
      assert (a + b)[..|a + b| - 1] == a + init;
      assert AllCountChars(a + init) by {
        forall k | 0 <= k < |a + init|
          ensures IsCountChar((a + init)[k])
        {
          assert (a + init)[k] == (a + b)[k];
        }
      }
      DotIgnored(a, init);
    }
  }

  /** Without dots the reference reading is `int`'s. */
  lemma {:induction false} DottedValueOfDigits(d: string)
    requires AllDigits(d)
    ensures AllCountChars(d) && DottedValue(d) == DigitsValue(d)
    decreases |d|
  {
    if d != [] {
      DottedValueOfDigits(d[..|d| - 1]);
    }
  }

  /** Where a header whose first parenthesis encloses a run of digits and
      dots has its match, and what the group holds. */
  lemma GroupMatch(pre: string, g: string, post: string)
    requires '(' !in pre && g != [] && AllCountChars(g)
    ensures var s, p := pre + "(" + g + ")" + post, |pre|;
            FirstCountMatch(s, 0) == Some(p) && CountMatchAt(s, p) && Group(s, p) == g
  {
    var s := pre + "(" + g + ")" + post;
    var p := |pre|;
    assert s[p] == '(';
    RunEndIs(s, p + 1, p + 1 + |g|);
    assert s[p + 1..p + 1 + |g|] == g;
    assert CountMatchAt(s, p);
    forall q | 0 <= q < p
      ensures !CountMatchAt(s, q)
    {
      assert s[q] == pre[q];
    }
  }

  /** A header whose first parenthesis encloses digits with dots anywhere
      among them reports the number the digits spell; one enclosing dots
      only makes `int` fail. */
  lemma ResultCountOfGroup(pre: string, g: string, post: string)
    requires '(' !in pre && g != [] && AllCountChars(g)
    ensures ResultCount(pre + "(" + g + ")" + post)
            == if AllDots(g) then Failure(EmptyCount) else Success(DottedValue(g))
  {
    GroupMatch(pre, g, post);
    DottedValueIsDigitsValue(g);
    RemoveDotsEmpty(g);
  }

  lemma RemoveDotsOfDigits(s: string)
    requires AllDigits(s)
    ensures RemoveDots(s) == s
  {
  }

  lemma RunEndIs(s: string, i: nat, j: nat)
    requires i <= j <= |s|
    requires forall k :: i <= k < j ==> IsCountChar(s[k])
    requires j < |s| ==> !IsCountChar(s[j])
    ensures RunEnd(s, i) == j
  {
  }

  /** A header whose first parenthesis encloses `str(n)` reports `n`. */
  lemma ResultCountOfNumeral(pre: string, n: nat, post: string)
    requires '(' !in pre
    ensures ResultCount(pre + "(" + NatToString(n) + ")" + post) == Success(n)
  {
    var d := NatToString(n);
    DottedValueOfDigits(d);
    assert d[0] != '.';
    ResultCountOfGroup(pre, d, post);
    DigitsValueOfNatToString(n);
  }

  /** Dots are thousands separators: `(1.234)` reads as 1234. */
  lemma ResultCountWithSeparator()
    ensures ResultCount("Results (1.234)") == Success(1234)
  {
    assert "Results (1.234)" == "Results " + "(" + "1.234" + ")" + "";
    assert "1.234" == "1" + "." + "234" && "1" + "234" == "1234";
    assert AllDigits("1234") && DigitsValue("1234") == 1234 by {
      assert DigitsValue("1") == 1 by {
        assert "1"[..0] == "";
      }
      assert DigitsValue("12") == 12 by {
        assert "12"[..1] == "1";
      }
      assert DigitsValue("123") == 123 by {
        assert "123"[..2] == "12";
      }
      assert "1234"[..3] == "123";
    }
    DottedValueOfDigits("1234");
    DotIgnored("1", "234");
    assert !AllDots("1.234") by {
      assert "1.234"[0] == '1';
    }
    ResultCountOfGroup("Results ", "1.234", "");
  }
}

=== FILE: clickthrough.dfy ===
/** The window loop of `clickthrough`: for every window, the resume test,
    then `download`. An exception anywhere ends the whole loop (it is
    caught once, around the loop). Of the exceptions `download` can raise,
    this module models an unreadable result count; the browser's and the
    archive processing's are outside it. The results header each window
    shows is a parameter, since the browser session supplies it. */
module Clickthrough {
  import opened Wrappers
  import opened Chunks
  import opened Layout
  import opened Windows
  import opened Resume
  import opened Download

  predicate ValidWindows(windows: seq<Window>) {
    forall k :: 0 <= k < |windows| ==> 1 <= windows[k].month <= 12
  }

  /** Storage and fetched paths after the loop, and the window whose count
      could not be read, if the loop stopped early. */
  datatype Outcome = Outcome(store: set<string>, fetched: seq<string>, stoppedAt: Option<Window>)

  /** The loop raises at `w`: the resume test does not skip it, and its
      result count cannot be read. */
  predicate StopsAt(store: set<string>, w: Window, backward: bool, header: Window -> string) {
    && 1 <= w.month <= 12
    && !Skips(ExistingNames(store, w.year, w.month), backward)
    && ResultCount(header(w)).Failure?
  }

  /** One iteration: a skipped window changes nothing; otherwise the window
      is downloaded, which raises exactly when its count cannot be read and
      otherwise fetches every archive of its plan that is not yet stored. */
  function Visit(store: set<string>, w: Window, backward: bool, header: Window -> string): (r: Result<Fetched, CountError>)
    requires 1 <= w.month <= 12
    ensures r.Failure? <==> StopsAt(store, w, backward, header)
    ensures r.Failure? ==> r.error == ResultCount(header(w)).error
    ensures r.Success? ==> forall q :: q in r.value.fetched ==> q !in store
    ensures r.Success? ==> forall q :: q in r.value.store <==> q in store || q in r.value.fetched
    ensures r.Success? ==> Distinct(r.value.fetched)
    ensures r.Success? ==> forall q :: q in r.value.fetched ==> Planned(w, backward, header, q)
    ensures Skips(ExistingNames(store, w.year, w.month), backward) ==> r == Success(Fetched(store, []))
    ensures r.Success? && !Skips(ExistingNames(store, w.year, w.month), backward) ==>
              && ResultCount(header(w)).Success?
              && var paths := PlanPaths(w.year, w.month, backward, ResultCount(header(w)).value);
                 && r.value.fetched == Missing(store, paths)
                 && forall q :: q in paths ==> q in r.value.store
  {
    if Skips(ExistingNames(store, w.year, w.month), backward) then Success(Fetched(store, []))
    else
      var r := DownloadWindow(store, w.year, w.month, backward, header(w));
      if r.Success? then
        var paths := PlanPaths(w.year, w.month, backward, ResultCount(header(w)).value);
        assert r.value == Fetch(store, paths);
        r
      else r
  }

  /** `q` is an archive path of the plan for `w`'s result count. */
  predicate Planned(w: Window, backward: bool, header: Window -> string, q: string) {
    && 1 <= w.month <= 12
    && ResultCount(header(w)).Success?
    && q in PlanPaths(w.year, w.month, backward, ResultCount(header(w)).value)
  }

  /** The first `i` windows are settled. */
  predicate SettledBefore(store: set<string>, windows: seq<Window>, i: int, backward: bool, header: Window -> string)
    requires ValidWindows(windows) && 0 <= i <= |windows|
  {
    forall k :: 0 <= k < i ==> Settled(store, windows[k], backward, header)
  }

  /** Every fetched path belongs to the plan of one of the windows. */
  predicate FetchedPlanned(windows: seq<Window>, backward: bool, header: Window -> string, fetched: seq<string>)
    requires ValidWindows(windows)
  {
    forall q :: q in fetched ==> exists k :: 0 <= k < |windows| && Planned(windows[k], backward, header, q)
  }

  /** Every window is settled when the loop did not stop; otherwise it
      stopped at one of the windows and every window before it is settled. */
  predicate SettledUpToStop(windows: seq<Window>, backward: bool, header: Window -> string, o: Outcome)
    requires ValidWindows(windows)
  {
    && (o.stoppedAt.None? ==> SettledBefore(o.store, windows, |windows|, backward, header))
    && (o.stoppedAt.Some? ==>
          exists i :: 0 <= i < |windows| && windows[i] == o.stoppedAt.value
                      && SettledBefore(o.store, windows, i, backward, header))
  }

  /** The resume test skipped `w` on the storage the loop started from, or
      its count reads and every archive of its plan is stored now. */
  predicate Downloaded(start: set<string>, now: set<string>, w: Window, backward: bool, header: Window -> string) {
    && 1 <= w.month <= 12
    && (|| Skips(ExistingNames(start, w.year, w.month), backward)
        || (&& ResultCount(header(w)).Success?
            && forall q :: q in PlanPaths(w.year, w.month, backward, ResultCount(header(w)).value) ==> q in now))
  }

  /** Every fetched path belongs to the plan of one of the first `i` windows. */
  predicate FetchedBefore(windows: seq<Window>, i: int, backward: bool, header: Window -> string, fetched: seq<string>) {
    forall q :: q in fetched ==> exists k :: 0 <= k < i && k < |windows| && Planned(windows[k], backward, header, q)
  }

  /** Each of the first `i` windows is `Downloaded`. */
  predicate DownloadedBefore(start: set<string>, now: set<string>, windows: seq<Window>, i: int,
                             backward: bool, header: Window -> string) {
    forall k :: 0 <= k < i && k < |windows| ==> Downloaded(start, now, windows[k], backward, header)
  }

  /** Up to the window where the loop stopped (or over all windows when it
      did not stop): only those windows' archives were fetched, and each of
      them that the resume test did not skip at the start has its whole plan
      stored. */
  predicate ProgressUpToStop(windows: seq<Window>, start: set<string>, backward: bool, header: Window -> string, o: Outcome) {
    && (o.stoppedAt.None? ==>
          && FetchedBefore(windows, |windows|, backward, header, o.fetched)
          && DownloadedBefore(start, o.store, windows, |windows|, backward, header))
    && (o.stoppedAt.Some? ==>
          exists i :: 0 <= i < |windows| && windows[i] == o.stoppedAt.value
                      && FetchedBefore(windows, i, backward, header, o.fetched)
                      && DownloadedBefore(start, o.store, windows, i, backward, header))
  }

  /** The loop. Every fetched path was missing before the run and belongs
      to the plan of a window, none is fetched twice, and the storage grows
      by exactly the fetched paths. Every window before the one where the
      loop stopped, or every window when it did not stop, is settled
      afterwards. The loop stops only at a window that the resume test does
      not skip and whose count cannot be read. Only windows before the stop
      have archives fetched, and each of them that the resume test did not
      skip at the start has its whole plan stored. */
  function Run(windows: seq<Window>, store: set<string>, backward: bool, header: Window -> string): (o: Outcome)
    requires ValidWindows(windows)
    ensures forall q :: q in o.fetched ==> q !in store
    ensures forall q :: q in o.store <==> q in store || q in o.fetched
    ensures Distinct(o.fetched)
    ensures FetchedPlanned(windows, backward, header, o.fetched)
    ensures SettledUpToStop(windows, backward, header, o)
    ensures o.stoppedAt.Some? ==> StopsAt(o.store, o.stoppedAt.value, backward, header)
    ensures ProgressUpToStop(windows, store, backward, header, o)
    decreases |windows|
  {
    if windows == [] then Outcome(store, [], None)
    else
      match Visit(store, windows[0], backward, header)
      case Failure(_) =>
        var o := Outcome(store, [], Some(windows[0]));
        assert SettledBefore(o.store, windows, 0, backward, header);
        assert FetchedBefore(windows, 0, backward, header, o.fetched);
        assert DownloadedBefore(store, o.store, windows, 0, backward, header);
        o
      case Success(f) =>
        var rest := Run(windows[1..], f.store, backward, header);
        DistinctConcat(f.fetched, rest.fetched, f.store);
        RunStepFacts(windows, store, backward, header, f, rest);
        ProgressStep(windows, store, backward, header, f, rest);
        Outcome(rest.store, f.fetched + rest.fetched, rest.stoppedAt)
  }

  /** The loop's guarantees carry over from the rest of the windows to all
      of them once the first has been visited. */
  lemma RunStepFacts(windows: seq<Window>, store: set<string>, backward: bool, header: Window -> string,
                     f: Fetched, rest: Outcome)
    requires ValidWindows(windows) && windows != []
    requires Visit(store, windows[0], backward, header) == Success(f)
    requires forall q :: q in rest.store <==> q in f.store || q in rest.fetched
    requires FetchedPlanned(windows[1..], backward, header, rest.fetched)
    requires SettledUpToStop(windows[1..], backward, header, rest)
    ensures FetchedPlanned(windows, backward, header, f.fetched + rest.fetched)
    ensures SettledUpToStop(windows, backward, header, Outcome(rest.store, f.fetched + rest.fetched, rest.stoppedAt))
  {
    FetchedStep(windows, backward, header, f.fetched, rest.fetched);
    VisitSettles(store, windows[0], backward, header);
    SettledMonotone(f.store, rest.store, windows[0], backward, header);
    SettledStep(windows, backward, header, rest);
  }

  /** The progress made over the rest of the windows, from the storage the
      first visit left, is progress over all of them from the start. */
  lemma ProgressStep(windows: seq<Window>, store: set<string>, backward: bool, header: Window -> string,
                     f: Fetched, rest: Outcome)
    requires ValidWindows(windows) && windows != []
    requires Visit(store, windows[0], backward, header) == Success(f)
    requires forall q :: q in rest.store <==> q in f.store || q in rest.fetched
    requires ProgressUpToStop(windows[1..], f.store, backward, header, rest)
    ensures ProgressUpToStop(windows, store, backward, header, Outcome(rest.store, f.fetched + rest.fetched, rest.stoppedAt))
  {
    var o := Outcome(rest.store, f.fetched + rest.fetched, rest.stoppedAt);
    var n :| 0 <= n <= |windows[1..]|
             && (rest.stoppedAt.None? ==> n == |windows[1..]|)
             && (rest.stoppedAt.Some? ==> n < |windows[1..]| && windows[1..][n] == rest.stoppedAt.value)
             && FetchedBefore(windows[1..], n, backward, header, rest.fetched)
             && DownloadedBefore(f.store, rest.store, windows[1..], n, backward, header);
    FetchedBeforeStep(windows, n, backward, header, f.fetched, rest.fetched);
    DownloadedBeforeStep(windows, store, backward, header, f, rest.store, n);
    if rest.stoppedAt.Some? {
      assert windows[n + 1] == windows[1..][n];
    }
  }

  lemma FetchedBeforeStep(windows: seq<Window>, n: int, backward: bool, header: Window -> string,
                          first: seq<string>, more: seq<string>)
    requires windows != [] && 0 <= n
    requires forall q :: q in first ==> Planned(windows[0], backward, header, q)
    requires FetchedBefore(windows[1..], n, backward, header, more)
    ensures FetchedBefore(windows, n + 1, backward, header, first + more)
  {
    forall q | q in first + more
      ensures exists k :: 0 <= k < n + 1 && k < |windows| && Planned(windows[k], backward, header, q)
    {
      if q in first {
        assert Planned(windows[0], backward, header, q);
      } else {
        assert q in more;
        var k :| 0 <= k < n && k < |windows[1..]| && Planned(windows[1..][k], backward, header, q);
        assert windows[1..][k] == windows[k + 1];
        assert Planned(windows[k + 1], backward, header, q);
      }
    }
  }

  lemma DownloadedBeforeStep(windows: seq<Window>, store: set<string>, backward: bool, header: Window -> string,
                             f: Fetched, now: set<string>, n: int)
    requires ValidWindows(windows) && windows != [] && 0 <= n
    requires Visit(store, windows[0], backward, header) == Success(f)
    requires f.store <= now
    requires DownloadedBefore(f.store, now, windows[1..], n, backward, header)
    ensures DownloadedBefore(store, now, windows, n + 1, backward, header)
  {
    forall k | 0 <= k < n + 1 && k < |windows|
      ensures Downloaded(store, now, windows[k], backward, header)
    {
      if k == 0 {
        DownloadedByVisit(store, windows[0], backward, header, f, now);
      } else {
        assert windows[1..][k - 1] == windows[k];
        DownloadedAfterVisit(store, windows[0], windows[k], backward, header, f, now);
      }
    }
  }

  /** A visited window is downloaded unless the resume test skipped it. */
  lemma DownloadedByVisit(store: set<string>, w: Window, backward: bool, header: Window -> string,
                          f: Fetched, now: set<string>)
    requires 1 <= w.month <= 12
    requires Visit(store, w, backward, header) == Success(f)
    requires f.store <= now
    ensures Downloaded(store, now, w, backward, header)
  {
  }

  /** What a window's visit stores is only in that window's directory, so a
      later window's resume test sees the storage the loop started from,
      unless it is the same month, which the visit downloaded. */
  lemma DownloadedAfterVisit(store: set<string>, w0: Window, w: Window, backward: bool, header: Window -> string,
                             f: Fetched, now: set<string>)
    requires 1 <= w0.month <= 12
    requires Visit(store, w0, backward, header) == Success(f)
    requires f.store <= now
    requires Downloaded(f.store, now, w, backward, header)
    ensures Downloaded(store, now, w, backward, header)
  {
    if w == w0 {
      DownloadedByVisit(store, w0, backward, header, f, now);
    } else if Skips(ExistingNames(f.store, w.year, w.month), backward) {
      VisitElsewhere(store, w0, w, backward, header, f);
    }
  }

  /** A visit leaves other windows' directories as they were. */
  lemma VisitElsewhere(store: set<string>, w0: Window, w: Window, backward: bool, header: Window -> string, f: Fetched)
    requires 1 <= w0.month <= 12 && 1 <= w.month <= 12 && w != w0
    requires Visit(store, w0, backward, header) == Success(f)
    ensures ExistingNames(f.store, w.year, w.month) == ExistingNames(store, w.year, w.month)
  {
    var more := set q | q in f.fetched;
    forall q | q in more
      ensures !InDir(q, MonthDir(w.year, w.month))
    {
      PlannedInDir(w0, backward, header, q);
      if InDir(q, MonthDir(w.year, w.month)) {
        InOneMonthDir(q, w0.year, w0.month, w.year, w.month);
      }
    }
    assert f.store == store + more;
    ExistingNamesElsewhere(store, more, w.year, w.month);
  }

  lemma PlannedInDir(w: Window, backward: bool, header: Window -> string, q: string)
    requires Planned(w, backward, header, q)
    ensures InDir(q, MonthDir(w.year, w.month))
  {
    var count := ResultCount(header(w)).value;
    var paths := PlanPaths(w.year, w.month, backward, count);
    var k :| 0 <= k < |paths| && paths[k] == q;
    PlanPathInDir(w.year, w.month, backward, count, k);
  }

  lemma FetchedStep(windows: seq<Window>, backward: bool, header: Window -> string,
                    first: seq<string>, more: seq<string>)
    requires ValidWindows(windows) && windows != []
    requires forall q :: q in first ==> Planned(windows[0], backward, header, q)
    requires FetchedPlanned(windows[1..], backward, header, more)
    ensures FetchedPlanned(windows, backward, header, first + more)
  {
    forall q | q in first + more
      ensures exists k :: 0 <= k < |windows| && Planned(windows[k], backward, header, q)
    {
      assert q in first || q in more;
      if q in first {
        assert Planned(windows[0], backward, header, q);
      } else {
        PlannedInTail(windows, backward, header, q);
      }
    }
  }

  lemma PlannedInTail(windows: seq<Window>, backward: bool, header: Window -> string, q: string)
    requires ValidWindows(windows) && windows != []
    requires exists k :: 0 <= k < |windows[1..]| && Planned(windows[1..][k], backward, header, q)
    ensures exists k :: 0 <= k < |windows| && Planned(windows[k], backward, header, q)
  {
    var tail := windows[1..];
    var k :| 0 <= k < |tail| && Planned(tail[k], backward, header, q);
    assert tail[k] == windows[k + 1];
    assert Planned(windows[k + 1], backward, header, q);
  }

  lemma SettledStep(windows: seq<Window>, backward: bool, header: Window -> string, rest: Outcome)
    requires ValidWindows(windows) && windows != []
    requires Settled(rest.store, windows[0], backward, header)
    requires SettledUpToStop(windows[1..], backward, header, rest)
    ensures forall more :: SettledUpToStop(windows, backward, header, Outcome(rest.store, more, rest.stoppedAt))
  {
    if rest.stoppedAt.None? {
      SettledShift(rest.store, windows, |windows| - 1, backward, header);
    } else {
      var i :| 0 <= i < |windows[1..]| && windows[1..][i] == rest.stoppedAt.value
               && SettledBefore(rest.store, windows[1..], i, backward, header);
      SettledShift(rest.store, windows, i, backward, header);
      assert windows[i + 1] == rest.stoppedAt.value;
    }
  }

  /** Settled windows after the first stay settled with the first in front. */
  lemma SettledShift(store: set<string>, windows: seq<Window>, i: int, backward: bool, header: Window -> string)
    requires ValidWindows(windows) && 0 <= i < |windows|
    requires Settled(store, windows[0], backward, header)
    requires SettledBefore(store, windows[1..], i, backward, header)
    ensures SettledBefore(store, windows, i + 1, backward, header)
  {
    forall k | 1 <= k < i + 1
      ensures Settled(store, windows[k], backward, header)
    {
      assert windows[k] == windows[1..][k - 1];
    }
  }

  /** The loop's guarantees over the calendar months of the years
      `[lo, hi)`, stated by month rather than by position: fetched paths
      belong to plans of months in the range; when the loop does not stop
      every month of the range is settled, and when it stops, it stops at a
      month of the range and every month before that one is settled. */
  lemma RunOverYears(lo: int, hi: int, backward: bool, header: Window -> string, o: Outcome)
    requires FetchedPlanned(Windows.Windows(lo, hi), backward, header, o.fetched)
    requires SettledUpToStop(Windows.Windows(lo, hi), backward, header, o)
    ensures forall q :: q in o.fetched ==> exists w: Window :: InYears(w, lo, hi) && Planned(w, backward, header, q)
    ensures o.stoppedAt.Some? ==> InYears(o.stoppedAt.value, lo, hi)
    ensures o.stoppedAt.None? ==> forall w: Window :: InYears(w, lo, hi) ==> Settled(o.store, w, backward, header)
    ensures o.stoppedAt.Some? ==>
              forall w: Window :: InYears(w, lo, hi) && Earlier(w, o.stoppedAt.value) ==> Settled(o.store, w, backward, header)
  {
    PlannedInYears(lo, hi, backward, header, o.fetched);
    if o.stoppedAt.None? {
      SettledYears(lo, hi, o.store, backward, header);
    } else {
      var ws := Windows.Windows(lo, hi);
      var i :| 0 <= i < |ws| && ws[i] == o.stoppedAt.value && SettledBefore(o.store, ws, i, backward, header);
      SettledYearsBefore(lo, hi, o.store, backward, header, i);
    }
  }

  lemma PlannedInYears(lo: int, hi: int, backward: bool, header: Window -> string, fetched: seq<string>)
    requires FetchedPlanned(Windows.Windows(lo, hi), backward, header, fetched)
    ensures forall q :: q in fetched ==> exists w: Window :: InYears(w, lo, hi) && Planned(w, backward, header, q)
  {
    var ws := Windows.Windows(lo, hi);
    forall q | q in fetched
      ensures exists w: Window :: InYears(w, lo, hi) && Planned(w, backward, header, q)
    {
      var k :| 0 <= k < |ws| && Planned(ws[k], backward, header, q);
      var w := ws[k];
      WindowInYears(lo, hi, k);
      assert InYears(w, lo, hi) && Planned(w, backward, header, q);
    }
  }

  lemma SettledYears(lo: int, hi: int, store: set<string>, backward: bool, header: Window -> string)
    requires SettledBefore(store, Windows.Windows(lo, hi), |Windows.Windows(lo, hi)|, backward, header)
    ensures forall w: Window :: InYears(w, lo, hi) ==> Settled(store, w, backward, header)
  {
    forall w: Window | InYears(w, lo, hi)
      ensures Settled(store, w, backward, header)
    {
      var k := WindowIndex(lo, hi, w);
    }
  }

  lemma SettledYearsBefore(lo: int, hi: int, store: set<string>, backward: bool, header: Window -> string, i: int)
    requires 0 <= i < |Windows.Windows(lo, hi)|
    requires SettledBefore(store, Windows.Windows(lo, hi), i, backward, header)
    ensures InYears(Windows.Windows(lo, hi)[i], lo, hi)
    ensures forall w: Window :: InYears(w, lo, hi) && Earlier(w, Windows.Windows(lo, hi)[i]) ==> Settled(store, w, backward, header)
  {
    var ws := Windows.Windows(lo, hi);
    WindowsCover(lo, hi, ws[i]);
    forall w: Window | InYears(w, lo, hi) && Earlier(w, ws[i])
      ensures Settled(store, w, backward, header)
    {
      var k := WindowIndex(lo, hi, w);
      EarlierIndex(lo, hi, k, i);
    }
  }

  /** Progress over the calendar months of the years `[lo, hi)`: fetched
      paths belong to plans of months before the stop (of any month in the
      range when there is none), and every such month that the resume test
      did not skip at the start has its whole plan stored. */
  lemma ProgressOverYears(lo: int, hi: int, start: set<string>, backward: bool, header: Window -> string, o: Outcome)
    requires ProgressUpToStop(Windows.Windows(lo, hi), start, backward, header, o)
    ensures o.stoppedAt.None? ==>
              forall q :: q in o.fetched ==> exists w: Window :: InYears(w, lo, hi) && Planned(w, backward, header, q)
    ensures o.stoppedAt.Some? ==>
              forall q :: q in o.fetched ==>
                exists w: Window :: InYears(w, lo, hi) && Earlier(w, o.stoppedAt.value) && Planned(w, backward, header, q)
    ensures o.stoppedAt.None? ==> forall w: Window :: InYears(w, lo, hi) ==> Downloaded(start, o.store, w, backward, header)
    ensures o.stoppedAt.Some? ==>
              forall w: Window :: InYears(w, lo, hi) && Earlier(w, o.stoppedAt.value) ==> Downloaded(start, o.store, w, backward, header)
  {
    var ws := Windows.Windows(lo, hi);
    var n :| 0 <= n <= |ws|
             && (o.stoppedAt.None? ==> n == |ws|)
             && (o.stoppedAt.Some? ==> n < |ws| && ws[n] == o.stoppedAt.value)
             && FetchedBefore(ws, n, backward, header, o.fetched)
             && DownloadedBefore(start, o.store, ws, n, backward, header);
    FetchedInYears(lo, hi, n, backward, header, o.fetched);
    DownloadedInYears(lo, hi, n, start, o.store, backward, header);
  }

  lemma FetchedInYears(lo: int, hi: int, n: int, backward: bool, header: Window -> string, fetched: seq<string>)
    requires 0 <= n <= |Windows.Windows(lo, hi)|
    requires FetchedBefore(Windows.Windows(lo, hi), n, backward, header, fetched)
    ensures forall q :: q in fetched ==> exists w: Window :: InYears(w, lo, hi) && Planned(w, backward, header, q)
    ensures n < |Windows.Windows(lo, hi)| ==>
              forall q :: q in fetched ==>
                exists w: Window :: InYears(w, lo, hi) && Earlier(w, Windows.Windows(lo, hi)[n]) && Planned(w, backward, header, q)
  {
    var ws := Windows.Windows(lo, hi);
    forall q | q in fetched
      ensures exists w: Window :: InYears(w, lo, hi) && (n < |ws| ==> Earlier(w, ws[n])) && Planned(w, backward, header, q)
    {
      var k :| 0 <= k < n && k < |ws| && Planned(ws[k], backward, header, q);
      WindowInYears(lo, hi, k);
      if n < |ws| {
        WindowsChronological(lo, hi, k, n);
      }
      var w := ws[k];
      assert InYears(w, lo, hi) && (n < |ws| ==> Earlier(w, ws[n])) && Planned(w, backward, header, q);
    }
  }

  lemma DownloadedInYears(lo: int, hi: int, n: int, start: set<string>, now: set<string>,
                          backward: bool, header: Window -> string)
    requires 0 <= n <= |Windows.Windows(lo, hi)|
    requires DownloadedBefore(start, now, Windows.Windows(lo, hi), n, backward, header)
    ensures n == |Windows.Windows(lo, hi)| ==>
              forall w: Window :: InYears(w, lo, hi) ==> Downloaded(start, now, w, backward, header)
    ensures n < |Windows.Windows(lo, hi)| ==>
              forall w: Window :: InYears(w, lo, hi) && Earlier(w, Windows.Windows(lo, hi)[n])
                                  ==> Downloaded(start, now, w, backward, header)
  {
    var ws := Windows.Windows(lo, hi);
    forall w: Window | InYears(w, lo, hi) && (n < |ws| ==> Earlier(w, ws[n]))
      ensures Downloaded(start, now, w, backward, header)
    {
      var k := WindowIndex(lo, hi, w);
      if n < |ws| {
        EarlierIndex(lo, hi, k, n);
      }
    }
  }

  /** `clickthrough` of nexis_clicker: windows of the years `[start, end)`. */
  function ClickerRun(start: int, end: int, store: set<string>, backward: bool, header: Window -> string): (o: Outcome)
    ensures forall q :: q in o.store <==> q in store || q in o.fetched
    ensures forall q :: q in o.fetched ==> q !in store
    ensures Distinct(o.fetched)
    ensures forall q :: q in o.fetched ==>
              exists w: Window :: InYears(w, start, end) && Planned(w, backward, header, q)
    ensures o.stoppedAt.Some? ==> start <= o.stoppedAt.value.year < end
    ensures o.stoppedAt.Some? ==> StopsAt(o.store, o.stoppedAt.value, backward, header)
    ensures o.stoppedAt.None? ==>
              forall w: Window :: InYears(w, start, end) ==> Settled(o.store, w, backward, header)
    ensures o.stoppedAt.Some? ==>
              forall w: Window :: InYears(w, start, end) && Earlier(w, o.stoppedAt.value)
                          ==> Settled(o.store, w, backward, header)
    ensures o.stoppedAt.Some? ==>
              forall q :: q in o.fetched ==>
                exists w: Window :: InYears(w, start, end) && Earlier(w, o.stoppedAt.value) && Planned(w, backward, header, q)
    ensures o.stoppedAt.None? ==>
              forall w: Window :: InYears(w, start, end) ==> Downloaded(store, o.store, w, backward, header)
    ensures o.stoppedAt.Some? ==>
              forall w: Window :: InYears(w, start, end) && Earlier(w, o.stoppedAt.value)
                          ==> Downloaded(store, o.store, w, backward, header)
  {
    var ws := ClickerWindows(start, end);
    assert ws == Windows.Windows(start, end);
    var o := Run(ws, store, backward, header);
    RunOverYears(start, end, backward, header, o);
    ProgressOverYears(start, end, store, backward, header, o);
    o
  }

  /** `clickthrough` of nexis_scraper: windows of the years `[start, end]`. */
  function ScraperRun(start: int, end: int, store: set<string>, backward: bool, header: Window -> string): (o: Outcome)
    ensures forall q :: q in o.store <==> q in store || q in o.fetched
    ensures forall q :: q in o.fetched ==> q !in store
    ensures Distinct(o.fetched)
    ensures forall q :: q in o.fetched ==>
              exists w: Window :: InYears(w, start, end + 1) && Planned(w, backward, header, q)
    ensures o.stoppedAt.Some? ==> start <= o.stoppedAt.value.year <= end
    ensures o.stoppedAt.Some? ==> StopsAt(o.store, o.stoppedAt.value, backward, header)
    ensures o.stoppedAt.None? ==>
              forall w: Window :: InYears(w, start, end + 1) ==> Settled(o.store, w, backward, header)
    ensures o.stoppedAt.Some? ==>
              forall w: Window :: InYears(w, start, end + 1) && Earlier(w, o.stoppedAt.value)
                          ==> Settled(o.store, w, backward, header)
    ensures o.stoppedAt.Some? ==>
              forall q :: q in o.fetched ==>
                exists w: Window :: InYears(w, start, end + 1) && Earlier(w, o.stoppedAt.value) && Planned(w, backward, header, q)
    ensures o.stoppedAt.None? ==>
              forall w: Window :: InYears(w, start, end + 1) ==> Downloaded(store, o.store, w, backward, header)
    ensures o.stoppedAt.Some? ==>
              forall w: Window :: InYears(w, start, end + 1) && Earlier(w, o.stoppedAt.value)
                          ==> Downloaded(store, o.store, w, backward, header)
  {
    var ws := ScraperWindows(start, end);
    assert ws == Windows.Windows(start, end + 1);
    var o := Run(ws, store, backward, header);
    RunOverYears(start, end + 1, backward, header, o);
    ProgressOverYears(start, end + 1, store, backward, header, o);
    o
  }

  /** A window needs nothing more: it is skipped, or its count reads and
      every archive of its plan is stored. */
  predicate Settled(store: set<string>, w: Window, backward: bool, header: Window -> string)
    requires 1 <= w.month <= 12
  {
    Skips(ExistingNames(store, w.year, w.month), backward)
    || (ResultCount(header(w)).Success?
        && forall q :: q in PlanPaths(w.year, w.month, backward, ResultCount(header(w)).value) ==> q in store)
  }

  /** Storing more archives keeps a window settled. */
  lemma SettledMonotone(store: set<string>, more: set<string>, w: Window, backward: bool, header: Window -> string)
    requires 1 <= w.month <= 12
    requires store <= more
    requires Settled(store, w, backward, header)
    ensures Settled(more, w, backward, header)
  {
    if Skips(ExistingNames(store, w.year, w.month), backward) {
      SkipMonotone(ExistingNames(store, w.year, w.month), ExistingNames(more, w.year, w.month), backward);
    }
  }

  /** A visit that succeeds leaves its window settled. */
  lemma VisitSettles(store: set<string>, w: Window, backward: bool, header: Window -> string)
    requires 1 <= w.month <= 12
    requires Visit(store, w, backward, header).Success?
    ensures Settled(Visit(store, w, backward, header).value.store, w, backward, header)
  {
  }

  /** Visiting a settled window fetches nothing and changes nothing. */
  lemma VisitSettled(store: set<string>, w: Window, backward: bool, header: Window -> string)
    requires 1 <= w.month <= 12
    requires Settled(store, w, backward, header)
    ensures Visit(store, w, backward, header) == Success(Fetched(store, []))
  {
    if !Skips(ExistingNames(store, w.year, w.month), backward) {
      FetchStored(store, PlanPaths(w.year, w.month, backward, ResultCount(header(w)).value));
    }
  }

  /** A first window that fetches nothing leaves the run to the rest. */
  lemma RunAfterIdleVisit(windows: seq<Window>, store: set<string>, backward: bool, header: Window -> string)
    requires ValidWindows(windows) && windows != []
    requires Visit(store, windows[0], backward, header) == Success(Fetched(store, []))
    ensures Run(windows, store, backward, header) == Run(windows[1..], store, backward, header)
  {
    var rest := Run(windows[1..], store, backward, header);
    assert [] + rest.fetched == rest.fetched;
    assert Run(windows, store, backward, header) == Outcome(rest.store, [] + rest.fetched, rest.stoppedAt);
  }

  lemma SettledTail(windows: seq<Window>, store: set<string>, backward: bool, header: Window -> string)
    requires ValidWindows(windows) && windows != []
    requires forall k :: 0 <= k < |windows| ==> Settled(store, windows[k], backward, header)
    ensures ValidWindows(windows[1..])
    ensures forall k :: 0 <= k < |windows[1..]| ==> Settled(store, windows[1..][k], backward, header)
  {
    var tail := windows[1..];
    assert forall k :: 0 <= k < |tail| ==> tail[k] == windows[k + 1];
  }

  /** Over settled windows the loop fetches nothing. */
  lemma {:induction false} RunOfSettled(windows: seq<Window>, store: set<string>, backward: bool, header: Window -> string)
    requires ValidWindows(windows)
    requires forall k :: 0 <= k < |windows| ==> Settled(store, windows[k], backward, header)
    ensures Run(windows, store, backward, header) == Outcome(store, [], None)
    decreases |windows|
  {
    if windows != [] {
      SettledTail(windows, store, backward, header);
      VisitSettled(store, windows[0], backward, header);
      RunOfSettled(windows[1..], store, backward, header);
      RunAfterIdleVisit(windows, store, backward, header);
    }
  }

  /** Resumability: after a run that went through every window, running
      again with the same result counts fetches nothing and leaves the
      storage as it was. */
  lemma RerunFetchesNothing(windows: seq<Window>, store: set<string>, backward: bool, header: Window -> string)
    requires ValidWindows(windows)
    requires Run(windows, store, backward, header).stoppedAt.None?
    ensures var o := Run(windows, store, backward, header);
            Run(windows, o.store, backward, header) == Outcome(o.store, [], None)
  {
    var o := Run(windows, store, backward, header);
    assert SettledBefore(o.store, windows, |windows|, backward, header);
    RunOfSettled(windows, o.store, backward, header);
  }
}

=== FILE: decimal.dfy ===
/** Decimal numerals as Python renders and reads them: `str(n)`, `f"{n:02d}"`
    and `int(s)`, with the round trips between them. */
module Decimal {
  import opened Wrappers
  import opened Text

  predicate IsDigit(c: char) {
    '0' <= c <= '9'
  }

  predicate AllDigits(s: string) {
    forall k :: 0 <= k < |s| ==> IsDigit(s[k])
  }

  function DigitChar(d: nat): (c: char)
    requires d < 10
    ensures IsDigit(c)
  {
    ('0' as int + d) as char
  }

  function DigitValue(c: char): (d: nat)
    requires IsDigit(c)
    ensures d < 10
  {
    c as int - '0' as int
  }

  /** `str(n)` for a non-negative integer: a non-empty run of digits with no
      leading zero, one digit long exactly for the numbers below ten. */
  function NatToString(n: nat): (s: string)
    ensures |s| >= 1 && AllDigits(s)
    ensures s[0] == '0' ==> n == 0
    ensures |s| == 1 <==> n < 10
    decreases n
  {
    if n < 10 then [DigitChar(n)] else NatToString(n / 10) + [DigitChar(n % 10)]
  }

  /** `int(s)` for a string of ASCII digits (leading zeros allowed). */
  function DigitsValue(s: string): nat
    requires AllDigits(s)
  {
    if s == [] then 0 else DigitsValue(s[..|s| - 1]) * 10 + DigitValue(s[|s| - 1])
  }

  /** Reading back what `str` wrote gives the number again. */
  lemma {:induction false} DigitsValueOfNatToString(n: nat)
    ensures DigitsValue(NatToString(n)) == n
    decreases n
  {
    if n >= 10 {
      var s := NatToString(n);
      assert s[..|s| - 1] == NatToString(n / 10);
      DigitsValueOfNatToString(n / 10);
    }
  }

  lemma NatToStringInjective(a: nat, b: nat)
    ensures NatToString(a) == NatToString(b) ==> a == b
  {
    DigitsValueOfNatToString(a);
    DigitsValueOfNatToString(b);
  }

  /** A leading zero does not change the value that `int` reads. */
  lemma {:induction false} DigitsValueLeadingZero(s: string)
    requires AllDigits(s)
    ensures AllDigits("0" + s) && DigitsValue("0" + s) == DigitsValue(s)
    decreases |s|
  {
    if s != [] {
      assert ("0" + s)[..|s|] == "0" + s[..|s| - 1];
      DigitsValueLeadingZero(s[..|s| - 1]);
    }
  }

  /** Python's `int(s)` on an optional minus sign followed by ASCII digits. */
  function ParseInt(s: string): Option<int> {
    if |s| > 1 && s[0] == '-' && AllDigits(s[1..]) then Some(0 - DigitsValue(s[1..]))
    else if |s| > 0 && AllDigits(s) then Some(DigitsValue(s))
    else None
  }

  /** `str(i)` for any integer; `int` reads it back. */
  function IntToString(i: int): (s: string)
    ensures ParseInt(s) == Some(i)
    ensures forall k :: 0 <= k < |s| ==> IsDigit(s[k]) || (k == 0 && s[k] == '-')
  {
    if i < 0 then
      var d := NatToString(-i);
      DigitsValueOfNatToString(-i);
      assert ("-" + d)[1..] == d;
      "-" + d
    else
      DigitsValueOfNatToString(i);
      NatToString(i)
  }

  lemma IntToStringInjective(a: int, b: int)
    ensures IntToString(a) == IntToString(b) ==> a == b
  {
  }

  /** `f"{n:02d}"`: at least two digits, zero-padded, reading back as `n`. */
  function Pad2(n: nat): (s: string)
    ensures AllDigits(s) && |s| >= 2
    ensures DigitsValue(s) == n
    ensures n < 100 ==> |s| == 2
  {
    DigitsValueOfNatToString(n);
    if n < 10 then
      DigitsValueLeadingZero(NatToString(n));
      "0" + NatToString(n)
    else
      NatToString(n)
  }

  lemma Pad2Injective(a: nat, b: nat)
    ensures Pad2(a) == Pad2(b) ==> a == b
  {
  }

  function Pow10(k: nat): (p: nat)
    ensures p >= 1
  {
    if k == 0 then 1 else 10 * Pow10(k - 1)
  }

  function Zeros(k: nat): (z: string)
    ensures |z| == k && forall i :: 0 <= i < k ==> z[i] == '0'
  {
    if k == 0 then [] else Zeros(k - 1) + "0"
  }

  lemma MulAtLeast(d: nat, b: nat)
    requires d >= 1
    ensures d * b >= b
  {
  }

  lemma MultipleMod(t: int, b: int)
    requires b > 0
    ensures (t * b) % b == 0 && (t * b) / b == t
  {
    var q, r := (t * b) / b, (t * b) % b;
    assert t * b == q * b + r && 0 <= r < b;
    var d := t - q;
    assert d * b == r;
    if d >= 1 {
      MulAtLeast(d, b);
    }
  }

  lemma BelowNotMultiple(x: int, b: int)
    requires 0 < x < b
    ensures x % b != 0
  {
  }

  /** n is a multiple of 10 * P exactly when its last digit is 0 and the
      rest is a multiple of P. */
  lemma MultipleOfTenTimes(n: nat, p: nat)
    requires p >= 1
    ensures n % (10 * p) == 0 <==> n % 10 == 0 && (n / 10) % p == 0
  {
    if n % (10 * p) == 0 {
      var t := n / (10 * p);
      assert n == t * (10 * p);
      assert n == (t * p) * 10;
      MultipleMod(t * p, 10);
      MultipleMod(t, p);
    }
    if n % 10 == 0 && (n / 10) % p == 0 {
      var t := (n / 10) / p;
      assert n / 10 == t * p;
      assert n == t * (10 * p);
      MultipleMod(t, 10 * p);
    }
  }

  lemma EndsWithZerosStep(x: string, c: char, k: nat)
    requires k >= 1
    ensures EndsWith(x + [c], Zeros(k)) <==> c == '0' && EndsWith(x, Zeros(k - 1))
  {
    var s := x + [c];
    if EndsWith(s, Zeros(k)) {
      assert s[|s| - 1] == Zeros(k)[k - 1];
      assert x[|x| - (k - 1)..] == s[|s| - k..|s| - 1];
      assert Zeros(k)[..k - 1] == Zeros(k - 1);
    }
    if c == '0' && EndsWith(x, Zeros(k - 1)) {
      assert s[|s| - k..] == x[|x| - (k - 1)..] + [c];
    }
  }

  /** The numeral of a positive n ends in k zeros, even after a prefix that
      does not itself end in '0', exactly when n is a multiple of 10^k. */
  lemma {:induction false} EndsWithZeros(pre: string, n: nat, k: nat)
    requires n >= 1 && k >= 1
    requires pre == [] || pre[|pre| - 1] != '0'
    ensures EndsWith(pre + NatToString(n), Zeros(k)) <==> n % Pow10(k) == 0
    decreases n
  {
    if n < 10 {
      assert pre + NatToString(n) == pre + [DigitChar(n)];
      EndsWithZerosStep(pre, DigitChar(n), k);
      MultipleOfTenTimes(n, Pow10(k - 1));
    } else {
      var x := pre + NatToString(n / 10);
      assert pre + NatToString(n) == x + [DigitChar(n % 10)];
      EndsWithZerosStep(x, DigitChar(n % 10), k);
      MultipleOfTenTimes(n, Pow10(k - 1));
      if k > 1 {
        EndsWithZeros(pre, n / 10, k - 1);
      }
    }
  }
}

=== FILE: download.dfy ===
/** The download loop of `download`: walk the plan's archive paths in order,
    skip those already stored and fetch the rest. Fetching is the browser
    session's work; here a fetched archive simply appears at its path. */
module Download {
  import opened Wrappers
  import opened Chunks
  import opened Layout
  import opened Resume

  predicate Distinct(xs: seq<string>) {
    forall i, j :: 0 <= i < j < |xs| ==> xs[i] != xs[j]
  }

  /** Two distinct sequences separated by a set concatenate to a distinct
      one. */
  lemma DistinctConcat(a: seq<string>, b: seq<string>, s: set<string>)
    requires Distinct(a) && Distinct(b)
    requires forall x :: x in a ==> x in s
    requires forall x :: x in b ==> x !in s
    ensures Distinct(a + b)
  {
    var c := a + b;
    forall i, j | 0 <= i < j < |c|
      ensures c[i] != c[j]
    {
      if j < |a| {
        assert c[i] == a[i] && c[j] == a[j];
      } else if i >= |a| {
        assert c[i] == b[i - |a|] && c[j] == b[j - |a|];
      } else {
        assert c[i] == a[i] && c[j] == b[j - |a|];
        assert c[i] in a && c[j] in b;
      }
    }
  }

  /** The storage after a walk, and the paths fetched, in order. */
  datatype Fetched = Fetched(store: set<string>, fetched: seq<string>)

  /** The body of `for i in r`: an existing `dest_path` is skipped with no
      further action; any other is downloaded and moved there. Afterwards
      every path of the walk is stored, exactly the missing ones were
      fetched, and none was fetched twice. */
  function Fetch(store: set<string>, paths: seq<string>): (r: Fetched)
    ensures forall p :: p in r.store <==> p in store || p in paths
    ensures forall p :: p in r.fetched <==> p in paths && p !in store
    ensures Distinct(r.fetched)
    decreases |paths|
  {
    if paths == [] then Fetched(store, [])
    else if paths[0] in store then
      var r := Fetch(store, paths[1..]);
      assert paths == [paths[0]] + paths[1..];
      r
    else
      var rest := Fetch(store + {paths[0]}, paths[1..]);
      assert paths == [paths[0]] + paths[1..];
      Fetched(rest.store, [paths[0]] + rest.fetched)
  }

  /** Reference definition: the paths not yet stored, in walk order. */
  function Missing(store: set<string>, paths: seq<string>): seq<string> {
    if paths == [] then []
    else (if paths[0] in store then [] else [paths[0]]) + Missing(store, paths[1..])
  }

  /** Storing a path that does not occur in the walk changes nothing about
      which of its paths are missing. */
  lemma {:induction false} MissingIgnores(store: set<string>, x: string, paths: seq<string>)
    requires x !in paths
    ensures Missing(store + {x}, paths) == Missing(store, paths)
    decreases |paths|
  {
    if paths != [] {
      assert paths[0] != x;
      assert x !in paths[1..];
      MissingIgnores(store, x, paths[1..]);
    }
  }

  /** When the walk has no repeated path, `download` fetches exactly the
      missing paths, in plan order. */
  lemma {:induction false} FetchIsMissing(store: set<string>, paths: seq<string>)
    requires Distinct(paths)
    ensures Fetch(store, paths).fetched == Missing(store, paths)
    decreases |paths|
  {
    if paths != [] {
      var tail := paths[1..];
      assert Distinct(tail);
      if paths[0] in store {
        FetchIsMissing(store, tail);
      } else {
        assert paths[0] !in tail;
        FetchIsMissing(store + {paths[0]}, tail);
        MissingIgnores(store, paths[0], tail);
      }
    }
  }

  /** A walk over paths that are all stored already fetches nothing and
      leaves the storage as it was. */
  lemma {:induction false} FetchStored(store: set<string>, paths: seq<string>)
    requires forall p :: p in paths ==> p in store
    ensures Fetch(store, paths) == Fetched(store, [])
    decreases |paths|
  {
    if paths != [] {
      assert paths[0] in store;
      FetchStored(store, paths[1..]);
    }
  }

  /** Running the walk a second time fetches nothing and changes nothing. */
  lemma FetchAgain(store: set<string>, paths: seq<string>)
    ensures Fetch(Fetch(store, paths).store, paths) == Fetch(store, paths).(fetched := [])
  {
    FetchStored(Fetch(store, paths).store, paths);
  }

  /** One step of the walk. */
  lemma FetchStep(store: set<string>, x: string, rest: seq<string>)
    ensures Fetch(store, [x] + rest)
            == if x in store then Fetch(store, rest)
               else Fetched(Fetch(store + {x}, rest).store, [x] + Fetch(store + {x}, rest).fetched)
  {
    assert ([x] + rest)[1..] == rest;
  }

  /** Walking `a + b` is walking `a`, then walking `b` from where `a` left
      the storage. */
  lemma {:induction false} FetchConcat(store: set<string>, a: seq<string>, b: seq<string>)
    ensures Fetch(store, a + b).fetched == Fetch(store, a).fetched + Fetch(Fetch(store, a).store, b).fetched
    decreases |a|
  {
    if a == [] {
      assert a + b == b;
    } else {
      var x, t := a[0], a[1..];
      FetchConcat(if x in store then store else store + {x}, t, b);
      FetchConcatCons(store, x, t, b);
      assert a == [x] + t;
    }
  }

  /** The step of `FetchConcat`: one more path in front of `a`. */
  lemma FetchConcatCons(store: set<string>, x: string, t: seq<string>, b: seq<string>)
    requires var s1 := if x in store then store else store + {x};
             Fetch(s1, t + b).fetched == Fetch(s1, t).fetched + Fetch(Fetch(s1, t).store, b).fetched
    ensures Fetch(store, [x] + t + b).fetched
            == Fetch(store, [x] + t).fetched + Fetch(Fetch(store, [x] + t).store, b).fetched
  {
    assert [x] + t + b == [x] + (t + b);
    FetchStep(store, x, t);
    FetchStep(store, x, t + b);
  }

  /** Either way the walk ends with the same storage. */
  lemma FetchConcatStore(store: set<string>, a: seq<string>, b: seq<string>)
    ensures Fetch(store, a + b).store == Fetch(Fetch(store, a).store, b).store
  {
    var r1, r2 := Fetch(store, a + b), Fetch(Fetch(store, a).store, b);
    forall p
      ensures p in r1.store <==> p in r2.store
    {
      assert p in a + b <==> p in a || p in b;
    }
  }

  /** An interrupted run that stored the archives of a prefix `a` of the
      walk, restarted on the whole walk, fetches exactly what an
      uninterrupted run would have fetched, and ends in the same storage. */
  lemma ResumeAfterInterruption(store: set<string>, a: seq<string>, b: seq<string>)
    ensures Fetch(store, a).fetched + Fetch(Fetch(store, a).store, a + b).fetched
            == Fetch(store, a + b).fetched
    ensures Fetch(Fetch(store, a).store, a + b).store == Fetch(store, a + b).store
  {
    var mid := Fetch(store, a).store;
    FetchConcat(store, a, b);
    FetchConcat(mid, a, b);
    FetchConcatStore(store, a, b);
    FetchConcatStore(mid, a, b);
    FetchAgain(store, a);
    assert Fetch(mid, a).fetched == [];
    assert Fetch(mid, a).store == mid;
  }

  /** The archive paths of one window's plan are pairwise distinct. */
  lemma PlanPathsDistinct(year: int, month: int, backward: bool, count: nat)
    requires 1 <= month <= 12
    ensures Distinct(PlanPaths(year, month, backward, count))
  {
    var p := Plan(count, backward);
    var ps := PlanPaths(year, month, backward, count);
    forall i, j | 0 <= i < j < |ps|
      ensures ps[i] != ps[j]
    {
      PlanAscending(count, backward, i, j);
      ChunkPathInjective(year, month, backward, p[i], year, month, backward, p[j]);
    }
  }

  /** `download` for one window: read the result count from the header
      (an unreadable count raises and nothing is fetched), then walk the
      plan's paths. What it fetches is exactly the plan's archives not yet
      stored, in plan order, and afterwards every archive of the plan is
      stored. */
  function DownloadWindow(store: set<string>, year: int, month: int, backward: bool, header: string): (r: Result<Fetched, CountError>)
    requires 1 <= month <= 12
    ensures r.Failure? <==> ResultCount(header).Failure?
    ensures r.Failure? ==> r.error == ResultCount(header).error
    ensures r.Success? ==>
              var paths := PlanPaths(year, month, backward, ResultCount(header).value);
              r.value.fetched == Missing(store, paths)
              && forall q :: q in r.value.store <==> q in store || q in paths
  {
    match ResultCount(header)
    case Failure(e) => Failure(e)
    case Success(count) =>
      var paths := PlanPaths(year, month, backward, count);
      PlanPathsDistinct(year, month, backward, count);
      FetchIsMissing(store, paths);
      Success(Fetch(store, paths))
  }
}

=== FILE: layout.dfy ===
/** The storage layout of chunk archives, which is also the only record of
    progress: `zip/{year}-{month:02d}/{B?}{label}.zip`, with the label
    `x-y`, or just `x` when the range holds one position. Storage is a set
    of paths relative to the data directory. */
module Layout {
  import opened Wrappers
  import opened Text
  import opened Decimal
  import opened Chunks

  /** `f"{x}-{y}" if x != y else f"{x}"`. */
  function Label(c: Chunk): string {
    if c.lo != c.hi then IntToString(c.lo) + "-" + IntToString(c.hi) else IntToString(c.lo)
  }

  /** File name of a chunk archive: `{"B" if backward else ""}{label}.zip`. */
  function ChunkName(backward: bool, c: Chunk): string {
    (if backward then "B" else "") + Label(c) + ".zip"
  }

  /** Directory of one window's archives: `zip/{year}-{month:02d}/`. */
  function MonthDir(year: int, month: int): string
    requires 1 <= month <= 12
  {
    "zip/" + IntToString(year) + "-" + Pad2(month) + "/"
  }

  /** `data_path / f"zip/{year}-{month:02d}/{b}{range_}.zip"`. */
  function ChunkPath(year: int, month: int, backward: bool, c: Chunk): string
    requires 1 <= month <= 12
  {
    MonthDir(year, month) + ChunkName(backward, c)
  }

  /** Names that the glob for zip files in a window's directory lists:
      entries directly inside that directory whose names end in `.zip`. */
  function ExistingNames(store: set<string>, year: int, month: int): set<string>
    requires 1 <= month <= 12
  {
    var dir := MonthDir(year, month);
    set p | p in store && InDir(p, dir) :: p[|dir|..]
  }

  /** `p` names a `.zip` file directly inside the directory `dir`. */
  predicate InDir(p: string, dir: string) {
    |dir| <= |p| && p[..|dir|] == dir && '/' !in p[|dir|..] && EndsWith(p[|dir|..], ".zip")
  }

  predicate NonEmptyDigits(s: string) {
    s != [] && AllDigits(s)
  }

  /** Reads a label back into its range. */
  function ParseLabel(s: string): Option<Chunk> {
    match SplitOnce(s, "-")
    case Some((a, b)) =>
      if NonEmptyDigits(a) && NonEmptyDigits(b) then Some(Chunk(DigitsValue(a), DigitsValue(b)))
      else None
    case None =>
      if NonEmptyDigits(s) then Some(Chunk(DigitsValue(s), DigitsValue(s))) else None
  }

  /** Reads a chunk archive's file name back into its direction and range. */
  function ParseChunkName(name: string): Option<(bool, Chunk)> {
    if !EndsWith(name, ".zip") then None
    else
      var stem := name[..|name| - 4];
      var backward := |stem| > 0 && stem[0] == 'B';
      match ParseLabel(if backward then stem[1..] else stem)
      case Some(c) => Some((backward, c))
      case None => None
  }

  lemma LabelRoundTrip(c: Chunk)
    requires 0 <= c.lo && 0 <= c.hi
    ensures ParseLabel(Label(c)) == Some(c)
  {
    DigitsValueOfNatToString(c.lo);
    DigitsValueOfNatToString(c.hi);
    if c.lo != c.hi {
      assert IntToString(c.lo) == NatToString(c.lo);
      assert '-' !in NatToString(c.lo);
      SplitOnceAtChar(NatToString(c.lo), '-', NatToString(c.hi));
    } else {
      assert '-' !in NatToString(c.lo);
      NoCharNoOccurrence(NatToString(c.lo), '-');
    }
  }

  /** Reading an archive's name gives back its direction and range, so the
      name determines both. */
  lemma ChunkNameRoundTrip(backward: bool, c: Chunk)
    requires 0 <= c.lo && 0 <= c.hi
    ensures ParseChunkName(ChunkName(backward, c)) == Some((backward, c))
  {
    var stem := (if backward then "B" else "") + Label(c);
    assert ChunkName(backward, c) == stem + ".zip";
    StemOfName(stem);
    LabelRoundTrip(c);
    if backward {
      assert stem[1..] == Label(c);
    } else {
      assert stem == Label(c);
      LabelStartsWithDigit(c);
      assert stem[0] != 'B';
    }
  }

  lemma StemOfName(stem: string)
    ensures EndsWith(stem + ".zip", ".zip") && (stem + ".zip")[..|stem|] == stem
  {
  }

  lemma LabelStartsWithDigit(c: Chunk)
    requires 0 <= c.lo
    ensures |Label(c)| > 0 && IsDigit(Label(c)[0])
  {
    assert IntToString(c.lo) == NatToString(c.lo);
    assert Label(c)[0] == NatToString(c.lo)[0];
  }

  /** Distinct chunks get distinct names, and a forward and a backward name
      never coincide. */
  lemma ChunkNameInjective(b1: bool, c1: Chunk, b2: bool, c2: Chunk)
    requires 0 <= c1.lo && 0 <= c1.hi && 0 <= c2.lo && 0 <= c2.hi
    ensures ChunkName(b1, c1) == ChunkName(b2, c2) ==> b1 == b2 && c1 == c2
  {
    ChunkNameRoundTrip(b1, c1);
    ChunkNameRoundTrip(b2, c2);
  }

  lemma NoSlashInChunkName(backward: bool, c: Chunk)
    requires 0 <= c.lo && 0 <= c.hi
    ensures '/' !in ChunkName(backward, c) && EndsWith(ChunkName(backward, c), ".zip")
  {
    assert IntToString(c.lo) == NatToString(c.lo) && IntToString(c.hi) == NatToString(c.hi);
  }

  /** A chunk's name is listed for its window exactly when its archive is
      stored: the glob and the path agree. */
  lemma ExistingNamesOfChunk(store: set<string>, year: int, month: int, backward: bool, c: Chunk)
    requires 1 <= month <= 12
    requires 0 <= c.lo && 0 <= c.hi
    ensures ChunkName(backward, c) in ExistingNames(store, year, month)
            <==> ChunkPath(year, month, backward, c) in store
  {
    var dir := MonthDir(year, month);
    var name := ChunkName(backward, c);
    var path := ChunkPath(year, month, backward, c);
    NoSlashInChunkName(backward, c);
    assert path[..|dir|] == dir && path[|dir|..] == name;
    if name in ExistingNames(store, year, month) {
      var p :| p in store && InDir(p, dir) && p[|dir|..] == name;
      assert p == dir + name;
    }
  }

  /** Where the year and the month sit inside a window's directory. */
  lemma MonthDirParts(year: int, month: int)
    requires 1 <= month <= 12
    ensures var d, y := MonthDir(year, month), IntToString(year);
            |d| == |y| + 8 && d[4..4 + |y|] == y && d[5 + |y|..7 + |y|] == Pad2(month)
  {
    var y, m := IntToString(year), Pad2(month);
    var d := "zip/" + y + "-" + m + "/";
    assert d[4..4 + |y|] == y;
    assert d[5 + |y|..7 + |y|] == m;
  }

  /** Directories of distinct windows differ. */
  lemma MonthDirInjective(y1: int, m1: int, y2: int, m2: int)
    requires 1 <= m1 <= 12 && 1 <= m2 <= 12
    ensures MonthDir(y1, m1) == MonthDir(y2, m2) ==> y1 == y2 && m1 == m2
  {
    MonthDirParts(y1, m1);
    MonthDirParts(y2, m2);
    IntToStringInjective(y1, y2);
    Pad2Injective(m1, m2);
  }

  /** A path under a directory ending in '/' whose file name has no '/'
      determines the directory and the name. */
  lemma SplitAtLastSlash(d1: string, n1: string, d2: string, n2: string)
    requires |d1| > 0 && d1[|d1| - 1] == '/' && |d2| > 0 && d2[|d2| - 1] == '/'
    requires '/' !in n1 && '/' !in n2
    requires d1 + n1 == d2 + n2
    ensures d1 == d2 && n1 == n2
  {
    var s := d1 + n1;
    assert s[|d1| - 1] == '/' && s[|d2| - 1] == '/';
    assert forall k :: |d1| <= k < |s| ==> s[k] == n1[k - |d1|];
    assert forall k :: |d2| <= k < |s| ==> s[k] == n2[k - |d2|];
    assert |d1| == |d2|;
    assert d1 == s[..|d1|] == d2;
  }

  /** Archive paths are unique: two chunks of any windows and directions
      share a path only if they are the same chunk of the same window in the
      same direction. */
  lemma ChunkPathInjective(y1: int, m1: int, b1: bool, c1: Chunk, y2: int, m2: int, b2: bool, c2: Chunk)
    requires 1 <= m1 <= 12 && 1 <= m2 <= 12
    requires 0 <= c1.lo && 0 <= c1.hi && 0 <= c2.lo && 0 <= c2.hi
    ensures ChunkPath(y1, m1, b1, c1) == ChunkPath(y2, m2, b2, c2)
            ==> y1 == y2 && m1 == m2 && b1 == b2 && c1 == c2
  {
    if ChunkPath(y1, m1, b1, c1) == ChunkPath(y2, m2, b2, c2) {
      NoSlashInChunkName(b1, c1);
      NoSlashInChunkName(b2, c2);
      SplitAtLastSlash(MonthDir(y1, m1), ChunkName(b1, c1), MonthDir(y2, m2), ChunkName(b2, c2));
      MonthDirInjective(y1, m1, y2, m2);
      ChunkNameInjective(b1, c1, b2, c2);
    }
  }
  /** A path lies directly inside at most one window's directory. */
  lemma InOneMonthDir(q: string, y1: int, m1: int, y2: int, m2: int)
    requires 1 <= m1 <= 12 && 1 <= m2 <= 12
    requires InDir(q, MonthDir(y1, m1)) && InDir(q, MonthDir(y2, m2))
    ensures y1 == y2 && m1 == m2
  {
    var d1, d2 := MonthDir(y1, m1), MonthDir(y2, m2);
    assert d1[|d1| - 1] == '/' && d2[|d2| - 1] == '/';
    assert q[|d2| - 1] == '/' && q[|d1| - 1] == '/';
    assert d1 == q[..|d1|] == d2;
    MonthDirInjective(y1, m1, y2, m2);
  }

  /** Storing archives outside a window's directory leaves what its glob
      lists unchanged. */
  lemma ExistingNamesElsewhere(store: set<string>, more: set<string>, year: int, month: int)
    requires 1 <= month <= 12
    requires forall q :: q in more ==> !InDir(q, MonthDir(year, month))
    ensures ExistingNames(store + more, year, month) == ExistingNames(store, year, month)
  {
  }
}

=== FILE: records.dfy ===
/** `parse`: one document's plain text to a record. The text starts with
    three lines (title, source, raw date); a `Dateline:` line gives the
    location; the story is between `Body` and `Graphic` or `Load-Date`.
    `dateparser.parse` is a parameter. */
module Records {
  import opened Wrappers
  import opened Text
  import opened Decimal

  /** A calendar date as `dateparser.parse` returns it. */
  datatype Date = Date(year: nat, month: nat, day: nat)

  /** `date.strftime("%Y-%m-%d")`: month and day zero-padded, the year
      written as glibc writes `%Y`. */
  function FormatDate(d: Date): (s: string)
    ensures '/' !in s && s != []
  {
    NatToString(d.year) + "-" + Pad2(d.month) + "-" + Pad2(d.day)
  }

  /** The `Munch` `parse` returns. `date` is the formatted date, or None
      when `dateparser` could not read the raw date. */
  datatype Record = Record(
    date: Option<string>,
    country: Option<string>,
    location: Option<string>,
    source: string,
    title: string,
    text: string)

  /** The record's date, when it has one, is a date as `strftime` wrote it. */
  ghost predicate Dated(r: Record) {
    r.date.Some? ==> exists d :: r.date.value == FormatDate(d)
  }

  /** The exceptions `parse` can raise on a document. */
  datatype ParseError =
    | TooFewLines       // one of the three `split("\n", 1)` unpackings fails
    | NoDateline        // no Dateline match: `", " in None` raises TypeError
    | TooManyCommaParts // nexis_scraper only: `split(", ")` gives three or more parts
    | NoBody            // `split("Body", 1)` unpacking fails
    | NoEndMarker       // no `Graphic` and `split("Load-Date", 1)` unpacking fails

  /** The first three lines and the remainder. */
  datatype Header = Header(title: string, source: string, date: string, rest: string)

  /** Number of line breaks in `s`. */
  function Breaks(s: string): nat {
    multiset(s)['\n']
  }

  /** `a, b = s.split("\n", 1)`: the first line holds no line break, so the
      remainder holds one line break fewer than the whole. */
  function SplitLine(s: string): (r: Option<(string, string)>)
    ensures r.None? <==> Breaks(s) == 0
    ensures r.Some? ==> s == r.value.0 + "\n" + r.value.1
    ensures r.Some? ==> '\n' !in r.value.0 && Breaks(r.value.1) == Breaks(s) - 1
  {
    match SplitOnce(s, "\n")
    case None =>
      CharOccurrence(s, '\n');
      None
    case Some((a, b)) =>
      FirstLineHasNoBreak(s, a, b);
      assert multiset(s) == multiset(a) + multiset("\n") + multiset(b) by {
        assert s == a + "\n" + b;
      }
      Some((a, b))
  }

  /** The text a header was cut from. */
  function JoinHeader(h: Header): string {
    h.title + "\n" + (h.source + "\n" + (h.date + "\n" + h.rest))
  }

  /** `title, rest = plaintext.split("\n", 1)` and twice more: the three
      lines hold no line break and, joined back with the remainder, give
      the text again. It fails exactly when the text has fewer than three
      line breaks. */
  function SplitHeader(s: string): (r: Option<Header>)
    ensures r.None? <==> Breaks(s) < 3
    ensures r.Some? ==> s == JoinHeader(r.value)
    ensures r.Some? ==> '\n' !in r.value.title && '\n' !in r.value.source && '\n' !in r.value.date
  {
    match SplitLine(s)
    case None => None
    case Some((title, r1)) =>
      match SplitLine(r1)
      case None => None
      case Some((source, r2)) =>
        match SplitLine(r2)
        case None => None
        case Some((date, rest)) => Some(Header(title, source, date, rest))
  }

  /** Cutting at the first line break undoes joining at one. */
  lemma SplitLineOfJoin(a: string, b: string)
    requires '\n' !in a
    ensures SplitLine(a + "\n" + b) == Some((a, b))
  {
    SplitOnceAtChar(a, '\n', b);
  }

  /** Header round trip: three lines without line breaks, joined to a
      remainder, are cut back out unchanged. */
  lemma SplitHeaderOfJoin(h: Header)
    requires '\n' !in h.title && '\n' !in h.source && '\n' !in h.date
    ensures SplitHeader(JoinHeader(h)) == Some(h)
  {
    SplitLineOfJoin(h.title, h.source + "\n" + (h.date + "\n" + h.rest));
    SplitLineOfJoin(h.source, h.date + "\n" + h.rest);
    SplitLineOfJoin(h.date, h.rest);
  }

  /** What precedes the first line break holds none. */
  lemma FirstLineHasNoBreak(s: string, a: string, b: string)
    requires SplitOnce(s, "\n") == Some((a, b))
    ensures '\n' !in a
  {
    forall k | 0 <= k < |a|
      ensures a[k] != '\n'
    {
      assert !OccursAt(s, k, "\n");
      assert s[k..k + 1] == [a[k]];
    }
  }

  // ---------------------------------------------------------------------
  // The pattern `Dateline:\s?(.+),[^,]+\n`, as `re.findall(...)[0]` sees it.

  /** The end of the line that `i` is on: the next line break, or the end. */
  function LineEnd(s: string, i: nat): (e: nat)
    requires i <= |s|
    ensures i <= e <= |s|
    ensures forall k :: i <= k < e ==> s[k] != '\n'
    ensures e < |s| ==> s[e] == '\n'
    decreases |s| - i
  {
    if i == |s| || s[i] == '\n' then i else LineEnd(s, i + 1)
  }

  /** `[^,]*\n` matches at `j`: a line break comes before any comma. */
  predicate BreakBeforeComma(s: string, j: nat)
    decreases |s| - j
  {
    j < |s| && s[j] != ',' && (s[j] == '\n' || BreakBeforeComma(s, j + 1))
  }

  /** `[^,]+\n` matches at `i`: at least one character that is not a comma
      (a line break counts), then a line break, with no comma between. */
  predicate Tail(s: string, i: nat) {
    i < |s| && s[i] != ',' && BreakBeforeComma(s, i + 1)
  }

  /** The group end the regex settles on for a group starting at `a`: `.+`
      first takes the whole rest of the line and gives characters back, so
      the end is the LAST comma at `c` in `(a, upto]` that `[^,]+\n` can
      follow. */
  function GroupEndFrom(s: string, a: nat, upto: int): (r: Option<nat>)
    requires upto < |s|
    ensures r.Some? ==> a < r.value <= upto && s[r.value] == ',' && Tail(s, r.value + 1)
    ensures r.Some? ==> forall c :: r.value < c <= upto ==> !(s[c] == ',' && Tail(s, c + 1))
    ensures r.None? ==> forall c :: a < c <= upto ==> !(s[c] == ',' && Tail(s, c + 1))
    decreases upto
  {
    if upto <= a then None
    else if s[upto] == ',' && Tail(s, upto + 1) then Some(upto)
    else GroupEndFrom(s, a, upto - 1)
  }

  /** The group `(.+)` starting at `a`, as (start, end): it stays on `a`'s
      line and is followed by a comma. */
  function GroupAt(s: string, a: nat): (r: Option<(nat, nat)>)
    ensures r.Some? ==> a < |s| && r.value.0 == a < r.value.1 < LineEnd(s, a)
    ensures r.Some? ==> s[r.value.1] == ',' && Tail(s, r.value.1 + 1)
    ensures r.Some? ==> a < |s| && forall c :: r.value.1 < c < LineEnd(s, a) ==> !(s[c] == ',' && Tail(s, c + 1))
    ensures r.None? ==> a >= |s| || forall c :: a < c < LineEnd(s, a) ==> !(s[c] == ',' && Tail(s, c + 1))
  {
    if a >= |s| then None
    else
      match GroupEndFrom(s, a, LineEnd(s, a) - 1)
      case None => None
      case Some(c) => Some((a, c))
  }

  /** The whole pattern at position `p`. `\s?` is greedy: the engine first
      tries consuming one whitespace character (a line break included) and
      falls back to consuming none. */
  function MatchAt(s: string, p: nat): (r: Option<(nat, nat)>)
    ensures r.Some? ==> OccursAt(s, p, "Dateline:")
    ensures r.Some? ==> r.value.0 == p + 9 || (r.value.0 == p + 10 && p + 9 < |s| && IsSpace(s[p + 9]))
  {
    if !OccursAt(s, p, "Dateline:") then None
    else
      var q := p + 9;
      var consumed := if q < |s| && IsSpace(s[q]) then GroupAt(s, q + 1) else None;
      if consumed.Some? then consumed else GroupAt(s, q)
  }

  /** The leftmost match at or after `from`. */
  function FirstMatch(s: string, from: nat): (r: Option<nat>)
    ensures r.Some? ==> from <= r.value && MatchAt(s, r.value).Some?
    ensures r.Some? ==> forall q :: from <= q < r.value ==> MatchAt(s, q).None?
    ensures r.None? ==> forall q :: from <= q ==> MatchAt(s, q).None?
    decreases |s| - from
  {
    if from > |s| then None
    else if MatchAt(s, from).Some? then Some(from)
    else FirstMatch(s, from + 1)
  }

  /** The pattern matches at `p` and nowhere before it. */
  predicate FirstMatchAt(s: string, p: nat) {
    MatchAt(s, p).Some? && forall q :: 0 <= q < p ==> MatchAt(s, q).None?
  }

  /** `re.findall(r"Dateline:\s?(.+),[^,]+\n", s)[0]`, or None when there
      is no match: the group of the leftmost match. It is never empty and
      stays on one line. */
  function Dateline(s: string): (r: Option<string>)
    ensures r.None? <==> forall p :: MatchAt(s, p).None?
    ensures r.Some? ==> exists p :: FirstMatchAt(s, p) && r.value == s[MatchAt(s, p).value.0..MatchAt(s, p).value.1]
    ensures r.Some? ==> r.value != [] && '\n' !in r.value
  {
    match FirstMatch(s, 0)
    case None => None
    case Some(p) =>
      var (a, c) := MatchAt(s, p).value;
      assert forall k :: a <= k < c ==> s[k] != '\n';
      assert FirstMatchAt(s, p);
      Some(s[a..c])
  }

  /** The group of the leftmost match is the location, whatever follows. */
  lemma DatelineOfFirstMatch(s: string, p: nat)
    requires FirstMatchAt(s, p)
    ensures Dateline(s) == Some(s[MatchAt(s, p).value.0..MatchAt(s, p).value.1])
  {
    var f := FirstMatch(s, 0);
    assert f.Some?;
    assert f.value == p;
  }

  /** A Dateline match needs the word `Dateline:`; text without a colon
      has none. */
  lemma NoColonNoDateline(s: string)
    requires ':' !in s
    ensures Dateline(s) == None
  {
    forall p | 0 <= p
      ensures MatchAt(s, p).None?
    {
      NoColonNoKeyword(s, p);
    }
  }

  lemma NoColonNoKeyword(s: string, p: nat)
    requires ':' !in s
    ensures !OccursAt(s, p, "Dateline:")
  {
    if p + 9 <= |s| {
      assert s[p + 8] in s;
      assert s[p..p + 9][8] == s[p + 8];
    }
  }

  /** On a `Dateline:` line that ends in a line break, whose last comma has
      something after it, the location is cut exactly at that last comma:
      for `Dateline: PARIS, France, May 5` the group is `PARIS, France`. */
  lemma GroupEndsAtLastComma(s: string, a: nat, c: nat)
    requires a <= |s| && a < c < LineEnd(s, a) < |s|
    requires s[c] == ',' && s[c + 1] != '\n'
    requires forall k :: c < k < LineEnd(s, a) ==> s[k] != ','
    ensures GroupAt(s, a) == Some((a, c))
  {
    var e := LineEnd(s, a);
    assert c + 1 < e;
    BreakReached(s, c + 2, e);
  }

  /** Scanning forward from `j` over non-commas reaches the line break at `e`. */
  lemma {:induction false} BreakReached(s: string, j: nat, e: nat)
    requires j <= e < |s| && s[e] == '\n'
    requires forall k :: j <= k < e ==> s[k] != ','
    ensures BreakBeforeComma(s, j)
    decreases e - j
  {
    if j < e {
      BreakReached(s, j + 1, e);
    }
  }

  // ---------------------------------------------------------------------
  // Location and body.

  /** nexis_clicker: `location.rsplit(", ", 1)` when the location holds
      `", "`, else no country. Neither part is stripped. */
  function SplitLocationClicker(loc: string): (r: (string, Option<string>))
    ensures Contains(loc, ", ") ==> r.1.Some? && loc == r.0 + ", " + r.1.value
    ensures Contains(loc, ", ") ==> !Contains(r.1.value, ", ")
    ensures !Contains(loc, ", ") ==> r == (loc, None)
  {
    match RSplitOnce(loc, ", ")
    case None => (loc, None)
    case Some((place, country)) =>
      assert loc[|place| + 2..] == country;
      NoOccurrenceInSuffix(loc, |place| + 2, ", ");
      (place, Some(country))
  }

  /** nexis_scraper: `location.split(", ")` unpacked into two names when the
      location holds `", "`: it fails unless `", "` occurs exactly once. */
  function SplitLocationScraper(loc: string): (r: Result<(string, Option<string>), ParseError>)
    ensures !Contains(loc, ", ") ==> r == Success((loc, None))
    ensures r.Success? && Contains(loc, ", ") ==>
              r.value.1.Some? && loc == r.value.0 + ", " + r.value.1.value
    ensures r.Failure? ==> r.error == TooManyCommaParts && Contains(SplitOnce(loc, ", ").value.1, ", ")
  {
    if !Contains(loc, ", ") then Success((loc, None))
    else
      match SplitExactlyTwo(loc, ", ")
      case None => Failure(TooManyCommaParts)
      case Some((place, country)) => Success((place, Some(country)))
  }

  /** `rest` is `meta + "Body" + text + marker + tail` with `Body` at its
      first occurrence, `marker` the first `Graphic` after it, or, when no
      `Graphic` follows, the first `Load-Date`. */
  predicate BodySplit(rest: string, meta: string, text: string, marker: string, tail: string) {
    && (marker == "Graphic" || marker == "Load-Date")
    && rest == meta + "Body" + text + marker + tail
    && !Contains(meta, "Body")
    && !Contains(text, marker)
    && (marker == "Load-Date" ==> !Contains(text + marker + tail, "Graphic"))
  }

  /** Reassembling the text around the body. */
  lemma BodyParts(rest: string, meta: string, after: string, text: string, marker: string, tail: string)
    requires rest == meta + "Body" + after && after == text + marker + tail
    ensures rest == meta + "Body" + text + marker + tail
  {
  }

  lemma MarkersFirstCharUnique()
    ensures FirstCharUnique("Body") && FirstCharUnique("Graphic") && FirstCharUnique("Load-Date")
  {
  }

  /** Body round trip: the text between the markers of such a split is what
      `parse` takes as the body. */
  lemma BodyTextOfSplit(rest: string, meta: string, text: string, marker: string, tail: string)
    requires BodySplit(rest, meta, text, marker, tail)
    ensures BodyText(rest) == Success(text)
  {
    var after := text + marker + tail;
    assert rest == meta + "Body" + after;
    MarkersFirstCharUnique();
    SplitOnceOfJoin(meta, "Body", after);
    SplitOnceOfJoin(text, marker, tail);
    if marker == "Graphic" {
      assert OccursAt(after, |text|, "Graphic") by {
        assert after[|text|..|text| + 7] == marker;
      }
    }
  }

  /** `meta, rest = rest.split("Body", 1)`, then the part before the first
      `Graphic` if there is one, else before the first `Load-Date`. */
  function BodyText(rest: string): (r: Result<string, ParseError>)
    ensures r.Failure? ==> r.error == NoBody || r.error == NoEndMarker
    ensures r == Failure(NoBody) <==> !Contains(rest, "Body")
    ensures r == Failure(NoEndMarker) <==>
              Contains(rest, "Body") && !Contains(SplitOnce(rest, "Body").value.1, "Graphic")
              && !Contains(SplitOnce(rest, "Body").value.1, "Load-Date")
    ensures r.Success? ==> exists meta, marker, tail :: BodySplit(rest, meta, r.value, marker, tail)
  {
    match SplitOnce(rest, "Body")
    case None => Failure(NoBody)
    case Some((meta, after)) =>
      SplitOnceFirstPart(rest, "Body", meta, after);
      if Contains(after, "Graphic") then
        var (text, tail) := SplitOnce(after, "Graphic").value;
        SplitOnceFirstPart(after, "Graphic", text, tail);
        BodyParts(rest, meta, after, text, "Graphic", tail);
        assert BodySplit(rest, meta, text, "Graphic", tail);
        Success(text)
      else
        match SplitOnce(after, "Load-Date")
        case None => Failure(NoEndMarker)
        case Some((text, tail)) =>
          SplitOnceFirstPart(after, "Load-Date", text, tail);
          BodyParts(rest, meta, after, text, "Load-Date", tail);
          assert BodySplit(rest, meta, text, "Load-Date", tail);
          Success(text)
  }

  /** The fields `parse` reads from the header lines and the body. */
  predicate HeaderFields(r: Record, h: Header, parseDate: string -> Option<Date>) {
    && r.title == Strip(h.title)
    && r.source == Strip(h.source)
    && BodyText(h.rest).Success? && r.text == Strip(BodyText(h.rest).value)
    && (r.date.Some? <==> parseDate(Strip(h.date)).Some?)
    && (r.date.Some? ==> r.date.value == FormatDate(parseDate(Strip(h.date)).value))
  }

  /** The part of `parse` both scrapers share once the location is split:
      title, source and body text stripped, the date formatted when
      dateparser reads it, the location and the country as given. */
  function Assemble(h: Header, parseDate: string -> Option<Date>, location: Option<string>, country: Option<string>): (r: Result<Record, ParseError>)
    ensures r.Failure? <==> BodyText(h.rest).Failure?
    ensures r.Failure? ==> r.error == BodyText(h.rest).error
    ensures r.Success? ==> HeaderFields(r.value, h, parseDate)
    ensures r.Success? ==> r.value.location == location && r.value.country == country
    ensures r.Success? ==> IsStripped(r.value.title) && IsStripped(r.value.source) && IsStripped(r.value.text)
    ensures r.Success? ==> Dated(r.value)
  {
    var date := parseDate(Strip(h.date));
    match BodyText(h.rest)
    case Failure(e) => Failure(e)
    case Success(text) =>
      var r := Record(
        if date.Some? then Some(FormatDate(date.value)) else None,
        country, location, Strip(h.source), Strip(h.title), Strip(text));
      assert Dated(r) by {
        if date.Some? {
          assert r.date.value == FormatDate(date.value);
        }
      }
      Success(r)
  }

  /** `parse` of nexis_clicker. It fails when the text has fewer than three
      lines, then when no Dateline matches, then when the body cannot be
      cut out; otherwise every field is read from its part of the text. */
  function ParseClicker(s: string, parseDate: string -> Option<Date>): (r: Result<Record, ParseError>)
    ensures SplitHeader(s).None? ==> r == Failure(TooFewLines)
    ensures SplitHeader(s).Some? && Dateline(SplitHeader(s).value.rest).None? ==> r == Failure(NoDateline)
    ensures r.Failure? <==> SplitHeader(s).None? || Dateline(SplitHeader(s).value.rest).None?
                            || BodyText(SplitHeader(s).value.rest).Failure?
    ensures r.Failure? && SplitHeader(s).Some? && Dateline(SplitHeader(s).value.rest).Some?
            ==> r.error == BodyText(SplitHeader(s).value.rest).error
    ensures r.Success? ==> var h := SplitHeader(s).value;
              var parts := SplitLocationClicker(Dateline(h.rest).value);
              HeaderFields(r.value, h, parseDate)
              && r.value.location == Some(parts.0) && r.value.country == parts.1
    ensures r.Success? ==> IsStripped(r.value.title) && IsStripped(r.value.source) && IsStripped(r.value.text)
    ensures r.Success? ==> Dated(r.value)
  {
    match SplitHeader(s)
    case None => Failure(TooFewLines)
    case Some(h) =>
      match Dateline(h.rest)
      case None => Failure(NoDateline)
      case Some(loc) =>
        var parts := SplitLocationClicker(loc);
        Assemble(h, parseDate, Some(parts.0), parts.1)
  }

  /** `parse` of nexis_scraper: as nexis_clicker's, but the location is
      unpacked from `split(", ")`, which fails before the body is cut out
      when `", "` occurs twice or more. */
  function ParseScraper(s: string, parseDate: string -> Option<Date>): (r: Result<Record, ParseError>)
    ensures SplitHeader(s).None? ==> r == Failure(TooFewLines)
    ensures SplitHeader(s).Some? && Dateline(SplitHeader(s).value.rest).None? ==> r == Failure(NoDateline)
    ensures SplitHeader(s).Some? && Dateline(SplitHeader(s).value.rest).Some?
            && SplitLocationScraper(Dateline(SplitHeader(s).value.rest).value).Failure?
            ==> r == Failure(TooManyCommaParts)
    ensures r.Failure? <==> SplitHeader(s).None? || Dateline(SplitHeader(s).value.rest).None?
                            || SplitLocationScraper(Dateline(SplitHeader(s).value.rest).value).Failure?
                            || BodyText(SplitHeader(s).value.rest).Failure?
    ensures r.Failure? && SplitHeader(s).Some? && Dateline(SplitHeader(s).value.rest).Some?
            && SplitLocationScraper(Dateline(SplitHeader(s).value.rest).value).Success?
            ==> r.error == BodyText(SplitHeader(s).value.rest).error
    ensures r.Success? ==> var h := SplitHeader(s).value;
              var parts := SplitLocationScraper(Dateline(h.rest).value).value;
              HeaderFields(r.value, h, parseDate)
              && r.value.location == Some(parts.0) && r.value.country == parts.1
    ensures r.Success? ==> IsStripped(r.value.title) && IsStripped(r.value.source) && IsStripped(r.value.text)
    ensures r.Success? ==> Dated(r.value)
  {
    match SplitHeader(s)
    case None => Failure(TooFewLines)
    case Some(h) =>
      match Dateline(h.rest)
      case None => Failure(NoDateline)
      case Some(loc) =>
        match SplitLocationScraper(loc)
        case Failure(e) => Failure(e)
        case Success(parts) => Assemble(h, parseDate, Some(parts.0), parts.1)
  }

  /** `parse` of nexis_clicker as evidently intended: a document without a
      Dateline gets no location and no country instead of raising. */
  function ParseClickerFixed(s: string, parseDate: string -> Option<Date>): (r: Result<Record, ParseError>)
    ensures SplitHeader(s).None? ==> r == Failure(TooFewLines)
    ensures r.Failure? <==> SplitHeader(s).None? || BodyText(SplitHeader(s).value.rest).Failure?
    ensures r.Failure? ==> r.error == TooFewLines || r.error == NoBody || r.error == NoEndMarker
    ensures r.Success? ==> HeaderFields(r.value, SplitHeader(s).value, parseDate)
    ensures r.Success? && Dateline(SplitHeader(s).value.rest).None?
            ==> r.value.location.None? && r.value.country.None?
    ensures r.Success? && Dateline(SplitHeader(s).value.rest).Some?
            ==> var parts := SplitLocationClicker(Dateline(SplitHeader(s).value.rest).value);
                r.value.location == Some(parts.0) && r.value.country == parts.1
    ensures r.Success? ==> IsStripped(r.value.title) && IsStripped(r.value.source) && IsStripped(r.value.text)
    ensures r.Success? ==> Dated(r.value)
  {
    match SplitHeader(s)
    case None => Failure(TooFewLines)
    case Some(h) =>
      match Dateline(h.rest)
      case Some(loc) =>
        var parts := SplitLocationClicker(loc);
        Assemble(h, parseDate, Some(parts.0), parts.1)
      case None => Assemble(h, parseDate, None, None)
  }

  /** The date field `parse` makes of a raw date line. */
  function ReadDate(raw: string, parseDate: string -> Option<Date>): Option<string> {
    if parseDate(Strip(raw)).Some? then Some(FormatDate(parseDate(Strip(raw)).value)) else None
  }

  /** Document round trip for nexis_clicker: three header lines, then a
      remainder with a Dateline and a body between its markers, parse to
      the stripped lines, the split location and the stripped body. */
  lemma ParseClickerOfDocument(h: Header, meta: string, text: string, marker: string, tail: string,
                               parseDate: string -> Option<Date>)
    requires '\n' !in h.title && '\n' !in h.source && '\n' !in h.date
    requires BodySplit(h.rest, meta, text, marker, tail)
    requires Dateline(h.rest).Some?
    ensures var parts := SplitLocationClicker(Dateline(h.rest).value);
            ParseClicker(JoinHeader(h), parseDate)
            == Success(Record(ReadDate(h.date, parseDate), parts.1, Some(parts.0),
                              Strip(h.source), Strip(h.title), Strip(text)))
  {
    SplitHeaderOfJoin(h);
    BodyTextOfSplit(h.rest, meta, text, marker, tail);
  }

  /** The same for the corrected parser on a document without a Dateline:
      it has no location and no country. */
  lemma ParseFixedWithoutDateline(h: Header, meta: string, text: string, marker: string, tail: string,
                                  parseDate: string -> Option<Date>)
    requires '\n' !in h.title && '\n' !in h.source && '\n' !in h.date
    requires BodySplit(h.rest, meta, text, marker, tail)
    requires Dateline(h.rest).None?
    ensures ParseClickerFixed(JoinHeader(h), parseDate)
            == Success(Record(ReadDate(h.date, parseDate), None, None,
                              Strip(h.source), Strip(h.title), Strip(text)))
  {
    SplitHeaderOfJoin(h);
    BodyTextOfSplit(h.rest, meta, text, marker, tail);
  }

  /** Past the first `", "`, a string whose rest lacks one has none. */
  lemma NoLaterSeparator(s: string, a: string, b: string, j: int)
    requires s == a + ", " + b && !Contains(b, ", ")
    requires |a| < j
    ensures !OccursAt(s, j, ", ")
  {
    if j + 2 <= |s| {
      assert s[j..j + 2][0] == s[j];
      if j == |a| + 1 {
        assert s[j] == ' ';
      } else {
        assert s[|a| + 2..] == b;
        assert !OccursAt(b, j - |a| - 2, ", ");
        assert s[j..j + 2] == b[j - |a| - 2..j - |a|];
      }
    }
  }

  /** When `sep` occurs once, cutting at the last occurrence is cutting at
      the first. */
  lemma RSplitOfSingle(s: string, a: string, b: string)
    requires SplitOnce(s, ", ") == Some((a, b)) && !Contains(b, ", ")
    ensures RSplitOnce(s, ", ") == Some((a, b))
  {
    forall j | |a| < j
      ensures !OccursAt(s, j, ", ")
    {
      NoLaterSeparator(s, a, b, j);
    }
    var (x, y) := RSplitOnce(s, ", ").value;
    assert OccursAt(s, |x|, ", ");
    assert |x| == |a|;
    assert x == s[..|a|] == a;
    assert y == s[|a| + 2..] == b;
  }

  /** The two location splits agree unless `", "` occurs twice or more,
      where nexis_scraper's fails. */
  lemma LocationSplitsAgree(loc: string)
    ensures SplitLocationScraper(loc).Failure?
            <==> Contains(loc, ", ") && Contains(SplitOnce(loc, ", ").value.1, ", ")
    ensures SplitLocationScraper(loc).Success? ==> SplitLocationScraper(loc).value == SplitLocationClicker(loc)
  {
    if Contains(loc, ", ") && !Contains(SplitOnce(loc, ", ").value.1, ", ") {
      var (a, b) := SplitOnce(loc, ", ").value;
      RSplitOfSingle(loc, a, b);
    }
  }

  /** Where `", "` occurs in the example location below. */
  lemma ExampleSeparators()
    ensures OccursAt("P, Q, R", 1, ", ") && OccursAt("P, Q, R", 4, ", ")
    ensures forall j :: 0 <= j < 7 && j != 1 && j != 4 ==> !OccursAt("P, Q, R", j, ", ")
  {
    var loc := "P, Q, R";
    forall j | 0 <= j < 7 && j != 1 && j != 4
      ensures !OccursAt(loc, j, ", ")
    {
      if j + 2 <= 7 {
        assert loc[j..j + 2][0] == loc[j];
        assert loc[j..j + 2][1] == loc[j + 1];
      }
    }
  }

  lemma ExampleSplitOnce()
    ensures SplitOnce("P, Q, R", ", ") == Some(("P", "Q, R"))
  {
    var loc := "P, Q, R";
    ExampleSeparators();
    var (a, b) := SplitOnce(loc, ", ").value;
    assert OccursAt(loc, |a|, ", ");
    assert |a| == 1;
    assert a == loc[..1] == "P";
    assert b == loc[3..] == "Q, R";
    assert SplitOnce(loc, ", ") == Some((a, b));
  }

  lemma ExampleRSplitOnce()
    ensures RSplitOnce("P, Q, R", ", ") == Some(("P, Q", "R"))
  {
    var loc := "P, Q, R";
    ExampleSeparators();
    var (x, y) := RSplitOnce(loc, ", ").value;
    assert OccursAt(loc, |x|, ", ");
    assert |x| == 4;
    assert x == loc[..4] == "P, Q";
    assert y == loc[6..] == "R";
    assert RSplitOnce(loc, ", ") == Some((x, y));
  }

  /** A location naming a place, a region and a country: nexis_scraper's
      two-way unpacking fails on it, nexis_clicker's keeps the last part as
      the country. */
  lemma TwoSeparatorsExample()
    ensures SplitLocationScraper("P, Q, R") == Failure(TooManyCommaParts)
    ensures SplitLocationClicker("P, Q, R") == ("P, Q", Some("R"))
  {
    ExampleSplitOnce();
    ExampleRSplitOnce();
    assert OccursAt("Q, R", 1, ", ");
    LocationSplitsAgree("P, Q, R");
  }

  /** The two parsers agree whenever the location holds `", "` at most
      once; with two or more, nexis_scraper fails where nexis_clicker
      splits at the last one. */
  lemma ParsersAgree(s: string, parseDate: string -> Option<Date>)
    requires SplitHeader(s).Some? && Dateline(SplitHeader(s).value.rest).Some?
    ensures var loc := Dateline(SplitHeader(s).value.rest).value;
            Contains(loc, ", ") && Contains(SplitOnce(loc, ", ").value.1, ", ")
            ==> ParseScraper(s, parseDate) == Failure(TooManyCommaParts)
    ensures var loc := Dateline(SplitHeader(s).value.rest).value;
            !(Contains(loc, ", ") && Contains(SplitOnce(loc, ", ").value.1, ", "))
            ==> ParseScraper(s, parseDate) == ParseClicker(s, parseDate)
  {
    var h := SplitHeader(s).value;
    var loc := Dateline(h.rest).value;
    LocationSplitsAgree(loc);
  }

  /** The fixed parser differs from nexis_clicker's only where the latter
      raises for want of a Dateline. */
  lemma FixedAgreesWithClicker(s: string, parseDate: string -> Option<Date>)
    ensures ParseClicker(s, parseDate) != Failure(NoDateline)
            ==> ParseClickerFixed(s, parseDate) == ParseClicker(s, parseDate)
    ensures ParseClicker(s, parseDate) == Failure(NoDateline) && ParseClickerFixed(s, parseDate).Success?
            ==> ParseClickerFixed(s, parseDate).value.location.None?
                && ParseClickerFixed(s, parseDate).value.country.None?
  {
  }

  /** The header of the example document below. */
  lemma ExampleHeader()
    ensures SplitHeader("T\nS\nD\nBodyGraphic") == Some(Header("T", "S", "D", "BodyGraphic"))
  {
    var h := Header("T", "S", "D", "BodyGraphic");
    assert JoinHeader(h) == "T\nS\nD\nBodyGraphic";
    SplitHeaderOfJoin(h);
  }

  /** The body of the example document below is empty. */
  lemma ExampleBody()
    ensures BodyText("BodyGraphic") == Success("")
  {
    assert OccursAt("BodyGraphic", 0, "Body");
    assert SplitOnce("BodyGraphic", "Body") == Some(("", "Graphic"));
    assert OccursAt("Graphic", 0, "Graphic");
    assert SplitOnce("Graphic", "Graphic") == Some(("", ""));
  }

  /** The remainder of the example document below has no Dateline. */
  lemma ExampleNoDateline()
    ensures Dateline("BodyGraphic") == None
  {
    var s := "BodyGraphic";
    assert forall k :: 0 <= k < |s| ==> s[k] != ':';
    NoColonNoDateline(s);
  }

  /** A document without a Dateline: nexis_clicker raises although its own
      next line provides for a missing location; the fixed parser reads it. */
  lemma ClickerRaisesWithoutDateline(parseDate: string -> Option<Date>)
    ensures ParseClicker("T\nS\nD\nBodyGraphic", parseDate) == Failure(NoDateline)
    ensures ParseClickerFixed("T\nS\nD\nBodyGraphic", parseDate).Success?
  {
    ExampleHeader();
    ExampleNoDateline();
    ExampleBody();
  }
}

=== FILE: resume.dfy ===
/** The resume test at the top of `search_by_month`: from the names of the
    archives already stored for a window, decide whether the window is done.
    Both scrapers use the same test. */
module Resume {
  import opened Wrappers
  import opened Text
  import opened Decimal
  import opened Calendar
  import opened Chunks
  import opened Layout

  /** What `search_by_month` decides before touching the page. */
  datatype Verdict =
    | Finished  // some archive name does not end in `00.zip`: the last chunk was short
    | Capped    // forward mode and some name ends in `000.zip`: the 1000-result cap was reached
    | Proceed   // search the window and download

  /** Some stored name does not end in `00.zip`. */
  predicate HasShortChunk(names: set<string>) {
    exists n :: n in names && !EndsWith(n, "00.zip")
  }

  /** Some stored name ends in `000.zip`. */
  predicate HasCapChunk(names: set<string>) {
    exists n :: n in names && EndsWith(n, "000.zip")
  }

  /** The classifier. A short chunk finishes the window whatever the
      direction; otherwise a `000.zip` name stops forward mode only. An empty
      directory always proceeds. */
  function Classify(names: set<string>, backward: bool): (v: Verdict)
    ensures v == Finished <==> exists n :: n in names && !EndsWith(n, "00.zip")
    ensures v == Capped ==> !backward && exists n :: n in names && EndsWith(n, "000.zip")
    ensures v == Proceed <==>
              (forall n :: n in names ==> EndsWith(n, "00.zip"))
              && (backward || forall n :: n in names ==> !EndsWith(n, "000.zip"))
    ensures names == {} ==> v == Proceed
  {
    if HasShortChunk(names) then Finished
    else if HasCapChunk(names) && !backward then Capped
    else Proceed
  }

  /** `search_by_month` returns None (the caller moves to the next window). */
  predicate Skips(names: set<string>, backward: bool) {
    Classify(names, backward) != Proceed
  }

  /** `search_by_month` up to the date filter: `None` when the window is
      skipped, otherwise the lower and upper date bounds it types in. */
  function SearchByMonth(store: set<string>, year: int, month: int, backward: bool): (r: Option<(string, string)>)
    requires 1 <= month <= 12
    ensures r.None? <==> Skips(ExistingNames(store, year, month), backward)
    ensures r.Some? ==> ParseDayMonthYear(r.value.0) == Some((1, month, year))
    ensures r.Some? ==> ParseDayMonthYear(r.value.1) == Some((DaysInMonth(year, month), month, year))
  {
    if Skips(ExistingNames(store, year, month), backward) then None else Some(MonthBounds(year, month))
  }

  /** More stored archives never turn a skip back into a download: a
      finished window stays finished, a capped one stays skipped. */
  lemma SkipMonotone(names: set<string>, more: set<string>, backward: bool)
    requires names <= more
    ensures Classify(names, backward) == Finished ==> Classify(more, backward) == Finished
    ensures Skips(names, backward) ==> Skips(more, backward)
  {
    if Classify(names, backward) == Capped && !HasShortChunk(more) {
      var n :| n in names && EndsWith(n, "000.zip");
      assert n in more;
    }
  }

  /** Going backward never stops at the cap; going forward skips at least
      whenever going backward does. */
  lemma BackwardSkipsLess(names: set<string>)
    ensures Skips(names, true) ==> Skips(names, false)
    ensures Classify(names, true) != Capped
  {
  }

  /** The prefix before the last number of a chunk's name. */
  function NamePrefix(backward: bool, c: Chunk): (pre: string)
    requires 0 <= c.lo
    ensures pre == [] || pre[|pre| - 1] != '0'
  {
    (if backward then "B" else "") + (if c.lo != c.hi then NatToString(c.lo) + "-" else "")
  }

  /** A chunk's name is its prefix, the numeral of its last position and
      `.zip`. */
  lemma ChunkNameShape(backward: bool, c: Chunk)
    requires 0 <= c.lo && 0 <= c.hi
    ensures ChunkName(backward, c) == NamePrefix(backward, c) + NatToString(c.hi) + ".zip"
  {
    assert IntToString(c.lo) == NatToString(c.lo) && IntToString(c.hi) == NatToString(c.hi);
  }

  /** A chunk's name ends in `k` zeros and `.zip` exactly when its last
      position is a multiple of `10^k`. */
  lemma NameEndsWithZeros(backward: bool, c: Chunk, k: nat)
    requires 0 <= c.lo && 1 <= c.hi && k >= 1
    ensures EndsWith(ChunkName(backward, c), Zeros(k) + ".zip") <==> c.hi % Pow10(k) == 0
  {
    ChunkNameShape(backward, c);
    EndsWithCommonTail(NamePrefix(backward, c) + NatToString(c.hi), Zeros(k), ".zip");
    EndsWithZeros(NamePrefix(backward, c), c.hi, k);
  }

  /** The two suffixes the classifier tests, in terms of last positions. */
  lemma ClassifierSuffixes(backward: bool, c: Chunk)
    requires 0 <= c.lo && 1 <= c.hi
    ensures EndsWith(ChunkName(backward, c), "00.zip") <==> c.hi % 100 == 0
    ensures EndsWith(ChunkName(backward, c), "000.zip") <==> c.hi % 1000 == 0
  {
    assert Zeros(2) + ".zip" == "00.zip";
    assert Zeros(3) + ".zip" == "000.zip";
    assert Pow10(2) == 100 && Pow10(3) == 1000;
    NameEndsWithZeros(backward, c, 2);
    NameEndsWithZeros(backward, c, 3);
  }

  /** The archive paths of a window's plan, in download order. */
  function PlanPaths(year: int, month: int, backward: bool, count: nat): (ps: seq<string>)
    requires 1 <= month <= 12
    ensures |ps| == |Plan(count, backward)|
    ensures forall k :: 0 <= k < |ps| ==> ps[k] == ChunkPath(year, month, backward, Plan(count, backward)[k])
  {
    var p := Plan(count, backward);
    seq(|p|, k requires 0 <= k < |p| => ChunkPath(year, month, backward, p[k]))
  }

  /** Once every archive of a plan whose last position is not a multiple of
      100 is stored, the window is finished, in either direction: for
      instance a forward plan for fewer than 1000 results that are not a
      multiple of 100. */
  lemma FinishedAfterPlan(store: set<string>, year: int, month: int, backward: bool, count: nat, resumeBackward: bool)
    requires 1 <= month <= 12
    requires Limit(count, backward) > 0 && Limit(count, backward) % 100 != 0
    requires forall q :: q in PlanPaths(year, month, backward, count) ==> q in store
    ensures Classify(ExistingNames(store, year, month), resumeBackward) == Finished
  {
    var p := Plan(count, backward);
    var last := p[|p| - 1];
    assert PlanPaths(year, month, backward, count)[|p| - 1] == ChunkPath(year, month, backward, last);
    ExistingNamesOfChunk(store, year, month, backward, last);
    ClassifierSuffixes(backward, last);
  }

  /** The names a plan leaves in its window's directory. */
  function PlanNames(backward: bool, count: nat): (ns: set<string>)
    ensures forall c :: c in Plan(count, backward) ==> ChunkName(backward, c) in ns
    ensures forall n :: n in ns ==> exists c :: c in Plan(count, backward) && n == ChunkName(backward, c)
  {
    set c | c in Plan(count, backward) :: ChunkName(backward, c)
  }

  /** The window's directory holds exactly the archives of the plan; what
      the store holds elsewhere does not matter. */
  ghost predicate DirHoldsPlan(store: set<string>, year: int, month: int, backward: bool, count: nat)
    requires 1 <= month <= 12
  {
    forall q :: InDir(q, MonthDir(year, month)) ==>
      (q in store <==> q in PlanPaths(year, month, backward, count))
  }

  /** Every archive of a plan lies directly in its window's directory. */
  lemma PlanPathInDir(year: int, month: int, backward: bool, count: nat, k: int)
    requires 1 <= month <= 12
    requires 0 <= k < |Plan(count, backward)|
    ensures InDir(PlanPaths(year, month, backward, count)[k], MonthDir(year, month))
  {
    var dir := MonthDir(year, month);
    var c := Plan(count, backward)[k];
    var path := ChunkPath(year, month, backward, c);
    NoSlashInChunkName(backward, c);
    assert path[..|dir|] == dir && path[|dir|..] == ChunkName(backward, c);
  }

  /** The position in the plan of one of its names. */
  lemma PlanNameChunk(backward: bool, count: nat, n: string) returns (k: int)
    requires n in PlanNames(backward, count)
    ensures 0 <= k < |Plan(count, backward)| && n == ChunkName(backward, Plan(count, backward)[k])
  {
    var p := Plan(count, backward);
    var c :| c in p && n == ChunkName(backward, c);
    k :| 0 <= k < |p| && p[k] == c;
  }

  /** A plan's name is listed once its archive is stored. */
  lemma PlanNameListed(store: set<string>, year: int, month: int, backward: bool, count: nat, n: string)
    requires 1 <= month <= 12
    requires forall q :: q in PlanPaths(year, month, backward, count) ==> q in store
    requires n in PlanNames(backward, count)
    ensures n in ExistingNames(store, year, month)
  {
    var k := PlanNameChunk(backward, count, n);
    var c := Plan(count, backward)[k];
    var ps := PlanPaths(year, month, backward, count);
    assert ps[k] in ps;
    ExistingNamesOfChunk(store, year, month, backward, c);
  }

  /** A listed name is a plan name when every stored archive of the window
      is one of the plan's. */
  lemma ListedPlanName(store: set<string>, year: int, month: int, backward: bool, count: nat, n: string)
    requires 1 <= month <= 12
    requires forall q :: q in store && InDir(q, MonthDir(year, month)) ==> q in PlanPaths(year, month, backward, count)
    requires n in ExistingNames(store, year, month)
    ensures n in PlanNames(backward, count)
  {
    var dir := MonthDir(year, month);
    var ps := PlanPaths(year, month, backward, count);
    var q :| q in store && InDir(q, dir) && q[|dir|..] == n;
    var k :| 0 <= k < |ps| && ps[k] == q;
    var c := Plan(count, backward)[k];
    var name := ChunkName(backward, c);
    assert q == dir + name;
    assert n == name;
  }

  /** When a window's directory holds exactly the archives of a plan, the
      classifier sees exactly the plan's names. */
  lemma ExistingNamesOfPlan(store: set<string>, year: int, month: int, backward: bool, count: nat)
    requires 1 <= month <= 12
    requires DirHoldsPlan(store, year, month, backward, count)
    ensures ExistingNames(store, year, month) == PlanNames(backward, count)
  {
    var names := ExistingNames(store, year, month);
    var ps := PlanPaths(year, month, backward, count);
    forall q | q in ps
      ensures q in store
    {
      var k :| 0 <= k < |ps| && ps[k] == q;
      PlanPathInDir(year, month, backward, count, k);
    }
    forall n | n in PlanNames(backward, count)
      ensures n in names
    {
      PlanNameListed(store, year, month, backward, count, n);
    }
    forall n | n in names
      ensures n in PlanNames(backward, count)
    {
      ListedPlanName(store, year, month, backward, count, n);
    }
  }

  /** Every forward name of a window with at least `100 * (k + 1)` results
      ends on a multiple of 100. */
  lemma ForwardNameSuffixes(count: nat, n: string)
    requires n in PlanNames(false, count)
    requires count % 100 == 0 || count >= 1000
    ensures EndsWith(n, "00.zip")
    ensures EndsWith(n, "000.zip") ==> count >= 1000
  {
    var p := Plan(count, false);
    var c :| c in p && n == ChunkName(false, c);
    var k :| 0 <= k < |p| && p[k] == c;
    ForwardChunkEnd(count, k);
    ClassifierSuffixes(false, c);
  }

  /** The last position of a forward chunk, when the count is round or
      capped, is a multiple of 100, and below 1000 unless the count is capped. */
  lemma ForwardChunkEnd(count: nat, k: int)
    requires count % 100 == 0 || count >= 1000
    requires 0 <= k < |Plan(count, false)|
    ensures Plan(count, false)[k].hi % 100 == 0
    ensures Plan(count, false)[k].hi % 1000 == 0 ==> count >= 1000
  {
    var hi := Plan(count, false)[k].hi;
    ForwardLimitRound(count);
    FullChunks(count, false, k);
    assert hi == (k + 1) * 100;
    MultipleMod(k + 1, 100);
    if count < 1000 {
      BelowNotMultiple(hi, 1000);
    }
  }

  /** The case the resume test misses: a window whose forward count is a
      multiple of 100 below 1000 ends on a `00.zip` name, so after all its
      archives are stored, whatever else the store holds, it is still
      classified as one to download, and is searched again on every run. */
  lemma RoundCountIsReentered(store: set<string>, year: int, month: int, count: nat)
    requires 1 <= month <= 12
    requires 100 <= count < 1000 && count % 100 == 0
    requires DirHoldsPlan(store, year, month, false, count)
    ensures Classify(ExistingNames(store, year, month), false) == Proceed
  {
    ExistingNamesOfPlan(store, year, month, false, count);
    forall n | n in PlanNames(false, count)
      ensures EndsWith(n, "00.zip") && !EndsWith(n, "000.zip")
    {
      ForwardNameSuffixes(count, n);
    }
  }

  /** Forward downloads of a window with at least 1000 results end on a
      `000.zip` name: afterwards forward mode skips the window and backward
      mode continues it. */
  lemma CappedAfterFullForward(store: set<string>, year: int, month: int, count: nat)
    requires 1 <= month <= 12
    requires count >= 1000
    requires DirHoldsPlan(store, year, month, false, count)
    ensures Classify(ExistingNames(store, year, month), false) == Capped
    ensures Classify(ExistingNames(store, year, month), true) == Proceed
  {
    ExistingNamesOfPlan(store, year, month, false, count);
    ForwardNamesRound(count);
    var name := CapName(count);
  }

  /** With at least 1000 results every forward name ends on `00.zip`. */
  lemma ForwardNamesRound(count: nat)
    requires count >= 1000
    ensures forall n :: n in PlanNames(false, count) ==> EndsWith(n, "00.zip")
  {
    forall n | n in PlanNames(false, count)
      ensures EndsWith(n, "00.zip")
    {
      ForwardNameSuffixes(count, n);
    }
  }

  /** With at least 1000 results the last forward name ends on `000.zip`. */
  lemma CapName(count: nat) returns (name: string)
    requires count >= 1000
    ensures name in PlanNames(false, count) && EndsWith(name, "000.zip")
  {
    var p := Plan(count, false);
    var last := p[|p| - 1];
    assert last.hi == 1000;
    assert last in p;
    name := ChunkName(false, last);
    ClassifierSuffixes(false, last);
  }
}

=== FILE: sink.dfy ===
/** The JSON sink: `process_dowload` of nexis_clicker and `process` of
    nexis_scraper unpack a downloaded archive, parse every document and write
    each record to `json/{date}/{name}.json`, the date being the record's
    own date read back by `dateparser.parse` and rewritten as `%Y-%m-%d`.
    The parser and `dateparser.parse` are parameters; the JSON tree is a map
    from paths (relative to the data directory) to the records written. */
module Sink {
  import opened Wrappers
  import opened Text
  import opened Records

  /** `data_path / "json" / datestr / f"{fn}.json"`. */
  function JsonPath(date: string, name: string): string {
    "json/" + date + "/" + name + ".json"
  }

  /** A formatted date has no '/', so the path gives back both the date
      directory and the entry name: distinct records never share a file. */
  lemma JsonPathInjective(d1: string, n1: string, d2: string, n2: string)
    requires '/' !in d1 && '/' !in d2
    ensures JsonPath(d1, n1) == JsonPath(d2, n2) ==> d1 == d2 && n1 == n2
  {
    if JsonPath(d1, n1) == JsonPath(d2, n2) {
      var t1, t2 := n1 + ".json", n2 + ".json";
      var u1, u2 := d1 + ['/'] + t1, d2 + ['/'] + t2;
      assert JsonPath(d1, n1) == "json/" + u1;
      assert JsonPath(d2, n2) == "json/" + u2;
      assert u1 == JsonPath(d1, n1)[5..] == u2;
      SplitOnceAtChar(d1, '/', t1);
      SplitOnceAtChar(d2, '/', t2);
      assert t1 == t2;
      assert n1 == t1[..|t1| - 5] == t2[..|t2| - 5] == n2;
    }
  }

  /** Why a run over an archive stops: the exception it raises. */
  datatype SinkError =
    | Unparsable(error: ParseError) // `parse(text)` raised
    | Undated                       // nexis_scraper: `dateparser.parse(None)` raises
    | Unreadable                    // `dateparser.parse` gave None: `strftime` raises

  /** What one entry of the archive does. */
  datatype Step =
    | Skip                             // nexis_clicker: no date, reported and passed over
    | Put(path: string, record: Record) // the record is written to `path`
    | Stop(error: SinkError)           // the loop raises

  /** `not item.date`: no date, or an empty one. */
  predicate NoDate(item: Record) {
    item.date.None? || item.date.value == []
  }

  /** One iteration of `process_dowload`'s loop. */
  function ClickerStep(name: string, text: string,
                       parse: string -> Result<Record, ParseError>,
                       parseDate: string -> Option<Date>): (st: Step)
    ensures st.Skip? <==> parse(text).Success? && NoDate(parse(text).value)
    ensures parse(text).Failure? ==> st == Stop(Unparsable(parse(text).error))
    ensures st.Stop? <==> parse(text).Failure?
                          || (!NoDate(parse(text).value) && parseDate(parse(text).value.date.value).None?)
    ensures st.Stop? ==> st.error != Undated
    ensures st.Put? ==> st.record == parse(text).value && !NoDate(st.record)
    ensures st.Put? ==> parseDate(st.record.date.value).Some?
                        && st.path == JsonPath(FormatDate(parseDate(st.record.date.value).value), name)
  {
    match parse(text)
    case Failure(e) => Stop(Unparsable(e))
    case Success(item) =>
      if NoDate(item) then Skip
      else
        match parseDate(item.date.value)
        case None => Stop(Unreadable)
        case Some(d) => Put(JsonPath(FormatDate(d), name), item)
  }

  /** One iteration of `process`'s loop: there is no guard, so a record
      without a date stops the run. */
  function ScraperStep(name: string, text: string,
                       parse: string -> Result<Record, ParseError>,
                       parseDate: string -> Option<Date>): (st: Step)
    ensures !st.Skip?
    ensures parse(text).Failure? ==> st == Stop(Unparsable(parse(text).error))
    ensures parse(text).Success? && parse(text).value.date.None? ==> st == Stop(Undated)
    ensures st.Stop? <==> parse(text).Failure? || parse(text).value.date.None?
                          || parseDate(parse(text).value.date.value).None?
    ensures st.Put? ==> st.record == parse(text).value && st.record.date.Some?
    ensures st.Put? ==> parseDate(st.record.date.value).Some?
                        && st.path == JsonPath(FormatDate(parseDate(st.record.date.value).value), name)
  {
    match parse(text)
    case Failure(e) => Stop(Unparsable(e))
    case Success(item) =>
      if item.date.None? then Stop(Undated)
      else
        match parseDate(item.date.value)
        case None => Stop(Unreadable)
        case Some(d) => Put(JsonPath(FormatDate(d), name), item)
  }

  /** The two loops do the same on every record that has a date; on a record
      without one nexis_clicker skips and nexis_scraper stops. */
  lemma StepsAgree(name: string, text: string,
                   parse: string -> Result<Record, ParseError>,
                   parseDate: string -> Option<Date>)
    ensures parse(text).Success? && parse(text).value.date.None?
            ==> ClickerStep(name, text, parse, parseDate) == Skip
                && ScraperStep(name, text, parse, parseDate) == Stop(Undated)
    ensures !(parse(text).Success? && NoDate(parse(text).value))
            ==> ClickerStep(name, text, parse, parseDate) == ScraperStep(name, text, parse, parseDate)
  {
  }

  /** When `dateparser.parse` reads back what `strftime` wrote, a record is
      filed under its own date. */
  lemma FiledUnderOwnDate(name: string, text: string,
                          parse: string -> Result<Record, ParseError>,
                          parseDate: string -> Option<Date>, d: Date)
    requires forall e :: parseDate(FormatDate(e)) == Some(e)
    requires parse(text).Success? && parse(text).value.date == Some(FormatDate(d))
    ensures ClickerStep(name, text, parse, parseDate) == Put(JsonPath(FormatDate(d), name), parse(text).value)
    ensures ScraperStep(name, text, parse, parseDate) == ClickerStep(name, text, parse, parseDate)
  {
    assert parseDate(FormatDate(d)) == Some(d);
  }

  /** The JSON tree after a run, the names reported as having no date, and
      the entry the run stopped at with its exception. */
  datatype Outcome = Outcome(store: map<string, Record>, undated: seq<string>, error: Option<(string, SinkError)>)

  /** No step of `steps` stops the run. */
  predicate NoStop(steps: seq<(string, Step)>) {
    forall k :: 0 <= k < |steps| ==> !steps[k].1.Stop?
  }

  /** The entries run in order; a write replaces the file at its path, a
      skip reports the name, a stop ends the run and keeps what was written. */
  function Apply(store: map<string, Record>, steps: seq<(string, Step)>): (o: Outcome)
    ensures o.error.None? <==> NoStop(steps)
    ensures o.error.Some? ==> exists k :: 0 <= k < |steps| && steps[k] == (o.error.value.0, Stop(o.error.value.1))
                                         && NoStop(steps[..k])
    ensures forall n :: n in o.undated ==> exists k :: 0 <= k < |steps| && steps[k] == (n, Skip)
    ensures forall n :: n in o.undated ==> exists k :: 0 <= k < |steps| && steps[k] == (n, Skip) && NoStop(steps[..k])
    ensures forall k :: 0 <= k < |steps| && steps[k].1.Skip? && NoStop(steps[..k]) ==> steps[k].0 in o.undated
    ensures NoStop(steps) ==> forall k :: 0 <= k < |steps| && steps[k].1.Skip? ==> steps[k].0 in o.undated
    ensures (forall k :: 0 <= k < |steps| ==> !steps[k].1.Skip?) ==> o.undated == []
    decreases |steps|
  {
    if steps == [] then Outcome(store, [], None)
    else
      var rest := steps[1..];
      assert forall k :: 0 <= k < |rest| ==> rest[k] == steps[k + 1];
      match steps[0].1
      case Skip =>
        var o := Apply(store, rest);
        assert NoStop(steps) ==> NoStop(rest);
        SkipsReported(steps, o.undated);
        assert o.error.Some? ==> exists k :: 0 < k < |steps| && steps[k] == (o.error.value.0, Stop(o.error.value.1))
                                             && NoStop(steps[..k]) by {
          if o.error.Some? {
            StopInTail(steps, o.error.value.0, o.error.value.1);
          }
        }
        o.(undated := [steps[0].0] + o.undated)
      case Put(p, r) =>
        var o := Apply(store[p := r], rest);
        assert NoStop(steps) ==> NoStop(rest);
        SkipsReportedAfterPut(steps, o.undated);
        assert o.error.Some? ==> exists k :: 0 < k < |steps| && steps[k] == (o.error.value.0, Stop(o.error.value.1))
                                             && NoStop(steps[..k]) by {
          if o.error.Some? {
            StopInTail(steps, o.error.value.0, o.error.value.1);
          }
        }
        o
      case Stop(e) =>
        assert steps[..0] == [];
        Outcome(store, [], Some((steps[0].0, e)))
  }

  /** `u` holds exactly the names of the skips that come before any stop. */
  predicate ReportsSkipsBeforeStop(steps: seq<(string, Step)>, u: seq<string>) {
    && (forall n :: n in u ==> exists k :: 0 <= k < |steps| && steps[k] == (n, Skip) && NoStop(steps[..k]))
    && (forall k :: 0 <= k < |steps| && steps[k].1.Skip? && NoStop(steps[..k]) ==> steps[k].0 in u)
  }

  lemma NoStopShift(steps: seq<(string, Step)>, k: int)
    requires 0 < k <= |steps|
    ensures NoStop(steps[..k]) <==> !steps[0].1.Stop? && NoStop(steps[1..][..k - 1])
  {
    assert steps[..k] == [steps[0]] + steps[1..][..k - 1];
  }

  /** A first step that writes leaves the reported names to the rest. */
  lemma SkipsReportedAfterPut(steps: seq<(string, Step)>, u: seq<string>)
    requires |steps| > 0 && steps[0].1.Put?
    requires ReportsSkipsBeforeStop(steps[1..], u)
    ensures ReportsSkipsBeforeStop(steps, u)
  {
    var rest := steps[1..];
    forall n | n in u
      ensures exists k :: 0 <= k < |steps| && steps[k] == (n, Skip) && NoStop(steps[..k])
    {
      var k :| 0 <= k < |rest| && rest[k] == (n, Skip) && NoStop(rest[..k]);
      NoStopShift(steps, k + 1);
      assert steps[k + 1] == rest[k];
    }
    forall k | 0 <= k < |steps| && steps[k].1.Skip? && NoStop(steps[..k])
      ensures steps[k].0 in u
    {
      NoStopShift(steps, k);
      assert rest[k - 1] == steps[k];
    }
  }

  /** A first step that skips is reported ahead of the rest. */
  lemma SkipsReported(steps: seq<(string, Step)>, u: seq<string>)
    requires |steps| > 0 && steps[0].1.Skip?
    requires ReportsSkipsBeforeStop(steps[1..], u)
    ensures ReportsSkipsBeforeStop(steps, [steps[0].0] + u)
  {
    var rest := steps[1..];
    forall n | n in [steps[0].0] + u
      ensures exists k :: 0 <= k < |steps| && steps[k] == (n, Skip) && NoStop(steps[..k])
    {
      if n == steps[0].0 {
        assert steps[..0] == [];
        assert steps[0] == (n, Skip);
      } else {
        var k :| 0 <= k < |rest| && rest[k] == (n, Skip) && NoStop(rest[..k]);
        NoStopShift(steps, k + 1);
        assert steps[k + 1] == rest[k];
      }
    }
    forall k | 0 <= k < |steps| && steps[k].1.Skip? && NoStop(steps[..k])
      ensures steps[k].0 in [steps[0].0] + u
    {
      if k > 0 {
        NoStopShift(steps, k);
        assert rest[k - 1] == steps[k];
      }
    }
  }

  /** The first stop of the steps after a step that does not stop is the
      first stop of them all. */
  lemma StopInTail(steps: seq<(string, Step)>, n: string, e: SinkError)
    requires |steps| > 0 && !steps[0].1.Stop?
    requires exists k :: 0 <= k < |steps| - 1 && steps[1..][k] == (n, Stop(e)) && NoStop(steps[1..][..k])
    ensures exists k :: 0 < k < |steps| && steps[k] == (n, Stop(e)) && NoStop(steps[..k])
  {
    var rest := steps[1..];
    var k :| 0 <= k < |rest| && rest[k] == (n, Stop(e)) && NoStop(rest[..k]);
    assert steps[..k + 1] == [steps[0]] + rest[..k];
    assert steps[k + 1] == rest[k];
  }

  /** The files a run writes before it stops, a later write to a path
      replacing an earlier one. It does not depend on what was stored. */
  function Written(steps: seq<(string, Step)>): map<string, Record>
    decreases |steps|
  {
    if steps == [] then map[]
    else
      match steps[0].1
      case Skip => Written(steps[1..])
      case Put(p, r) => map[p := r] + Written(steps[1..])
      case Stop(_) => map[]
  }

  /** Every file written comes from a step that wrote that very record. */
  lemma {:induction false} WrittenFrom(steps: seq<(string, Step)>, p: string)
    requires p in Written(steps)
    ensures exists k :: 0 <= k < |steps| && steps[k].1 == Put(p, Written(steps)[p])
    decreases |steps|
  {
    var rest := steps[1..];
    match steps[0].1
    case Skip =>
      WrittenFrom(rest, p);
      var k :| 0 <= k < |rest| && rest[k].1 == Put(p, Written(rest)[p]);
      assert steps[k + 1] == rest[k];
    case Put(q, r) =>
      if p != q {
        WrittenFrom(rest, p);
        var k :| 0 <= k < |rest| && rest[k].1 == Put(p, Written(rest)[p]);
        assert steps[k + 1] == rest[k];
      } else if p in Written(rest) {
        WrittenFrom(rest, p);
        var k :| 0 <= k < |rest| && rest[k].1 == Put(p, Written(rest)[p]);
        assert steps[k + 1] == rest[k];
      } else {
        assert steps[0].1 == Put(p, Written(steps)[p]);
      }
  }

  /** A run that does not stop writes every record it reaches. */
  lemma {:induction false} WrittenComplete(steps: seq<(string, Step)>, k: int)
    requires NoStop(steps) && 0 <= k < |steps| && steps[k].1.Put?
    ensures steps[k].1.path in Written(steps)
    decreases |steps|
  {
    var rest := steps[1..];
    assert NoStop(rest) by {
      forall j | 0 <= j < |rest|
        ensures !rest[j].1.Stop?
      {
        assert rest[j] == steps[j + 1];
      }
    }
    if k > 0 {
      assert rest[k - 1] == steps[k];
      WrittenComplete(rest, k - 1);
    }
  }

  /** The store after a run is the store before it overlaid with what the run
      writes. */
  lemma {:induction false} ApplyStore(store: map<string, Record>, steps: seq<(string, Step)>)
    ensures Apply(store, steps).store == store + Written(steps)
    decreases |steps|
  {
    if steps == [] {
      assert store + map[] == store;
    } else {
      var rest := steps[1..];
      match steps[0].1
      case Skip =>
        ApplyStore(store, rest);
      case Put(p, r) =>
        ApplyStore(store[p := r], rest);
        assert store[p := r] + Written(rest) == store + (map[p := r] + Written(rest));
      case Stop(_) =>
        assert store + map[] == store;
    }
  }

  /** What a run reports does not depend on what was stored before. */
  lemma {:induction false} ApplyReportsIgnoreStore(s1: map<string, Record>, s2: map<string, Record>,
                                                   steps: seq<(string, Step)>)
    ensures Apply(s1, steps).undated == Apply(s2, steps).undated
    ensures Apply(s1, steps).error == Apply(s2, steps).error
    decreases |steps|
  {
    if steps != [] {
      match steps[0].1
      case Skip =>
        ApplyReportsIgnoreStore(s1, s2, steps[1..]);
      case Put(p, r) =>
        ApplyReportsIgnoreStore(s1[p := r], s2[p := r], steps[1..]);
      case Stop(_) =>
    }
  }

  /** Running the same entries again over the result changes nothing: the
      same files with the same contents, the same report. */
  lemma ApplyIdempotent(store: map<string, Record>, steps: seq<(string, Step)>)
    ensures Apply(Apply(store, steps).store, steps) == Apply(store, steps)
  {
    var o := Apply(store, steps);
    ApplyStore(store, steps);
    ApplyStore(o.store, steps);
    ApplyReportsIgnoreStore(store, o.store, steps);
    assert o.store + Written(steps) == o.store;
  }

  function ClickerSteps(texts: seq<(string, string)>,
                        parse: string -> Result<Record, ParseError>,
                        parseDate: string -> Option<Date>): (st: seq<(string, Step)>)
    ensures |st| == |texts|
    ensures forall k :: 0 <= k < |texts| ==>
              st[k] == (texts[k].0, ClickerStep(texts[k].0, texts[k].1, parse, parseDate))
  {
    seq(|texts|, k requires 0 <= k < |texts| => (texts[k].0, ClickerStep(texts[k].0, texts[k].1, parse, parseDate)))
  }

  function ScraperSteps(texts: seq<(string, string)>,
                        parse: string -> Result<Record, ParseError>,
                        parseDate: string -> Option<Date>): (st: seq<(string, Step)>)
    ensures |st| == |texts|
    ensures forall k :: 0 <= k < |texts| ==>
              st[k] == (texts[k].0, ScraperStep(texts[k].0, texts[k].1, parse, parseDate))
  {
    seq(|texts|, k requires 0 <= k < |texts| => (texts[k].0, ScraperStep(texts[k].0, texts[k].1, parse, parseDate)))
  }

  /** The entry parses, and if it has a date `dateparser` can read it. */
  predicate ClickerAccepts(text: string, parse: string -> Result<Record, ParseError>,
                           parseDate: string -> Option<Date>) {
    parse(text).Success? && (NoDate(parse(text).value) || parseDate(parse(text).value.date.value).Some?)
  }

  /** The entry parses to a record with a date `dateparser` can read. */
  predicate ScraperAccepts(text: string, parse: string -> Result<Record, ParseError>,
                           parseDate: string -> Option<Date>) {
    parse(text).Success? && parse(text).value.date.Some? && parseDate(parse(text).value.date.value).Some?
  }

  /** Every entry before the `k`-th is run without raising. */
  predicate AcceptedBefore(texts: seq<(string, string)>, k: int,
                           parse: string -> Result<Record, ParseError>,
                           parseDate: string -> Option<Date>) {
    forall j :: 0 <= j < k && j < |texts| ==> ClickerAccepts(texts[j].1, parse, parseDate)
  }

  lemma ClickerPrefix(texts: seq<(string, string)>,
                      parse: string -> Result<Record, ParseError>,
                      parseDate: string -> Option<Date>, k: int)
    requires 0 <= k <= |texts|
    ensures NoStop(ClickerSteps(texts, parse, parseDate)[..k]) <==> AcceptedBefore(texts, k, parse, parseDate)
  {
    var steps := ClickerSteps(texts, parse, parseDate);
    forall j | 0 <= j < k
      ensures !steps[..k][j].1.Stop? <==> ClickerAccepts(texts[j].1, parse, parseDate)
    {
      assert steps[..k][j].1 == ClickerStep(texts[j].0, texts[j].1, parse, parseDate);
    }
  }

  /** Names reported before the stop, read back as entries of the archive. */
  lemma ClickerReports(texts: seq<(string, string)>,
                       parse: string -> Result<Record, ParseError>,
                       parseDate: string -> Option<Date>, u: seq<string>)
    requires ReportsSkipsBeforeStop(ClickerSteps(texts, parse, parseDate), u)
    ensures forall n :: n in u ==>
              exists k :: 0 <= k < |texts| && texts[k].0 == n && parse(texts[k].1).Success?
                          && NoDate(parse(texts[k].1).value) && AcceptedBefore(texts, k, parse, parseDate)
    ensures forall k :: (0 <= k < |texts| && parse(texts[k].1).Success? && NoDate(parse(texts[k].1).value)
                         && AcceptedBefore(texts, k, parse, parseDate)) ==> texts[k].0 in u
  {
    var steps := ClickerSteps(texts, parse, parseDate);
    forall n | n in u
      ensures exists k :: 0 <= k < |texts| && texts[k].0 == n && parse(texts[k].1).Success?
                          && NoDate(parse(texts[k].1).value) && AcceptedBefore(texts, k, parse, parseDate)
    {
      var k :| 0 <= k < |steps| && steps[k] == (n, Skip) && NoStop(steps[..k]);
      ClickerPrefix(texts, parse, parseDate, k);
      assert steps[k].1 == ClickerStep(texts[k].0, texts[k].1, parse, parseDate);
    }
    forall k | 0 <= k < |texts| && parse(texts[k].1).Success? && NoDate(parse(texts[k].1).value)
               && AcceptedBefore(texts, k, parse, parseDate)
      ensures texts[k].0 in u
    {
      ClickerPrefix(texts, parse, parseDate, k);
      assert steps[k].1 == ClickerStep(texts[k].0, texts[k].1, parse, parseDate);
    }
  }

  /** `process_dowload` over the unpacked `(name, text)` entries: the run
      completes exactly when every entry parses and every date it meets can
      be read; the names it reports are those of the entries without a date
      that come before the entry that raises. */
  function ProcessDownload(store: map<string, Record>, texts: seq<(string, string)>,
                           parse: string -> Result<Record, ParseError>,
                           parseDate: string -> Option<Date>): (o: Outcome)
    ensures o.error.None? <==> forall k :: 0 <= k < |texts| ==> ClickerAccepts(texts[k].1, parse, parseDate)
    ensures forall n :: n in o.undated ==>
              exists k :: 0 <= k < |texts| && texts[k].0 == n && parse(texts[k].1).Success?
                          && NoDate(parse(texts[k].1).value)
    ensures o.error.None? ==> forall k :: (0 <= k < |texts| && parse(texts[k].1).Success?
                                           && NoDate(parse(texts[k].1).value)) ==> texts[k].0 in o.undated
    ensures forall n :: n in o.undated ==>
              exists k :: 0 <= k < |texts| && texts[k].0 == n && parse(texts[k].1).Success?
                          && NoDate(parse(texts[k].1).value) && AcceptedBefore(texts, k, parse, parseDate)
    ensures forall k :: (0 <= k < |texts| && parse(texts[k].1).Success? && NoDate(parse(texts[k].1).value)
                         && AcceptedBefore(texts, k, parse, parseDate)) ==> texts[k].0 in o.undated
  {
    var steps := ClickerSteps(texts, parse, parseDate);
    var o := Apply(store, steps);
    assert ReportsSkipsBeforeStop(steps, o.undated);
    ClickerReports(texts, parse, parseDate, o.undated);
    assert NoStop(steps) <==> forall k :: 0 <= k < |texts| ==> ClickerAccepts(texts[k].1, parse, parseDate) by {
      forall k | 0 <= k < |texts|
        ensures !steps[k].1.Stop? <==> ClickerAccepts(texts[k].1, parse, parseDate)
      {
        assert steps[k].1 == ClickerStep(texts[k].0, texts[k].1, parse, parseDate);
      }
    }
    o
  }

  /** `process` over the unpacked entries: it never reports a name, and it
      completes exactly when every entry parses to a record whose date can be
      read. */
  function Process(store: map<string, Record>, texts: seq<(string, string)>,
                   parse: string -> Result<Record, ParseError>,
                   parseDate: string -> Option<Date>): (o: Outcome)
    ensures o.undated == []
    ensures o.error.None? <==> forall k :: 0 <= k < |texts| ==> ScraperAccepts(texts[k].1, parse, parseDate)
  {
    var steps := ScraperSteps(texts, parse, parseDate);
    var o := Apply(store, steps);
    assert NoStop(steps) <==> forall k :: 0 <= k < |texts| ==> ScraperAccepts(texts[k].1, parse, parseDate) by {
      forall k | 0 <= k < |texts|
        ensures !steps[k].1.Stop? <==> ScraperAccepts(texts[k].1, parse, parseDate)
      {
        assert steps[k].1 == ScraperStep(texts[k].0, texts[k].1, parse, parseDate);
      }
    }
    assert forall k :: 0 <= k < |steps| ==> !steps[k].1.Skip?;
    o
  }

  /** Processing an archive a second time, as a rerun does, rewrites the same
      files with the same records and reports the same. */
  lemma ProcessDownloadIdempotent(store: map<string, Record>, texts: seq<(string, string)>,
                                  parse: string -> Result<Record, ParseError>,
                                  parseDate: string -> Option<Date>)
    ensures ProcessDownload(ProcessDownload(store, texts, parse, parseDate).store, texts, parse, parseDate)
            == ProcessDownload(store, texts, parse, parseDate)
    ensures Process(Process(store, texts, parse, parseDate).store, texts, parse, parseDate)
            == Process(store, texts, parse, parseDate)
  {
    ApplyIdempotent(store, ClickerSteps(texts, parse, parseDate));
    ApplyIdempotent(store, ScraperSteps(texts, parse, parseDate));
  }

  /** Every file a run leaves behind was there before or holds a record
      parsed from one of the entries, under that entry's name and the date
      `dateparser` read; a run that completes writes every record it
      parsed with a readable date. */
  lemma ProcessDownloadFiles(store: map<string, Record>, texts: seq<(string, string)>,
                             parse: string -> Result<Record, ParseError>,
                             parseDate: string -> Option<Date>, p: string)
    ensures p in ProcessDownload(store, texts, parse, parseDate).store ==>
              p in store || exists k :: 0 <= k < |texts| && parse(texts[k].1).Success?
                                        && ProcessDownload(store, texts, parse, parseDate).store[p] == parse(texts[k].1).value
                                        && ClickerStep(texts[k].0, texts[k].1, parse, parseDate).Put?
                                        && p == ClickerStep(texts[k].0, texts[k].1, parse, parseDate).path
    ensures ProcessDownload(store, texts, parse, parseDate).error.None? ==>
              forall k :: 0 <= k < |texts| && ClickerStep(texts[k].0, texts[k].1, parse, parseDate).Put? ==>
                ClickerStep(texts[k].0, texts[k].1, parse, parseDate).path in ProcessDownload(store, texts, parse, parseDate).store
  {
    var steps := ClickerSteps(texts, parse, parseDate);
    var o := Apply(store, steps);
    ApplyStore(store, steps);
    if p in o.store && p !in store {
      WrittenFrom(steps, p);
      var k :| 0 <= k < |steps| && steps[k].1 == Put(p, Written(steps)[p]);
      assert o.store[p] == Written(steps)[p];
    }
    if o.error.None? {
      forall k | 0 <= k < |texts| && ClickerStep(texts[k].0, texts[k].1, parse, parseDate).Put?
        ensures ClickerStep(texts[k].0, texts[k].1, parse, parseDate).path in o.store
      {
        WrittenComplete(steps, k);
      }
    }
  }

  /** On archives whose records all have a date the two sinks behave the
      same; nexis_scraper differs only by stopping at the first record
      without one. */
  lemma SinksAgreeOnDatedRecords(store: map<string, Record>, texts: seq<(string, string)>,
                                 parse: string -> Result<Record, ParseError>,
                                 parseDate: string -> Option<Date>)
    requires forall k :: 0 <= k < |texts| ==> !(parse(texts[k].1).Success? && NoDate(parse(texts[k].1).value))
    ensures Process(store, texts, parse, parseDate) == ProcessDownload(store, texts, parse, parseDate)
  {
    var cs, ss := ClickerSteps(texts, parse, parseDate), ScraperSteps(texts, parse, parseDate);
    forall k | 0 <= k < |texts|
      ensures cs[k] == ss[k]
    {
      StepsAgree(texts[k].0, texts[k].1, parse, parseDate);
    }
    assert cs == ss;
  }

  /** A document without a Dateline makes nexis_clicker's `parse` raise, and
      the exception ends `process_dowload`: no later entry of the archive is
      written. With the corrected parser the entry is written and the run
      goes on. */
  lemma NoDatelineAbortsArchive(store: map<string, Record>, name: string, later: seq<(string, string)>,
                                parseDate: string -> Option<Date>)
    ensures ProcessDownload(store, [(name, "T\nS\nD\nBodyGraphic")] + later,
                            t => ParseClicker(t, parseDate), parseDate)
            == Outcome(store, [], Some((name, Unparsable(NoDateline))))
    ensures ParseClickerFixed("T\nS\nD\nBodyGraphic", parseDate).Success?
  {
    ClickerRaisesWithoutDateline(parseDate);
    var texts := [(name, "T\nS\nD\nBodyGraphic")] + later;
    var steps := ClickerSteps(texts, t => ParseClicker(t, parseDate), parseDate);
    assert steps[0] == (name, Stop(Unparsable(NoDateline)));
  }
}

=== FILE: text.dfy ===
/** Python string operations the scrapers rely on, stated over `seq<char>`:
    substring search (`in`, `find`, `rfind`), the two-way `split`/`rsplit`
    unpacking, `endswith`, `strip()` and single-character `replace`. */
module Text {
  import opened Wrappers

  /** `pat` occurs in `s` starting at index `i`. */
  predicate OccursAt(s: string, i: int, pat: string) {
    0 <= i && i + |pat| <= |s| && s[i..i + |pat|] == pat
  }

  /** Python's `pat in s`. */
  predicate Contains(s: string, pat: string) {
    exists i | 0 <= i <= |s| :: OccursAt(s, i, pat)
  }

  /** Python's `s.endswith(suffix)`. */
  predicate EndsWith(s: string, suffix: string) {
    |suffix| <= |s| && s[|s| - |suffix|..] == suffix
  }

  /** The first occurrence of `pat` at or after `from`. */
  function FindFrom(s: string, pat: string, from: nat): (r: Option<nat>)
    ensures r.Some? ==> from <= r.value && OccursAt(s, r.value, pat)
    ensures r.Some? ==> forall j :: from <= j < r.value ==> !OccursAt(s, j, pat)
    ensures r.None? ==> forall j :: from <= j ==> !OccursAt(s, j, pat)
    decreases |s| - from
  {
    if from + |pat| > |s| then None
    else if s[from..from + |pat|] == pat then Some(from)
    else FindFrom(s, pat, from + 1)
  }

  /** Python's `s.find(pat)`, with `None` for -1. */
  function Find(s: string, pat: string): (r: Option<nat>)
    ensures r.Some? <==> Contains(s, pat)
    ensures r.Some? ==> OccursAt(s, r.value, pat)
    ensures r.Some? ==> forall j :: 0 <= j < r.value ==> !OccursAt(s, j, pat)
  {
    FindFrom(s, pat, 0)
  }

  /** The last occurrence of `pat` at or before `upto`. */
  function RFindFrom(s: string, pat: string, upto: int): (r: Option<nat>)
    ensures r.Some? ==> r.value <= upto && OccursAt(s, r.value, pat)
    ensures r.Some? ==> forall j :: r.value < j <= upto ==> !OccursAt(s, j, pat)
    ensures r.None? ==> forall j :: j <= upto ==> !OccursAt(s, j, pat)
    decreases if upto < 0 then 0 else upto + 1
  {
    if upto < 0 then None
    else if OccursAt(s, upto, pat) then Some(upto)
    else RFindFrom(s, pat, upto - 1)
  }

  /** Python's `s.rfind(pat)`, with `None` for -1. */
  function RFind(s: string, pat: string): (r: Option<nat>)
    ensures r.Some? <==> Contains(s, pat)
    ensures r.Some? ==> OccursAt(s, r.value, pat)
    ensures r.Some? ==> forall j :: r.value < j ==> !OccursAt(s, j, pat)
  {
    RFindFrom(s, pat, |s|)
  }

  /** `a, b = s.split(sep, 1)`: fails (None) when `sep` does not occur;
      otherwise cuts at the first occurrence. */
  function SplitOnce(s: string, sep: string): (r: Option<(string, string)>)
    ensures r.None? <==> !Contains(s, sep)
    ensures r.Some? ==> s == r.value.0 + sep + r.value.1
    ensures r.Some? ==> forall j :: 0 <= j < |r.value.0| ==> !OccursAt(s, j, sep)
  {
    match Find(s, sep)
    case None => None
    case Some(i) =>
      assert s == s[..i] + sep + s[i + |sep|..];
      Some((s[..i], s[i + |sep|..]))
  }

  /** `a, b = s.rsplit(sep, 1)`: fails (None) when `sep` does not occur;
      otherwise cuts at the last occurrence. */
  function RSplitOnce(s: string, sep: string): (r: Option<(string, string)>)
    ensures r.None? <==> !Contains(s, sep)
    ensures r.Some? ==> s == r.value.0 + sep + r.value.1
    ensures r.Some? ==> forall j :: |r.value.0| < j ==> !OccursAt(s, j, sep)
  {
    match RFind(s, sep)
    case None => None
    case Some(i) =>
      assert s == s[..i] + sep + s[i + |sep|..];
      Some((s[..i], s[i + |sep|..]))
  }

  /** An occurrence inside a prefix of `s` is an occurrence in `s`. */
  lemma OccursInPrefix(s: string, n: nat, j: int, pat: string)
    requires n <= |s|
    requires OccursAt(s[..n], j, pat)
    ensures OccursAt(s, j, pat)
  {
    assert s[..n][j..j + |pat|] == s[j..j + |pat|];
  }

  /** An occurrence inside a suffix of `s` is an occurrence in `s`. */
  lemma OccursInSuffix(s: string, n: nat, j: int, pat: string)
    requires n <= |s|
    requires OccursAt(s[n..], j, pat)
    ensures OccursAt(s, n + j, pat)
  {
    assert s[n..][j..j + |pat|] == s[n + j..n + j + |pat|];
  }

  /** `a, b = s.split(sep)`: Python's unpacking succeeds only when the split
      yields exactly two parts, i.e. when `sep` occurs once. */
  function SplitExactlyTwo(s: string, sep: string): (r: Option<(string, string)>)
    requires sep != []
    ensures r.Some? ==> s == r.value.0 + sep + r.value.1
    ensures r.Some? ==> !Contains(r.value.0, sep) && !Contains(r.value.1, sep)
    ensures r.None? ==> !Contains(s, sep) || Contains(SplitOnce(s, sep).value.1, sep)
  {
    match SplitOnce(s, sep)
    case None => None
    case Some((a, b)) =>
      if Contains(b, sep) then None
      else
        assert !Contains(a, sep) by {
          assert |a| <= |s| && a == s[..|a|];
          forall j | 0 <= j <= |a| && OccursAt(a, j, sep)
            ensures false
          {
            OccursInPrefix(s, |a|, j, sep);
          }
        }
        Some((a, b))
  }

  /** Python's `str.isspace()` for one character: the characters `strip()`
      removes and the regex class `\s` matches. */
  predicate IsSpace(c: char) {
    || ('\t' <= c <= '\r')
    || ('\U{1c}' <= c <= '\U{1f}')
    || c == ' ' || c == '\U{85}' || c == '\U{a0}' || c == '\U{1680}'
    || ('\U{2000}' <= c <= '\U{200a}')
    || c == '\U{2028}' || c == '\U{2029}' || c == '\U{202f}' || c == '\U{205f}'
    || c == '\U{3000}'
  }

  predicate AllSpace(s: string) {
    forall k :: 0 <= k < |s| ==> IsSpace(s[k])
  }

  /** Neither end of `s` is whitespace: what `strip()` guarantees. */
  predicate IsStripped(s: string) {
    s == [] || (!IsSpace(s[0]) && !IsSpace(s[|s| - 1]))
  }

  /** Number of leading whitespace characters. */
  function LeadingSpace(s: string): (n: nat)
    ensures n <= |s|
    ensures AllSpace(s[..n])
    ensures n < |s| ==> !IsSpace(s[n])
  {
    if |s| > 0 && IsSpace(s[0]) then 1 + LeadingSpace(s[1..]) else 0
  }

  /** Number of trailing whitespace characters. */
  function TrailingSpace(s: string): (n: nat)
    ensures n <= |s|
    ensures AllSpace(s[|s| - n..])
    ensures n < |s| ==> !IsSpace(s[|s| - n - 1])
  {
    if |s| > 0 && IsSpace(s[|s| - 1]) then 1 + TrailingSpace(s[..|s| - 1]) else 0
  }

  /** Python's `s.strip()`: the result is a slice of `s` with only whitespace
      cut off on either side, and it neither starts nor ends with whitespace. */
  function Strip(s: string): (r: string)
    ensures IsStripped(r)
    ensures exists i :: 0 <= i <= |s| - |r| && r == s[i..i + |r|]
                        && AllSpace(s[..i]) && AllSpace(s[i + |r|..])
  {
    var i := LeadingSpace(s);
    var t := s[i..];
    var j := TrailingSpace(t);
    var r := t[..|t| - j];
    assert r == s[i..i + |r|];
    assert s[i + |r|..] == t[|t| - j..];
    r
  }

  /** Stripping a string that is already stripped changes nothing, so
      `strip()` is idempotent. */
  lemma StripOfStripped(s: string)
    requires IsStripped(s)
    ensures Strip(s) == s
  {
    var r := Strip(s);
    var i :| 0 <= i <= |s| - |r| && r == s[i..i + |r|] && AllSpace(s[..i]) && AllSpace(s[i + |r|..]);
    if s != [] {
      assert i == 0;
      assert |r| == |s|;
    }
  }

  lemma StripIdempotent(s: string)
    ensures Strip(Strip(s)) == Strip(s)
  {
    StripOfStripped(Strip(s));
  }

  /** Python's `s.replace(a, b)` for single characters `a` and `b`. */
  function ReplaceChar(s: string, a: char, b: char): (r: string)
    ensures |r| == |s|
    ensures forall k :: 0 <= k < |r| ==> r[k] == (if s[k] == a then b else s[k])
  {
    if s == [] then [] else [if s[0] == a then b else s[0]] + ReplaceChar(s[1..], a, b)
  }

  /** Cutting at a separator character that does not occur before it. */
  lemma SplitOnceAtChar(a: string, c: char, b: string)
    requires c !in a
    ensures SplitOnce(a + [c] + b, [c]) == Some((a, b))
  {
    var s := a + [c] + b;
    assert OccursAt(s, |a|, [c]);
    var r := SplitOnce(s, [c]);
    assert r.Some?;
    var (x, y) := r.value;
    forall j | 0 <= j < |a|
      ensures !OccursAt(s, j, [c])
    {
      assert s[j..j + 1] == [s[j]] && s[j] == a[j];
    }
    assert |x| == |a|;
    assert x == s[..|a|] == a;
    assert y == s[|a| + 1..] == b;
  }

  /** What precedes the first occurrence of `sep` does not hold `sep`. */
  lemma SplitOnceFirstPart(s: string, sep: string, a: string, b: string)
    requires sep != [] && SplitOnce(s, sep) == Some((a, b))
    ensures !Contains(a, sep)
  {
    assert a == s[..|a|];
    forall j | 0 <= j <= |a| && OccursAt(a, j, sep)
      ensures false
    {
      OccursInPrefix(s, |a|, j, sep);
    }
  }

  /** The first character of `pat` does not recur in it, so two
      occurrences of `pat` never overlap. */
  predicate FirstCharUnique(pat: string) {
    |pat| > 0 && forall k :: 0 < k < |pat| ==> pat[k] != pat[0]
  }

  /** Two overlapping occurrences: the later one starts with a character
      the earlier one holds at the offset between them. */
  lemma Overlap(s: string, j: int, i: int, pat: string)
    requires OccursAt(s, j, pat) && OccursAt(s, i, pat) && j < i < j + |pat|
    ensures pat[i - j] == pat[0]
  {
    assert s[j..j + |pat|][i - j] == s[i] == s[i..i + |pat|][0];
  }

  /** An occurrence that starts inside `a` lies wholly inside it, when
      `pat`'s first character does not recur. */
  lemma NoOccurrenceBefore(a: string, pat: string, b: string, j: int)
    requires FirstCharUnique(pat) && !Contains(a, pat)
    requires 0 <= j < |a|
    ensures !OccursAt(a + pat + b, j, pat)
  {
    var s := a + pat + b;
    if OccursAt(s, j, pat) {
      if j + |pat| <= |a| {
        assert a[j..j + |pat|] == s[j..j + |pat|];
        assert OccursAt(a, j, pat);
      } else {
        assert s[|a|..|a| + |pat|] == pat;
        Overlap(s, j, |a|, pat);
        assert false;
      }
    }
  }

  /** Cutting at the first `pat` undoes joining at one, when the left part
      holds none and `pat`'s first character does not recur. */
  lemma SplitOnceOfJoin(a: string, pat: string, b: string)
    requires FirstCharUnique(pat) && !Contains(a, pat)
    ensures SplitOnce(a + pat + b, pat) == Some((a, b))
  {
    var s := a + pat + b;
    assert s[|a|..|a| + |pat|] == pat;
    assert OccursAt(s, |a|, pat);
    forall j | 0 <= j < |a|
      ensures !OccursAt(s, j, pat)
    {
      NoOccurrenceBefore(a, pat, b, j);
    }
    var (x, y) := SplitOnce(s, pat).value;
    assert OccursAt(s, |x|, pat);
    assert |x| == |a|;
    assert x == s[..|a|] == a;
    assert y == s[|a| + |pat|..] == b;
  }

  /** A one-character pattern occurs exactly where that character does. */
  lemma NoCharNoOccurrence(s: string, c: char)
    requires c !in s
    ensures !Contains(s, [c])
  {
    forall j | 0 <= j <= |s|
      ensures !OccursAt(s, j, [c])
    {
      if j < |s| {
        assert s[j..j + 1] == [s[j]] && s[j] != c;
      }
    }
  }

  /** A common ending can be cancelled from both sides of `endswith`. */
  lemma EndsWithCommonTail(x: string, z: string, t: string)
    ensures EndsWith(x + t, z + t) <==> EndsWith(x, z)
  {
    var s := x + t;
    if EndsWith(s, z + t) {
      assert x[|x| - |z|..] == s[|s| - |z + t|..|s| - |t|];
    }
    if EndsWith(x, z) {
      assert s[|s| - |z + t|..] == x[|x| - |z|..] + t;
    }
  }

  /** No occurrence at or after `n` means none in the suffix from `n`. */
  lemma NoOccurrenceInSuffix(s: string, n: nat, pat: string)
    requires n <= |s|
    requires forall j :: n <= j ==> !OccursAt(s, j, pat)
    ensures !Contains(s[n..], pat)
  {
    forall j | 0 <= j <= |s[n..]|
      ensures !OccursAt(s[n..], j, pat)
    {
      assert !OccursAt(s, n + j, pat);
      if j + |pat| <= |s| - n {
        assert s[n..][j..j + |pat|] == s[n + j..n + j + |pat|];
      }
    }
  }

  /** A character that occurs in `s` is a one-character occurrence. */
  lemma CharOccurrence(s: string, c: char)
    ensures c in s <==> Contains(s, [c])
  {
    if c in s {
      var k :| 0 <= k < |s| && s[k] == c;
      assert s[k..k + 1] == [c];
      assert OccursAt(s, k, [c]);
    }
    if Contains(s, [c]) {
      var k :| 0 <= k <= |s| && OccursAt(s, k, [c]);
      assert s[k] == s[k..k + 1][0];
    }
  }
}

=== FILE: windows.dfy ===
/** The window planner of `clickthrough`: the list of (month, year) query
    windows, one per calendar month of the configured years. The two scrapers
    differ only in whether the last year is included. */
module Windows {

  /** One query window: a calendar month. Field order follows the source's
      `(month, year)` tuples. */
  datatype Window = Window(month: int, year: int)

  /** `w` comes strictly before `v` in the calendar. */
  predicate Earlier(w: Window, v: Window) {
    w.year < v.year || (w.year == v.year && w.month < v.month)
  }

  /** `[(month, year) for year in range(lo, hi) for month in range(1, 13)]`. */
  function Windows(lo: int, hi: int): (ws: seq<Window>)
    ensures |ws| == if hi <= lo then 0 else 12 * (hi - lo)
    ensures forall k :: 0 <= k < |ws| ==> ws[k] == Window(k % 12 + 1, lo + k / 12)
    decreases hi - lo
  {
    if hi <= lo then [] else seq(12, m => Window(m + 1, lo)) + Windows(lo + 1, hi)
  }

  /** Window list of nexis_clicker: years in `[start, end)`, year-major, so
      twelve windows per year and none when `end <= start`. */
  function ClickerWindows(start: int, end: int): (ws: seq<Window>)
    ensures |ws| == if end <= start then 0 else 12 * (end - start)
    ensures forall k :: 0 <= k < |ws| ==> ws[k].year == start + k / 12 && ws[k].month == k % 12 + 1
  {
    Windows(start, end)
  }

  /** Window list of nexis_scraper: years in `[start, end]`, year-major. */
  function ScraperWindows(start: int, end: int): (ws: seq<Window>)
    ensures |ws| == if end < start then 0 else 12 * (end - start + 1)
    ensures forall k :: 0 <= k < |ws| ==> ws[k].year == start + k / 12 && ws[k].month == k % 12 + 1
  {
    Windows(start, end + 1)
  }

  /** Every calendar month of the half-open year range is planned, and
      nothing else. */
  lemma WindowsCover(lo: int, hi: int, w: Window)
    ensures w in Windows(lo, hi) <==> lo <= w.year < hi && 1 <= w.month <= 12
  {
    var ws := Windows(lo, hi);
    if lo <= w.year < hi && 1 <= w.month <= 12 {
      var k := (w.year - lo) * 12 + (w.month - 1);
      assert k % 12 == w.month - 1 && k / 12 == w.year - lo;
      assert ws[k] == w;
    }
  }

  lemma ClickerWindowsCover(start: int, end: int, w: Window)
    ensures w in ClickerWindows(start, end) <==> start <= w.year < end && 1 <= w.month <= 12
  {
    WindowsCover(start, end, w);
  }

  lemma ScraperWindowsCover(start: int, end: int, w: Window)
    ensures w in ScraperWindows(start, end) <==> start <= w.year <= end && 1 <= w.month <= 12
  {
    WindowsCover(start, end + 1, w);
  }

  /** The windows are visited in calendar order, so none repeats. */
  lemma WindowsChronological(lo: int, hi: int, i: int, j: int)
    requires 0 <= i < j < |Windows(lo, hi)|
    ensures Earlier(Windows(lo, hi)[i], Windows(lo, hi)[j])
  {
    var ws := Windows(lo, hi);
    assert ws[i] == Window(i % 12 + 1, lo + i / 12);
    assert ws[j] == Window(j % 12 + 1, lo + j / 12);
    if i / 12 == j / 12 {
      assert i % 12 < j % 12;
    }
  }

  /** Where a calendar month of the range sits in the list. */
  lemma WindowIndex(lo: int, hi: int, w: Window) returns (k: int)
    requires lo <= w.year < hi && 1 <= w.month <= 12
    ensures 0 <= k < |Windows(lo, hi)| && Windows(lo, hi)[k] == w
  {
    k := (w.year - lo) * 12 + (w.month - 1);
    assert k % 12 == w.month - 1 && k / 12 == w.year - lo;
  }

  /** A month earlier in the calendar is visited earlier. */
  lemma EarlierIndex(lo: int, hi: int, i: int, j: int)
    requires 0 <= i < |Windows(lo, hi)| && 0 <= j < |Windows(lo, hi)|
    requires Earlier(Windows(lo, hi)[i], Windows(lo, hi)[j])
    ensures i < j
  {
    if j < i {
      WindowsChronological(lo, hi, j, i);
    }
  }

  /** A calendar month of the years `[lo, hi)`. */
  predicate InYears(w: Window, lo: int, hi: int) {
    lo <= w.year < hi && 1 <= w.month <= 12
  }

  /** Every planned window is a calendar month of the range. */
  lemma WindowInYears(lo: int, hi: int, k: int)
    requires 0 <= k < |Windows(lo, hi)|
    ensures InYears(Windows(lo, hi)[k], lo, hi)
  {
    var ws := Windows(lo, hi);
    assert ws[k] in ws;
    WindowsCover(lo, hi, ws[k]);
  }
}

=== FILE: wrappers.dfy ===
/** Failure-compatible wrappers used throughout the model: an optional value
    and a value-or-error result. */
module Wrappers {

  datatype Option<+T> = None | Some(value: T) {

    predicate IsFailure() {
      None?
    }

    function PropagateFailure<U>(): Option<U>
      requires None?
    {
      None
    }

    function Extract(): T
      requires Some?
    {
      value
    }
  }

  datatype Result<+R, +E> = Success(value: R) | Failure(error: E) {

    predicate IsFailure() {
      Failure?
    }

    function PropagateFailure<U>(): Result<U, E>
      requires Failure?
    {
      Failure(error)
    }

    function Extract(): R
      requires Success?
    {
      value
    }
  }
}
